=== FILE: README.md ===
# Ski resort finder — a Dafny model of its core

The application scrapes snow reports for US ski resorts from OnTheSnow into a
store keyed by slug. It geocodes a visitor's location and ranks the resorts
within a driving radius by distance, snow quality and a weighted combination of
both. This project models the logic behind those steps as pure Dafny functions
over strings, sequences and maps, and proves what the code promises:

- **The trails/lifts cell reader** (`parse_trails_lifts_text`) is in
  `trails_lifts.dfy`. In a cell like `9/1476% Open` the total and the
  percentage run together. The reader tries every way of cutting off a 1- to
  3-digit percentage and keeps the cut that agrees best with `open/total`,
  with a penalty for implausible totals.
- **The slug expression** used for every resort name is in `slug.dfy`.
- **The regular expressions of the scraper** are in `patterns.dfy`,
  `extract.dfy`, `pairs.dfy` and `coordinates.dfy`, each written out as the
  match it performs. They cover the "2 hours ago" suffix of a name cell, the
  snowfall and base-depth cells, keyword numbers, `open/total` pairs and
  script coordinates.
- **The coordinate table** is in `coord_table.dfy`.
- **The three layouts of a state listing**, the per-row readers, the
  resort-page reader and the upserts into the store are in `scraper.dfy` and
  `resort.dfy`.
- **The model's percent-open and conditions-summary helpers** are in
  `resort.dfy`.
- **Ranking** is in `ranking.dfy`, on a stable sort in `stable_sort.dfy`. It
  covers the radius filter, the snow-quality score, normalization, the
  weighted score, the three orders and the driving-distance fill-in.
- **The two duration texts** are in `durations.dfy`: the drive time of the
  results page and `format_duration`.
- **Geocoding** is in `geocoding.dfy`: the query a location becomes, the
  spelling-out of state codes, and the shortening of a reverse-geocoded name.
- **Shared pieces** are in `wrappers.dfy` (`Option`, `Result`), `text.dfy`
  (characters, digits, number printing, `strip`, `split`, `join`) and
  `rounding.dfy` (Python's `round` and `int` on exact numbers).

The web, the clock, the database engine and all floating-point trigonometry
are parameters. The great-circle distance, the driving-route service, fractional
powers, the geocoding service and page fetches are passed in as functions. A
fetched page is given as what its CSS selectors return.

## Model

| member | source | states |
|---|---|---|
| TrailsLifts.RealismPenalty | resorts/scraper.py:417-421 | a total above 1000 costs 500, one above 500 costs 100, any other nothing |
| TrailsLifts.TrySplit | resorts/scraper.py:403-425 | a cut of k digits yields a candidate exactly when its percentage is 0..100 and its total is positive and at least the open count; the candidate carries that cut's total, percentage and score |
| TrailsLifts.Candidates | resorts/scraper.py:399-427 | every candidate is an admissible cut of 1 to 3 digits, and candidates come in strictly decreasing cut length (3, 2, 1) |
| TrailsLifts.CandidatesComplete | resorts/scraper.py:402-425 | every admissible cut of 1 to 3 digits is among the candidates |
| TrailsLifts.FirstMinimum | resorts/scraper.py:429-433 | the element a stable sort by score puts first has the least score and beats every candidate before it strictly |
| TrailsLiftsProofs.PercentMatch | resorts/scraper.py:394-397 | `^(\d+)/(\d+)%` captures the digit runs on both sides of the slash when `%` follows |
| TrailsLiftsProofs.BareMatch | resorts/scraper.py:441-444 | without a `%` after the digits the cell is read as bare `open/total` |
| TrailsLiftsProofs.ParsePercentForm | resorts/scraper.py:390-440 | a cell `open/combined%…` is decided by the percent branch |
| TrailsLiftsProofs.BestCutUnique | resorts/scraper.py:429-433 | at most one cut is the best (least score, ties to the longer percentage) |
| TrailsLiftsProofs.PickedBeatsCut | resorts/scraper.py:429-433 | the picked cut is admissible, scores no worse than any admissible cut, and strictly better than any admissible longer one |
| TrailsLiftsProofs.ResolvePercentPicksBestCut | resorts/scraper.py:429-433 | when some cut is admissible the result is the open count and the best cut's total, with 0 < total and open ≤ total |
| TrailsLiftsProofs.NoCutNoCandidates | resorts/scraper.py:402-429 | with no admissible cut the candidate list is empty |
| TrailsLiftsProofs.HundredCutAdmissible | resorts/scraper.py:435-439 | when `combined` is longer than `100`, ends in `100` and its head reads as the open count, a 3- or 2-digit cut is admissible, so the `100` branch can only be reached with `combined == "100"` |
| TrailsLiftsProofs.ResolvePercentWithoutCut | resorts/scraper.py:435-444 | with no admissible cut, `combined == "100"` raises (`int('')`) and anything else is read bare, unchecked |
| TrailsLifts.Parse | resorts/scraper.py:375-446 | empty and `-` cells have no counts; known counts carry the captured open count; an error only for a percent form whose combined digits are three long |
| TrailsLifts.ResolvePercent | resorts/scraper.py:399-444 | the percent branch keeps the open count; it raises only for a three-digit `…100` with no admissible cut |
| TrailsLiftsProofs.HundredCuts | resorts/scraper.py:403-411 | the cuts of `100` fit exactly up to ten open (1 digit) or one open (2 digits); the 3-digit cut leaves no total |
| TrailsLiftsProofs.ParseOutcome | resorts/scraper.py:375-446 | no counts exactly for empty, `-` or non-matching cells; an error exactly for `open/100%` with more than ten open; otherwise the captured open count |
| TrailsLiftsProofs.Example1 | resorts/scraper.py:383 | `9/1476% Open` reads (9, 147) |
| TrailsLiftsProofs.Example2 | resorts/scraper.py:384 | `45/16516% Open` reads (45, 165) |
| TrailsLiftsProofs.Example3 | resorts/scraper.py:385 | `144/144100% Open` reads (144, 144) |
| TrailsLiftsProofs.Example4 | resorts/scraper.py:386 | `5/9-` reads (5, 9) |
| TrailsLiftsProofs.Example5 | resorts/scraper.py:441-444 | `200/5%` admits no cut and reads (200, 5), more open than total |
| TrailsLiftsProofs.Example6 | resorts/scraper.py:435-437 | `500/100%` raises |
| Slug.Slugify | resorts/scraper.py:353 | a slug holds only `[a-z0-9-]`, has no dash at either end and no two dashes in a row |
| Slug.CollapseShape | resorts/scraper.py:353 | the substitution leaves slug characters and single dashes; it starts with a dash only when the text starts outside `[a-z0-9]` |
| Slug.Collapse | resorts/scraper.py:353 | never longer than its text, empty only for the empty text, and the identity on text of `[a-z0-9]` |
| Slug.TrimLeadingDashes | resorts/scraper.py:353 | `lstrip('-')` keeps a suffix that does not start with a dash, and removes only dashes |
| Slug.TrimTrailingDashes | resorts/scraper.py:353 | `rstrip('-')` keeps a prefix that does not end with a dash, and removes only dashes |
| Slug.SlugifyFixedPoint | resorts/scraper.py:353 | a text is left unchanged by slugging exactly when it is a slug |
| Slug.SlugifyIdempotent | resorts/scraper.py:479 | slugging a slug changes nothing |
| Slug.SlugOfWords | resorts/scraper.py:543 | two words with punctuation or blanks between them slug to the words joined by one dash |
| Patterns.Search | resorts/scraper.py:486 | `re.search` returns the leftmost offset where the pattern matches, and nothing only when no offset matches |
| Patterns.RemoveStep | resorts/scraper.py:474 | `re.sub(…, '')` keeps the text before the first match and resumes after it |
| Patterns.SuffixFirstMatch | resorts/scraper.py:474 | after a name not ending in a digit, the suffix pattern first matches where the digits of `N hours ago` start |
| Patterns.NoAgoBefore | resorts/scraper.py:474 | no match of the suffix starts before a digit run that follows a non-digit |
| Patterns.CleanRowNameDropsSuffix | resorts/scraper.py:472-474 | removing `N hours ago` (any unit, any case, any blanks) from a name that does not end in a digit gives the stripped name |
| Patterns.CleanRowNameAt | resorts/scraper.py:474 | a match at n with none before it leaves `strip(t[:n])` |
| Patterns.CleanRowName | resorts/scraper.py:472-474 | the name is never longer than the cell, has no blank at either end, and is the stripped cell when the suffix matches nowhere |
| Patterns.CutOneLine | resorts/scraper.py:349-350 | on one line, removing `\s*<lit>.*` keeps the text before the first occurrence of the literal, without the blanks in front of it |
| Patterns.CutNowhere | resorts/scraper.py:349-350 | with no occurrence the title is kept whole |
| Patterns.CleanTitle | resorts/scraper.py:349-350 | the name is never longer than the title, and is the title itself when neither phrase occurs |
| Patterns.NewSnowCell | resorts/scraper.py:485-487 | nothing exactly when no `(\d+)"` matches anywhere; otherwise the number of the leftmost match |
| Patterns.NewSnowCellRoundTrip | resorts/scraper.py:485-487 | a cell starting with a printed number and `"` reads that number |
| Patterns.NewSnowCellNeedsMark | resorts/scraper.py:486-487 | without an inch mark there is no snowfall figure |
| Patterns.BaseDepthCell | resorts/scraper.py:490-493 | a base depth read is the whole digit run at the start of the cell |
| Patterns.BaseDepthSingle | resorts/scraper.py:489-493 | `19"Variable Conditions` style cells read their number |
| Patterns.BaseDepthRange | resorts/scraper.py:489-493 | `16-30"Powder` style cells read the lower figure |
| Extract.GiveBack | resorts/scraper.py:684 | a greedy `(\d+)` gives digits back one at a time until what follows matches: the longest such prefix, or none |
| Extract.KeywordNumber | resorts/scraper.py:680-692 | nothing exactly when neither pattern of the keyword matches anywhere; a match of the first pattern wins over the second; a number comes from a match of one of them |
| Extract.FirstNumber | resorts/scraper.py:680-692 | nothing exactly when no keyword yields a number; otherwise the number of the first keyword that does |
| Extract.ExtractNumber | resorts/scraper.py:674-694 | the same on the lower-cased text: the first keyword that yields a number decides |
| Extract.KeywordNumberNeedsKeyword | resorts/scraper.py:680-692 | a keyword that is not written reads no number |
| Extract.ExtractNumberNeedsKeyword | resorts/scraper.py:674-694 | a text holding none of the keywords, once lower-cased, reads no number |
| Extract.ExtractNumberLeading | resorts/scraper.py:678-690 | `base: 24"` style text reads 24 by the first pattern |
| Extract.ExampleNewSnowBacktracks | resorts/scraper.py:550 | in `1224h` the second pattern of `24h` backtracks, so the new snow reads 12 |
| Extract.PagePair | resorts/scraper.py:655-665 | nothing exactly when the pattern matches nowhere; otherwise its leftmost match |
| Extract.ExtractConditions | resorts/scraper.py:626-671 | the base depth and new snow are the page readers' values; the trails pair is the first `trails`/`runs` reading and the lifts pair the first `lifts` reading, both counts or neither |
| Extract.ConditionsOpen | resorts/scraper.py:667-669 | a page is open exactly when its leftmost trails or lifts pair has a positive open count |
| Extract.NoSlashClosed | resorts/scraper.py:655-669 | a page without a slash has no trail or lift counts and is closed |
| Extract.BaseOfPage | resorts/scraper.py:646-648 | `base: 24"` at the first keyword `base` anywhere in a page gives the base depth |
| Extract.NewSnowOfPage | resorts/scraper.py:651-653 | `new 6" in 24` style text at the first keyword `new` anywhere in a page gives the 24-hour snowfall |
| Extract.FindText | resorts/scraper.py:697-708 | nothing exactly when no pattern matches; otherwise the text of the leftmost match of the first pattern that matches |
| Extract.DivPair | resorts/scraper.py:553-565 | the div layout reads a pair exactly when some pattern matches the text |
| Extract.FoundTextReads | resorts/scraper.py:553-558 | the text found by the patterns always holds a pair for the second search |
| Extract.MatchedTextAgain | resorts/scraper.py:553-558 | the text a pair pattern matched is matched again by `(\d+)\s*/\s*(\d+)` |
| Extract.DivPairReadsFirstMatch | resorts/scraper.py:553-565 | the div layout reads the numbers of the first pattern's leftmost match, or nothing |
| Pairs.FindPair | resorts/scraper.py:656-665 | a pair search returns the leftmost match, and nothing only when no offset matches |
| Pairs.FirstWordAt | resorts/scraper.py:656 | the alternation `(?:trails\|runs)` takes the first word written at the offset, ignoring case |
| Pairs.PairParts | resorts/scraper.py:656-665 | a match reads the digit runs around its slash |
| Pairs.PairAgain | resorts/scraper.py:553-558 | whatever a pair pattern matched, the spaced pattern matches again from its first character with the same numbers |
| Coordinates.CoordAt | resorts/scraper.py:606-607 | the group `([-\d.]+)` takes the whole run of the class, and fails only where the run is empty |
| Coordinates.UnsignedAccepts | resorts/scraper.py:609-613 | `float` accepts an unsigned numeral exactly when it has no minus, at most one point and a digit |
| Coordinates.ParseFloatAccepts | resorts/scraper.py:609-613 | `float` accepts a string of the class exactly when a minus can only come first, it has at most one point, and it has a digit |
| Coordinates.ParseFloat | resorts/scraper.py:609-613 | a number needs a non-empty string; it is negative only after a leading minus, and never positive after one |
| Coordinates.ParseFloatRoundTrip | resorts/scraper.py:611 | `float` reads back sign, integer digits and fraction digits of every numeral |
| Coordinates.ParseFloatExample | resorts/scraper.py:33 | `-106.3742` reads exactly |
| Coordinates.FirstKey | resorts/scraper.py:606-607 | `re.search` for a key finds nothing exactly when the key matches nowhere; otherwise its first match and the numeral captured there |
| Coordinates.KeyPair | resorts/scraper.py:606-613 | no pair when either key matches nowhere; a pair is the parse of the numerals at the first match of each key |
| Coordinates.CenterPair | resorts/scraper.py:616-621 | no pair without a `center` array; a pair is the parse of the first array's numerals |
| Coordinates.KeyNumberOfText | resorts/scraper.py:606-607 | a key, blanks and a numeral read as that numeral |
| Coordinates.CenterOfText | resorts/scraper.py:616 | `center: [x, y]` with blanks reads the numerals x and y |
| Coordinates.ParsePair | resorts/scraper.py:609-621 | a pair parses exactly when both numerals do |
| Coordinates.ScriptCoordinates | resorts/scraper.py:603-621 | a script yields the key pair when both keys parse, else the `center` array |
| Coordinates.KeysGiveCoordinates | resorts/scraper.py:606-621 | the first occurrence of each key decides; an unparsable pair falls through to the `center` array |
| Coordinates.NoLatitudeUsesCenter | resorts/scraper.py:606-619 | a script without the latitude key is read through its `center` array |
| Coordinates.FirstScriptIsFirst | resorts/scraper.py:602-623 | the first script that yields a pair wins, and nothing is found only when none does |
| Coordinates.PageCoordinates | resorts/scraper.py:592-623 | a slug in the table gets the table's last entry for it; any other gets the first script's pair |
| Coordinates.Lookup | resorts/scraper.py:598-599 | a slug is found exactly when an entry has it, and gets that entry's value |
| Coordinates.TableBeforeScripts | resorts/scraper.py:597-623 | a slug outside the table is placed by the first script that yields a pair, and not at all when no script does |
| Coordinates.TableBeatsPage | resorts/scraper.py:191 | `windham-mountain` is placed at (42.2958, -74.2567) whatever its page holds |
| Resorts.PercentOpen | resorts/models.py:57-69 | 0 without a truthy total; otherwise the nearest integer to open/total·100, ties to even |
| Resorts.PercentOpenBounds | resorts/models.py:57-62 | with no more open than total the percentage is 0..100, and 100 exactly when at least 199 of 200 are open |
| Resorts.SummaryParts | resorts/models.py:71-80 | one part for each truthy field, in the order base, new, trails: `<b>" base`, `<n>" new` after it, `<o>/<t> trails` last; every part starts with a digit and none holds `\|` |
| Resorts.ConditionsSummary | resorts/models.py:71-80 | `No data` exactly when there are no parts; otherwise the text starts with a digit and splitting it on ` \| ` gives the parts back |
| Resorts.SummaryNoData | resorts/models.py:71-80 | `No data` exactly when base depth, new snow and trails open/total are all falsy |
| Resorts.NoZeroTrails | resorts/models.py:78-79 | no part of the summary reads `0/…` |
| Resorts.PartShape | resorts/models.py:74-79 | each part is digits then an inch mark, or a non-zero count then a slash |
| Resorts.Apply | resorts/scraper.py:362-372 | an upsert writes every listed field, keeps slug, region and acres open, and keeps the page-only fields unless it comes from a page |
| Resorts.Upsert | resorts/models.py:14 | the store gains the slug, its record holds the write, other records are untouched, and records stay keyed by their slug |
| Resorts.UpsertTwice | resorts/scraper.py:511-527 | two writes to one slug leave one record holding the second write |
| Resorts.UpsertIdempotent | resorts/scraper.py:573-589 | writing the same values again changes nothing |
| Resorts.ApplyWrites | resorts/scraper.py:226-231 | writes keep records keyed by their slug and never lose a slug |
| Resorts.ApplyWritesKeys | resorts/scraper.py:297-302 | after a scrape the store holds the old slugs and exactly the written ones |
| Resorts.ApplyWritesUntouched | resorts/scraper.py:310-315 | a record no write touches is kept |
| Resorts.ApplyWritesLast | resorts/scraper.py:319-325 | a written slug holds what its last write listed |
| Resorts.ApplyWritesConcat | resorts/scraper.py:226-231 | applying two batches in turn is applying them together |
| Scraper.TableWrite | resorts/scraper.py:297-301 | a row writes nothing exactly when it has fewer than five cells, no link, or a trails or lifts cell that raises; a write has the scraper's shape, is not from a page and is placed from the table |
| Scraper.TableRowWrite | resorts/scraper.py:461-527 | the write of a table row carries the cleaned link name and its slug, the new snow, base depth, trails and lifts read from the cells, and the table's coordinates |
| Scraper.CollectMembers | resorts/scraper.py:297-301 | a loop that skips failing rows keeps exactly the values some row yields |
| Scraper.ParseTableRow | resorts/scraper.py:449-527 | fewer than five cells or no link writes nothing; it raises exactly when the trails or lifts cell does; a write has the scraper's shape |
| Scraper.TableRowReads | resorts/scraper.py:461-504 | a five-cell row reads its new snow, base depth and trails, has no lift counts, and is open exactly when some trail is |
| Scraper.RowFields | resorts/scraper.py:484-504 | a row that does not raise carries the figures its cells read |
| Scraper.TrailsCellReads | resorts/scraper.py:495-497 | a trails cell `open/total` reads those counts |
| Scraper.ParseResortRow | resorts/scraper.py:530-589 | a div row writes exactly when it has a link; the write is named and linked by its first `snow-report` link, else its first link, its depths are the row readers' `base`/`depth` and `new`/`24h` numbers and its pairs the `div` patterns' readings |
| Scraper.DivRowCounts | resorts/scraper.py:553-565 | a div row's trails and lifts are the numbers of the first matching pattern's leftmost match, or none |
| Scraper.RowCoordinates | resorts/scraper.py:546 | a div row gets coordinates exactly when its slug is in the table, and then those of the table's last entry for it |
| Scraper.ScrapeIndividual | resorts/scraper.py:328-372 | a page writes exactly when it is fetched and has an `h1`; the name is the cleaned title and the slug its slug, the coordinates are the page rule's, the conditions are those read off the page text, and the URL is the page's |
| Scraper.PagePlacement | resorts/scraper.py:355-356 | a page whose slug is in the table takes the table's last entry for it; any other takes the first script that yields a pair |
| Scraper.PageOpen | resorts/scraper.py:359 | a resort page is open exactly when its leftmost trails or lifts pair has a positive open count |
| Scraper.ScrapeState | resorts/scraper.py:270-325 | a listing that cannot be fetched writes nothing; otherwise at most one write per row or link of the layout in use |
| Scraper.TableFirst | resorts/scraper.py:295-302 | a listing with data rows is read from its table alone |
| Scraper.DivsBeforeLinks | resorts/scraper.py:304-315 | without data rows but with div rows the links are never followed |
| Scraper.HeaderOnlyBody | resorts/scraper.py:288-293 | header-only `tbody` rows hide the plain table rows |
| Scraper.ScrapeStateSources | resorts/scraper.py:286-325 | every upsert of a listing comes from a row or a fetched link of the layout in use, and every such one is made |
| Scraper.ScrapeStateShape | resorts/scraper.py:286-325 | every upsert has the scraper's shape, and only the link layout writes page-only fields |
| Scraper.ScrapeStore | resorts/scraper.py:277-282 | a listing that cannot be fetched leaves the store as it was; one that can adds exactly its slugs |
| Scraper.ScrapeAll | resorts/scraper.py:219-231 | scraping keeps records keyed by slug and never loses a slug |
| Scraper.ScrapeAllWrites | resorts/scraper.py:219-231 | scraping the states one by one applies all their writes in order |
| Scraper.ScrapeAllStore | resorts/scraper.py:219-231 | the store afterwards holds the old slugs and exactly the written ones; unwritten records are untouched |
| Scraper.NothingFetched | resorts/scraper.py:226-231 | when no listing can be fetched the store is unchanged |
| Scraper.GetOrRefresh | resorts/scraper.py:195-216 | more than fifty fresh records serve the store unchanged; otherwise the store gains exactly the slugs the states' listings write, loses none, and stays keyed by slug |
| Durations.Clock | resorts/views.py:23-25 | `divmod` by 60: minutes below 60 and 60·h + m equal to the total |
| Durations.DriveTime | resorts/views.py:19-31 | no text exactly for a missing or zero duration; otherwise the text of the whole minutes, truncated |
| Durations.ShapeRoundTrip | resorts/views.py:26-31 | in either formatter's unit words, each of the three shapes reads back as its hours and minutes |
| Durations.ClockRoundTrip | resorts/views.py:26-31 | the compact text of h hours and m minutes reads back as 60·h + m minutes |
| Durations.ClockText | resorts/views.py:23-31 | the text is never empty and a non-negative count of minutes reads back as that count |
| Durations.ReadTime | resorts/views.py:26-31 | only a text starting with a digit reads as minutes; the partner of ClockText and FormatDuration |
| Durations.ClockTextInjective | resorts/views.py:23-31 | two different minute counts never print alike |
| Durations.DriveTimeMinutes | resorts/views.py:21-31 | a positive drive time prints as its whole minutes, rounded down |
| Durations.TinyDriveTime | resorts/views.py:21-27 | under a minute of driving prints `0min`, not nothing |
| Durations.FormatDuration | resorts/distance.py:325-342 | the text is never empty; FormatShape and FormatDurationReads state it below a day, HoursMinutesTotal and DaysHours its parts, and CarriedAgrees compares it with the carried variant |
| Durations.FormatShape | resorts/distance.py:329-337 | below an hour the text is `<round(60·hours)> min`; up to a day it is `<h> hr`, or `<h> hr <m> min` with the whole hours and the rounded minutes of the fraction |
| Durations.FormatDurationReads | resorts/distance.py:329-337 | below a day the text reads back as the duration rounded to the minute |
| Durations.FloatMod | resorts/distance.py:340 | `x % 24` lies in [0, 24) |
| Durations.HoursMinutesTotal | resorts/distance.py:332-337 | between an hour and a day, 60·h + m is the duration rounded to the minute, with 0 ≤ m ≤ 60 |
| Durations.DaysHours | resorts/distance.py:338-342 | from a day on, 24·days + h is the whole hours, the hours part is 0..23, and "days" is plural from two |
| Durations.SixtyMinutes | resorts/distance.py:332-337 | 1.995 hours prints `1 hr 60 min` |
| Durations.HoursMinutesCarried | resorts/distance.py:332-337 | with a carry, the minutes stay below 60 and the total is unchanged |
| Durations.FormatDurationCarried | resorts/distance.py:325-342 | the text is never empty; CarriedAgrees relates it to the text as written |
| Durations.CarriedSixty | resorts/distance.py:332-337 | with the carry, 1.995 hours prints `2 hr` |
| Durations.CarriedAgrees | resorts/distance.py:325-342 | the carried text differs from the written one exactly where that one prints sixty minutes |
| Geocoding.LocationQuery | resorts/geocoding.py:21-71 | no query exactly for the empty string; a stripped text starting with five digits queries that zip; a postal code is five digits; a place query ends in `, USA` |
| Geocoding.Geocode | resorts/geocoding.py:21-41 | an empty location finds nothing; any other is answered by the search for its query |
| Geocoding.StrippedZip | resorts/geocoding.py:34-37 | after `strip()`, `$` before a final newline never matters |
| Geocoding.ZipExtensionDropped | resorts/geocoding.py:37-49 | a zip+4 searches exactly as its five-digit zip |
| Geocoding.FiveDigitZip | resorts/geocoding.py:34-49 | a location that strips to five digits queries that zip |
| Geocoding.PlaceSearch | resorts/geocoding.py:58-67 | any other text searches its normalized form followed by `, USA` |
| Geocoding.WhitespaceSearch | resorts/geocoding.py:31-41 | whitespace alone is not empty: it searches `, USA` |
| Geocoding.StateOf | resorts/geocoding.py:78-92 | every state code is two capitals and every name ends in three letters |
| Geocoding.NormalizeWith | resorts/geocoding.py:95-102 | without a trailing `, XX` the location is returned as it is; a change replaces the end by `, ` and a state's name from the table |
| Geocoding.NormalizeStateAbbreviation | resorts/geocoding.py:74-102 | the same with the 51-entry table of state codes |
| Geocoding.StateMatchIff | resorts/geocoding.py:95 | the search finds a match exactly where `,\s*([A-Z]{2})$` matches |
| Geocoding.ExpandsKnownCode | resorts/geocoding.py:95-100 | a trailing comma, blanks and a known code in any case become `, ` and the state's name |
| Geocoding.UnknownCodeKept | resorts/geocoding.py:94-101 | a location ending in a comma, any run of blanks and two letters of either case, optionally before a final line feed, is returned unchanged when the letters name no state |
| Geocoding.NormalizeIdempotent | resorts/geocoding.py:74-102 | normalizing twice is normalizing once |
| Geocoding.ExpandsExample | resorts/geocoding.py:95-100 | `Denver,co` followed by a newline becomes `Denver, Colorado` |
| Geocoding.ShortName | resorts/geocoding.py:150-167 | a name is shown exactly when the answer has one |
| Geocoding.ShortNameOnePart | resorts/geocoding.py:158-161 | a name without a comma is shown whole, stripped |
| Geocoding.ShortNameFirstTwo | resorts/geocoding.py:158-160 | a longer name is cut to its first two parts, stripped, joined by `, ` |
| StableSort.SortSorted | resorts/distance.py:147-152 | the sorted list is in key order |
| StableSort.SortPermutes | resorts/distance.py:147-152 | the sorted list is a permutation of the input |
| StableSort.SortStable | resorts/distance.py:147-152 | elements with equal keys keep their input order |
| StableSort.SortOfSorted | resorts/distance.py:147-152 | a list already in order is left as it is |
| Ranking.SnowQuality | resorts/distance.py:157-194 | 0 for a closed resort, never negative, and at most 100 when no open count exceeds its total |
| Ranking.BaseTerm | resorts/distance.py:176-177 | base depth alone scores half its inches up to 60 inches, then 30 |
| Ranking.NewSnowTerm | resorts/distance.py:181-182 | new snow alone scores 2.5 points an inch up to 14 inches, then 35 |
| Ranking.QualityAdds | resorts/distance.py:172-194 | an open resort's score is the sum of the scores of each field alone |
| Ranking.Share | resorts/distance.py:184-192 | a share counts only when both counts are truthy, and is at most its points when open ≤ total |
| Ranking.PowderOutweighsBase | resorts/distance.py:174-182 | 14 inches of new snow score 35, a 60-inch base 30 |
| Ranking.TrailsWeigh20 | resorts/distance.py:184-187 | trails alone score 20 times the share of trails open |
| Ranking.LiftsWeigh15 | resorts/distance.py:189-192 | lifts alone score 15 times the share of lifts open |
| Ranking.FullMarks | resorts/distance.py:157-194 | a 60-inch base, 14 inches of new snow and everything open score exactly 100 |
| Ranking.Candidates | resorts/distance.py:73-86 | a resort is a candidate exactly when it is listed, has truthy coordinates, and lies within 1.5 times the radius as the crow flies |
| Ranking.Reach | resorts/distance.py:93-125 | a candidate is found exactly when its road miles (the route when one is found, else the straight line) are within the radius, and then at those miles, with the route's hours and its own snow quality |
| Ranking.ReachAllMembers | resorts/distance.py:92-125 | a result comes from exactly the candidates whose second pass finds it |
| Ranking.Max | resorts/distance.py:131-132 | the maximum is in the list and bounds every element |
| Ranking.OrOne | resorts/distance.py:131-132 | the divisor is never zero and is the maximum when that is non-zero |
| Ranking.Weights | resorts/distance.py:223-229 | priority `distance` weights distance 60%, any other weights snow 60%; the weights sum to 1 |
| Ranking.Score | resorts/distance.py:131-144 | distance score · max = max − distance; quality score · max = quality; the combined score is (q + 0.01)^wq · (d + 0.01)^wd with the priority's weights; the resort, distance, driving time and quality are kept |
| Ranking.ScoreAll | resorts/distance.py:131-144 | every result is scored against the largest distance and quality of the whole result set, each replaced by 1 when 0 |
| Ranking.Combined | resorts/distance.py:197-234 | the product of (quality score + 0.01) and (distance score + 0.01) raised to 0.4 and 0.6 for priority `distance`, to 0.6 and 0.4 for any other |
| Ranking.ScoreKeeps | resorts/distance.py:140-144 | scoring keeps the resort, distance, driving time and quality found |
| Ranking.DistanceScores | resorts/distance.py:131-136 | distance scores lie in [0, 1], the farthest scores 0, and all score 1 when every distance is 0 |
| Ranking.QualityScores | resorts/distance.py:132-138 | quality scores lie in [0, 1], and the best scores 1 when it has any quality |
| Ranking.FilterByDistance | resorts/distance.py:47-154 | never more results than resorts, and none when no resort is a candidate |
| Ranking.FilterSortsResults | resorts/distance.py:88-154 | the ranking is the stable sort of the scored results; both early exits give the empty list |
| Ranking.FilterPermutes | resorts/distance.py:146-154 | the ranking is a permutation of the scored results |
| Ranking.FilterOrdered | resorts/distance.py:146-152 | nearest first for `distance`, best snow first for `conditions`, best combined score first otherwise |
| Ranking.FilterStable | resorts/distance.py:146-152 | results tying on the key keep the order of the resort list |
| Ranking.FilterShape | resorts/distance.py:71-125 | a ranked resort is listed, located, within 1.5 times the radius as the crow flies and within the radius; it is ranked at its road miles with its route's hours, has a driving time exactly when a route was found, and its own snow quality |
| Ranking.FilterKeeps | resorts/distance.py:71-125 | a listed, located resort within 1.5 times the radius as the crow flies and within the radius by road miles is ranked at those miles with its route's hours |
| Ranking.SliceEnd | resorts/distance.py:255 | `[:n]` keeps min(n, len) entries, or for a negative n drops the last |n| |
| Ranking.RouteTo | resorts/distance.py:254-265 | a located resort is asked of the route service; one missing a coordinate gets no route |
| Ranking.DrivingDistances | resorts/distance.py:237-272 | one entry out for every entry in; DrivingDistancesEffect states what each holds |
| Ranking.DrivingDistancesEffect | resorts/distance.py:254-272 | among the first entries a located resort gets the route service's answer and one missing a coordinate gets none; later entries are untouched; resort and distance are kept |
| Ranking.DrivingDistancesIdempotent | resorts/distance.py:254-272 | looking the routes up again changes nothing |
| Ranking.NegativeLimit | resorts/distance.py:255 | a limit of −1 looks up every entry but the last |
| Rounding.RoundRatioIsNearest | resorts/models.py:61 | `round(n/d)` is within half a unit of the quotient, and even on a tie |
| Rounding.RoundRatioUnique | resorts/scraper.py:412 | any integer within half a unit, even on a tie, is the rounded value |
| Rounding.RoundReal | resorts/distance.py:330 | `round(x)` is the nearest integer, ties to even |
| Rounding.Trunc | resorts/views.py:23 | `int(x)` truncates toward zero |

## Left out

- HTTP requests, HTML parsing and JSON decoding are not modelled. A state
  listing is the rows and links its selectors return, and a resort page is its
  `h1` text, page text and script strings. Page and listing fetches,
  `urljoin(BASE_URL, …)`, the geocoding service (`_make_nominatim_request`)
  and the reverse-geocoding request are function parameters. A failed request
  or an exception is `None`.
- `haversine_distance`, the OSRM route request with its meter/second
  conversions and `round(x, 1)`/`round(x, 2)`, and the fractional powers of
  `_calculate_2d_score` are function parameters (`Ranking.Oracles`).
- Floats are exact reals, and integers are unbounded. `round` is
  round-half-to-even on the exact value, with no binary rounding artefacts.
  `float()` on a script numeral gives its exact decimal value.
- `lower`, `upper`, `\d` and `\s` are ASCII only, with no Unicode case folding
  or digits.
- `get_us_states` is the constant `Scraper.UsStates`. `Scraper.GetOrRefresh` takes the
  list of states as a parameter, so that its proofs hold for any list.
- Logging, `timezone`, settings, the count of records scraped within the cache
  timeout (`Scraper.GetOrRefresh` takes it as a parameter) and the name
  ordering of the returned records are not modelled.
- `seed_sample_resorts` and the JSON shaping in the views are not modelled.
  They lie outside the scraping, ranking and geocoding logic.
- Ranking.RouteTo: a resort with a missing coordinate is assumed to make the
  route request fail. The source sends `None` in the URL, and the service's
  answer to that is outside the model.
- Ranking.SnowQuality: counts are natural numbers, so negative depths or
  counts, which the database would allow, are not covered.
- Geocoding.NormalizeStateAbbreviation: the generic lemmas are stated for any
  code table whose names end in three letters (`NormalizeWith`) and then
  instantiated with the source's table, so the proofs do not unfold the
  51-entry table.
- Durations.FormatDurationReads: the read-back is stated for durations from 0
  up to a day. A negative duration prints a minus sign the reader does not
  take, and from a day on the text drops the minutes, which DaysHours states
  instead.

## Findings

| source | as written | input that shows it | evidently intended | confidence | as-written member | corrected member |
|---|---|---|---|---|---|---|
| resorts/distance.py:333-337 | the minutes are `round((hours - h) * 60)` with no carry into the hours | 1.995 hours prints `1 hr 60 min` | minutes of 60 carry into the hours: `2 hr` | not executed | Durations.SixtyMinutes | Durations.CarriedAgrees |

=== FILE: coord_table.dfy ===
/** The fallback coordinate table of resorts/scraper.py (`RESORT_COORDS`,
    lines 32-192): slug to (latitude, longitude), as decimal reals, in the
    order of the source. Its slugs are distinct, so the first entry for a slug
    is the dictionary's entry. */
module CoordTable {

  const ResortCoords: seq<(string, (real, real))> := [
    ("vail", (39.6403, -106.3742)),
    ("breckenridge", (39.4817, -106.0384)),
    ("park-city", (40.6514, -111.5080)),
    ("mammoth-mountain", (37.6308, -119.0326)),
    ("jackson-hole", (43.5875, -110.8279)),
    ("big-sky", (45.2618, -111.4015)),
    ("aspen-snowmass", (39.2084, -106.9490)),
    ("steamboat", (40.4572, -106.8045)),
    ("telluride", (37.9375, -107.8123)),
    ("taos", (36.5969, -105.4544)),
    ("squaw-valley-alpine-meadows", (39.1969, -120.2358)),
    ("heavenly", (38.9353, -119.9400)),
    ("kirkwood", (38.6850, -120.0653)),
    ("northstar", (39.2747, -120.1210)),
    ("sugar-bowl", (39.3047, -120.3344)),
    ("mt-bachelor", (43.9792, -121.6886)),
    ("crystal-mountain-washington", (46.9282, -121.5045)),
    ("stevens-pass", (47.7448, -121.0890)),
    ("sun-valley", (43.6806, -114.4083)),
    ("alta", (40.5884, -111.6386)),
    ("snowbird", (40.5830, -111.6538)),
    ("deer-valley", (40.6375, -111.4783)),
    ("brighton", (40.5980, -111.5832)),
    ("killington", (43.6045, -72.8201)),
    ("stowe", (44.5303, -72.7814)),
    ("sugarbush", (44.1357, -72.9012)),
    ("jay-peak", (44.9275, -72.5050)),
    ("sunday-river", (44.4736, -70.8567)),
    ("sugarloaf", (45.0314, -70.3131)),
    ("loon-mountain", (44.0364, -71.6214)),
    ("cannon-mountain", (44.1567, -71.6986)),
    ("okemo", (43.4017, -72.7170)),
    ("stratton", (43.1136, -72.9081)),
    ("mount-snow", (42.9601, -72.9204)),
    ("whiteface", (44.3656, -73.9026)),
    ("gore-mountain", (43.6717, -74.0067)),
    ("hunter-mountain", (42.2036, -74.2312)),
    ("camelback", (41.0519, -75.3567)),
    ("blue-mountain-pennsylvania", (40.8231, -75.5156)),
    ("snowshoe", (38.4125, -79.9942)),
    ("wintergreen", (37.9367, -78.9481)),
    ("winterplace", (37.5978, -81.1153)),
    ("boyne-mountain", (45.1628, -84.9364)),
    ("crystal-mountain-michigan", (44.5250, -85.9986)),
    ("nubs-nob", (45.4697, -84.9236)),
    ("big-bear", (34.2358, -116.8906)),
    ("snow-summit", (34.2311, -116.8917)),
    ("mountain-high", (34.3717, -117.6908)),
    ("arapahoe-basin", (39.6425, -105.8719)),
    ("keystone", (39.6064, -105.9519)),
    ("copper-mountain", (39.5022, -106.1497)),
    ("winter-park", (39.8841, -105.7628)),
    ("loveland", (39.6800, -105.8978)),
    ("eldora", (39.9375, -105.5828)),
    ("crested-butte", (38.8986, -106.9650)),
    ("wolf-creek", (37.4728, -106.7936)),
    ("purgatory", (37.6303, -107.8142)),
    ("monarch-mountain", (38.5125, -106.3322)),
    ("ski-santa-fe", (35.7953, -105.8036)),
    ("angel-fire", (36.3939, -105.2847)),
    ("red-river", (36.7064, -105.4072)),
    ("sipapu", (36.0947, -105.5031)),
    ("ski-apache", (33.3989, -105.7928)),
    ("snowbasin", (41.2158, -111.8569)),
    ("powder-mountain", (41.3789, -111.7811)),
    ("brian-head", (37.7025, -112.8497)),
    ("sundance", (40.3925, -111.5878)),
    ("whitefish-mountain", (48.4836, -114.3553)),
    ("red-lodge", (45.1853, -109.3417)),
    ("bridger-bowl", (45.8175, -110.8978)),
    ("grand-targhee", (43.7903, -110.9581)),
    ("schweitzer", (48.3675, -116.6222)),
    ("silver-mountain", (47.5383, -116.1128)),
    ("lookout-pass", (47.4544, -115.7072)),
    ("bogus-basin", (43.7647, -116.1028)),
    ("brundage", (45.0422, -116.1531)),
    ("timberline-lodge", (45.3306, -121.7108)),
    ("mt-hood-meadows", (45.3311, -121.6656)),
    ("mt-hood-skibowl", (45.3033, -121.7578)),
    ("mt-ashland", (42.0828, -122.7178)),
    ("anthony-lakes", (44.9617, -118.2306)),
    ("mission-ridge", (47.2931, -120.4017)),
    ("snoqualmie-pass", (47.4206, -121.4153)),
    ("mt-baker", (48.8617, -121.6650)),
    ("white-pass", (46.6375, -121.3900)),
    ("49-degrees-north", (48.3014, -117.5617)),
    ("diamond-peak", (39.2531, -119.9206)),
    ("mt-rose", (39.3147, -119.8856)),
    ("sierra-at-tahoe", (38.8000, -120.0800)),
    ("boreal", (39.3322, -120.3478)),
    ("soda-springs", (39.3197, -120.3800)),
    ("donner-ski-ranch", (39.3183, -120.3306)),
    ("homewood", (39.0856, -120.1608)),
    ("alpine-meadows", (39.1644, -120.2386)),
    ("palisades-tahoe", (39.1969, -120.2358)),
    ("dodge-ridge", (38.1889, -119.9556)),
    ("bear-valley", (38.4681, -120.0417)),
    ("june-mountain", (37.7675, -119.0903)),
    ("china-peak", (37.2347, -119.1572)),
    ("snow-valley", (34.2247, -117.0356)),
    ("mount-baldy", (34.2383, -117.6458)),
    ("attitash", (44.0828, -71.2297)),
    ("black-mountain", (44.0575, -71.1511)),
    ("bretton-woods", (44.2586, -71.4392)),
    ("cranmore-mountain-resort", (44.0542, -71.1086)),
    ("crotched-mountain", (43.0222, -71.8742)),
    ("dartmouth-skiway", (43.7856, -72.0869)),
    ("gunstock", (43.5453, -71.3636)),
    ("king-pine", (43.8583, -71.1522)),
    ("mount-sunapee", (43.3256, -72.0817)),
    ("pats-peak", (43.0761, -71.7828)),
    ("ragged-mountain-resort", (43.4756, -71.8539)),
    ("tenney-mountain", (43.8086, -71.7511)),
    ("waterville-valley", (43.9506, -71.5281)),
    ("whaleback-mountain", (43.6083, -72.1233)),
    ("wildcat-mountain", (44.2633, -71.2392)),
    ("bolton-valley", (44.4178, -72.8486)),
    ("bromley-mountain", (43.2178, -72.9397)),
    ("burke-mountain", (44.5767, -71.8978)),
    ("killington-resort", (43.6045, -72.8201)),
    ("mad-river-glen", (44.2039, -72.9192)),
    ("magic-mountain", (43.1908, -72.7839)),
    ("okemo-mountain-resort", (43.4017, -72.7170)),
    ("pico-mountain", (43.6614, -72.8439)),
    ("saskadena-six", (43.8806, -72.5356)),
    ("smugglers-notch-resort", (44.5917, -72.7858)),
    ("stowe-mountain", (44.5303, -72.7814)),
    ("stratton-mountain", (43.1136, -72.9081)),
    ("big-moose-mountain", (45.3619, -69.5411)),
    ("black-mountain-of-maine", (44.4597, -70.7411)),
    ("camden-snow-bowl", (44.2172, -69.1019)),
    ("lost-valley", (44.1211, -70.2292)),
    ("mt-abram-ski-resort", (44.3886, -70.4367)),
    ("new-hermon-mountain", (44.8556, -68.9272)),
    ("pleasant-mountain", (44.0533, -70.8758)),
    ("saddleback-inc", (44.9406, -70.5011)),
    ("berkshire-east", (42.6272, -72.7583)),
    ("blue-hills-ski-area", (42.2147, -71.1128)),
    ("bousquet-ski-area", (42.4128, -73.2356)),
    ("bradford-ski-area", (42.7600, -71.0856)),
    ("jiminy-peak", (42.5469, -73.2706)),
    ("nashoba-valley", (42.5217, -71.4486)),
    ("otis-ridge-ski-area", (42.1861, -73.0997)),
    ("ski-butternut", (42.1858, -73.2978)),
    ("ski-ward", (42.2647, -71.7631)),
    ("wachusett-mountain-ski-area", (42.5036, -71.8869)),
    ("mohawk-mountain", (41.8367, -73.3150)),
    ("ski-sundown", (41.9286, -72.9472)),
    ("belleayre", (42.1306, -74.5083)),
    ("bristol-mountain", (42.7328, -77.4139)),
    ("greek-peak", (42.5022, -76.1517)),
    ("holiday-valley", (42.2592, -78.6722)),
    ("windham-mountain", (42.2958, -74.2567))
  ]
}

=== FILE: coordinates.dfy ===
/** Coordinates of a resort page (resorts/scraper.py, `extract_coordinates_from_page`):
    the fallback table first, then the first script whose text carries a
    `"latitude": … "longitude": …` pair or a `center: [lat, lng]` array. */
module Coordinates {

  import opened Wrappers
  import opened Text
  import opened Patterns
  import CoordTable

  // ---------------------------------------------------------------- the class [-\d.]

  /** The characters the class `[-\d.]` accepts (ASCII digits only). */
  predicate IsCoordChar(c: char) {
    c == '-' || c == '.' || IsDigit(c)
  }

  predicate IsCoordText(s: string) {
    forall i :: 0 <= i < |s| ==> IsCoordChar(s[i])
  }

  /** The number of consecutive characters of the class from offset `i` on. */
  function CoordRun(s: string, i: nat): (n: nat)
    requires i <= |s|
    ensures i + n <= |s|
    ensures i + n == |s| || !IsCoordChar(s[i + n])
    decreases |s| - i
  {
    if i < |s| && IsCoordChar(s[i]) then 1 + CoordRun(s, i + 1) else 0
  }

  /** Every character a run covers belongs to the class. */
  lemma {:induction false} CoordRunChars(s: string, i: nat)
    requires i <= |s|
    ensures forall k :: i <= k < i + CoordRun(s, i) ==> IsCoordChar(s[k])
    decreases |s| - i
  {
    if i < |s| && IsCoordChar(s[i]) {
      CoordRunChars(s, i + 1);
    }
  }

  /** The run from `i` is exactly `n` long when the `n` characters from `i` on
      belong to the class and the next one does not. */
  lemma {:induction false} CoordRunUpTo(s: string, i: nat, n: nat)
    requires i + n <= |s|
    requires forall k :: i <= k < i + n ==> IsCoordChar(s[k])
    requires i + n == |s| || !IsCoordChar(s[i + n])
    ensures CoordRun(s, i) == n
    decreases n
  {
    if n > 0 {
      CoordRunUpTo(s, i + 1, n - 1);
    }
  }

  /** The group `([-\d.]+)` starting at `q`: the whole run, since the greedy
      `+` is never asked to give characters back. */
  function CoordAt(t: string, q: nat): (r: Option<string>)
    requires q <= |t|
    ensures r.Some? ==> 0 < |r.value| && IsCoordText(r.value)
    ensures r.None? <==> q == |t| || !IsCoordChar(t[q])
  {
    var n := CoordRun(t, q);
    CoordRunChars(t, q);
    if n == 0 then None else Some(t[q..q + n])
  }

  /** A string of the class written at `q` and not followed by more is the group. */
  lemma CoordAtWritten(t: string, q: nat, x: string)
    requires 0 < |x| && IsCoordText(x) && WrittenAt(t, q, x)
    requires q + |x| == |t| || !IsCoordChar(t[q + |x|])
    ensures CoordAt(t, q) == Some(x)
  {
    WrittenChars(t, q, x);
    CoordRunUpTo(t, q, |x|);
    assert t[q..q + |x|] == x;
  }

  // ---------------------------------------------------------------- float()

  /** The exact value of the numeral `a.b`. */
  function DecimalValue(a: string, b: string): real
    requires AllDigits(a) && AllDigits(b)
  {
    DigitsValue(a) as real + DigitsValue(b) as real / Pow10(|b|) as real
  }

  /** Python's `float` on a string without sign: digits, at most one point, at
      least one digit in all; anything else raises `ValueError`. */
  function ParseUnsigned(s: string): (r: Option<real>)
    ensures r.Some? ==> r.value >= 0.0
  {
    var p := IndexOf(s, '.');
    var a := s[..p];
    var b := if p < |s| then s[p + 1..] else "";
    if AllDigits(a) && AllDigits(b) && 0 < |a| + |b| then Some(DecimalValue(a, b)) else None
  }

  /** Python's `float` on a string of the class `[-\d.]`, as an exact real: an
      optional leading minus, then an unsigned numeral. */
  function ParseFloat(s: string): (r: Option<real>)
    ensures r.Some? ==> 0 < |s|
    ensures r.Some? && r.value < 0.0 ==> s[0] == '-'
    ensures r.Some? && s[0] == '-' ==> r.value <= 0.0
  {
    if 0 < |s| && s[0] == '-' then
      match ParseUnsigned(s[1..])
      case Some(v) => Some(-v)
      case None => None
    else ParseUnsigned(s)
  }

  /** The numeral with sign `neg`, integer digits `a` and, when `point`, a
      decimal point followed by the digits `b`. */
  function DecimalText(neg: bool, a: string, point: bool, b: string): string {
    (if neg then "-" else "") + UnsignedText(a, point, b)
  }

  /** A minus sign appears, if at all, first. */
  predicate MinusOnlyFirst(s: string) {
    forall i :: 0 < i < |s| ==> s[i] != '-'
  }

  predicate NoMinus(s: string) {
    forall i :: 0 <= i < |s| ==> s[i] != '-'
  }

  predicate AtMostOnePoint(s: string) {
    forall i, j :: 0 <= i < j < |s| && s[i] == '.' ==> s[j] != '.'
  }

  predicate HasDigit(s: string) {
    exists i :: 0 <= i < |s| && IsDigit(s[i])
  }

  /** The strings of the class `float` accepts, described character by character. */
  predicate FloatShaped(s: string) {
    MinusOnlyFirst(s) && AtMostOnePoint(s) && HasDigit(s)
  }

  /** Before the first point an unsigned string of the class holds digits, or a minus. */
  lemma UnsignedHead(s: string)
    requires IsCoordText(s)
    ensures AllDigits(s[..IndexOf(s, '.')]) <==> forall i :: 0 <= i < IndexOf(s, '.') ==> s[i] != '-'
  {
    var p := IndexOf(s, '.');
    assert forall i :: 0 <= i < p ==> s[..p][i] == s[i];
  }

  /** After the first point an unsigned string of the class holds digits, or a
      minus, or a second point. */
  lemma UnsignedTail(s: string)
    requires IsCoordText(s) && IndexOf(s, '.') < |s|
    ensures AllDigits(s[IndexOf(s, '.') + 1..]) <==>
      forall i :: IndexOf(s, '.') < i < |s| ==> s[i] != '-' && s[i] != '.'
  {
    var p := IndexOf(s, '.');
    assert forall i :: p < i < |s| ==> s[p + 1..][i - p - 1] == s[i];
  }

  /** `float` accepts an unsigned string of the class exactly when it has no
      minus, at most one point and at least one digit. */
  lemma UnsignedAccepts(s: string)
    requires IsCoordText(s)
    ensures ParseUnsigned(s).Some? <==> NoMinus(s) && AtMostOnePoint(s) && HasDigit(s)
  {
    var p := IndexOf(s, '.');
    UnsignedHead(s);
    if p == |s| {
      assert s[..p] == s;
      if NoMinus(s) && 0 < |s| {
        assert IsDigit(s[0]);
      }
    } else {
      UnsignedTail(s);
      var a := s[..p];
      var b := s[p + 1..];
      if ParseUnsigned(s).Some? {
        if |a| > 0 {
          assert IsDigit(s[0]);
        } else {
          assert IsDigit(b[0]) && b[0] == s[p + 1];
        }
      }
      if NoMinus(s) && AtMostOnePoint(s) && HasDigit(s) {
        var i :| 0 <= i < |s| && IsDigit(s[i]);
        assert i != p;
        if i < p {
          assert 0 < |a|;
        } else {
          assert 0 < |b|;
        }
      }
    }
  }

  /** `float` accepts a string of the class exactly when the minus, if any, is
      first, there is at most one point and there is a digit. */
  lemma ParseFloatAccepts(s: string)
    requires IsCoordText(s)
    ensures ParseFloat(s).Some? <==> FloatShaped(s)
  {
    if 0 < |s| && s[0] == '-' {
      var u := s[1..];
      assert forall i :: 0 <= i < |u| ==> u[i] == s[i + 1];
      UnsignedAccepts(u);
      assert NoMinus(u) <==> MinusOnlyFirst(s);
      assert AtMostOnePoint(u) <==> AtMostOnePoint(s) by {
        if AtMostOnePoint(u) {
          forall i, j | 0 <= i < j < |s| && s[i] == '.'
            ensures s[j] != '.'
          {
            assert u[i - 1] == s[i] && u[j - 1] == s[j];
          }
        }
      }
      assert HasDigit(u) <==> HasDigit(s) by {
        if HasDigit(s) {
          var i :| 0 <= i < |s| && IsDigit(s[i]);
          assert u[i - 1] == s[i];
        }
      }
    } else {
      UnsignedAccepts(s);
      if 0 < |s| {
        assert s[0] != '-';
      }
    }
  }

  /** The first point of a numeral is the one after its integer digits. */
  lemma PointAfterDigits(a: string, rest: string)
    requires AllDigits(a) && 0 < |rest| && rest[0] == '.'
    ensures IndexOf(a + rest, '.') == |a|
    decreases |a|
  {
    if a != [] {
      assert (a + rest)[1..] == a[1..] + rest;
      PointAfterDigits(a[1..], rest);
    }
  }

  /** A numeral without a point is read through its digits. */
  lemma NoPointInDigits(a: string)
    requires AllDigits(a)
    ensures IndexOf(a, '.') == |a|
  {
    assert forall k :: 0 <= k < |a| ==> a[k] != '.';
  }

  /** The unsigned part of a numeral. */
  function UnsignedText(a: string, point: bool, b: string): string {
    a + (if point then "." + b else "")
  }

  /** The unsigned part is split at its point into the two digit strings. */
  lemma UnsignedRoundTrip(a: string, point: bool, b: string)
    requires AllDigits(a) && AllDigits(b) && 0 < |a| + |b|
    requires !point ==> b == []
    ensures ParseUnsigned(UnsignedText(a, point, b)) == Some(DecimalValue(a, b))
    ensures 0 < |UnsignedText(a, point, b)| && UnsignedText(a, point, b)[0] != '-'
  {
    var u := UnsignedText(a, point, b);
    if point {
      PointAfterDigits(a, "." + b);
      assert u[..|a|] == a;
      assert u[|a| + 1..] == b;
    } else {
      assert u == a;
      NoPointInDigits(a);
      assert u[..|a|] == a;
    }
    if 0 < |a| {
      assert u[0] == a[0];
    }
  }

  /** `float` reads back the value of every numeral: the sign, the integer
      digits and the fraction digits. */
  lemma ParseFloatRoundTrip(neg: bool, a: string, point: bool, b: string)
    requires AllDigits(a) && AllDigits(b) && 0 < |a| + |b|
    requires !point ==> b == []
    ensures ParseFloat(DecimalText(neg, a, point, b)) ==
      Some(if neg then -DecimalValue(a, b) else DecimalValue(a, b))
  {
    var u := UnsignedText(a, point, b);
    UnsignedRoundTrip(a, point, b);
    SignedText(u);
    if !neg {
      assert DecimalText(neg, a, point, b) == u;
    }
  }

  /** A leading minus negates the value of an unsigned numeral. */
  lemma SignedText(u: string)
    requires 0 < |u| && u[0] != '-'
    ensures ParseFloat(u) == ParseUnsigned(u)
    ensures ParseFloat("-" + u) == match ParseUnsigned(u) case Some(v) => Some(-v) case None => None
  {
    assert ("-" + u)[1..] == u;
  }

  /** A table entry as the page script would write it is read exactly. */
  lemma ParseFloatExample()
    ensures ParseFloat("-106.3742") == Some(-106.3742)
  {
    var a, b := NatToString(106), NatToString(3742);
    ExampleSpelling();
    ExampleValue();
    ParseFloatRoundTrip(true, a, true, b);
  }

  lemma ExampleSpelling()
    ensures DecimalText(true, NatToString(106), true, NatToString(3742)) == "-106.3742"
  {
    assert NatToString(106) == "106" && NatToString(3742) == "3742";
  }

  lemma ExampleValue()
    ensures DecimalValue(NatToString(106), NatToString(3742)) == 106.3742
  {
    NatToStringRoundTrip(106);
    NatToStringRoundTrip(3742);
    assert |NatToString(3742)| == 4 by {
      assert NatToString(3742) == "3742";
    }
    assert Pow10(4) == 10000;
  }

  // ---------------------------------------------------------------- script patterns

  const LatitudeKey: string := "\"latitude\":"
  const LongitudeKey: string := "\"longitude\":"
  const CenterKey: string := "center:"

  /** `<key>\s*([-\d.]+)` at `i`, case-sensitive: the captured numeral text. */
  function KeyNumberAt(t: string, key: string, i: nat): (r: Option<string>)
    ensures r.Some? ==> WrittenAt(t, i, key) && 0 < |r.value| && IsCoordText(r.value)
  {
    if !WrittenAt(t, i, key) then None
    else
      var p := i + |key|;
      CoordAt(t, p + SpaceRun(t, p))
  }

  /** The key, blanks and a numeral written from `i` give that numeral. */
  lemma KeyNumberOfText(t: string, key: string, i: nat, sp: string, x: string)
    requires WrittenAt(t, i, key) && WrittenAt(t, i + |key|, sp) && WrittenAt(t, i + |key| + |sp|, x)
    requires AllSpaces(sp) && 0 < |x| && IsCoordText(x)
    requires i + |key| + |sp| + |x| == |t| || !IsCoordChar(t[i + |key| + |sp| + |x|])
    ensures KeyNumberAt(t, key, i) == Some(x)
  {
    assert t[i + |key| + |sp| + 0] == x[0];
    SpacesThen(t, i + |key|, sp);
    CoordAtWritten(t, i + |key| + |sp|, x);
  }

  /** Where `center:\s*\[\s*([-\d.]+),\s*([-\d.]+)\s*\]` matches at `i`: the
      offset and length of each numeral. Every `\s*` and `+` here is followed by
      a character it cannot consume, so each takes its whole run. */
  function CenterSpan(t: string, i: nat): (r: Option<(nat, nat, nat, nat)>)
    ensures r.Some? ==> WrittenAt(t, i, CenterKey)
    ensures r.Some? ==> r.value.0 <= |t| && 0 < r.value.1 == CoordRun(t, r.value.0)
    ensures r.Some? ==> r.value.2 <= |t| && 0 < r.value.3 == CoordRun(t, r.value.2)
  {
    if !WrittenAt(t, i, CenterKey) then None else ArraySpan(t, i + |CenterKey|)
  }

  /** `\s*\[\s*` from `p`, then the two numerals. */
  function ArraySpan(t: string, p: nat): (r: Option<(nat, nat, nat, nat)>)
    requires p <= |t|
    ensures r.Some? ==> r.value.0 <= |t| && 0 < r.value.1 == CoordRun(t, r.value.0)
    ensures r.Some? ==> r.value.2 <= |t| && 0 < r.value.3 == CoordRun(t, r.value.2)
  {
    var o := p + SpaceRun(t, p);
    if o == |t| || t[o] != '[' then None else FirstNumeralSpan(t, o + 1 + SpaceRun(t, o + 1))
  }

  /** `([-\d.]+),\s*` from `q1`, then the second numeral. */
  function FirstNumeralSpan(t: string, q1: nat): (r: Option<(nat, nat, nat, nat)>)
    requires q1 <= |t|
    ensures r.Some? ==> r.value.0 == q1 && 0 < r.value.1 == CoordRun(t, q1)
    ensures r.Some? ==> r.value.2 <= |t| && 0 < r.value.3 == CoordRun(t, r.value.2)
  {
    var n1 := CoordRun(t, q1);
    var c := q1 + n1;
    if n1 == 0 || c == |t| || t[c] != ',' then None
    else SecondNumeralSpan(t, q1, n1, c + 1 + SpaceRun(t, c + 1))
  }

  /** `([-\d.]+)\s*\]` from `q2`. */
  function SecondNumeralSpan(t: string, q1: nat, n1: nat, q2: nat): (r: Option<(nat, nat, nat, nat)>)
    requires q2 <= |t|
    ensures r.Some? ==> r.value == (q1, n1, q2, CoordRun(t, q2)) && 0 < CoordRun(t, q2)
  {
    var n2 := CoordRun(t, q2);
    var e := q2 + n2 + SpaceRun(t, q2 + n2);
    if n2 == 0 || e == |t| || t[e] != ']' then None else Some((q1, n1, q2, n2))
  }

  /** The two numeral texts of the centre array at `i`. */
  function CenterAt(t: string, i: nat): (r: Option<(string, string)>)
    ensures r.Some? ==> WrittenAt(t, i, CenterKey)
    ensures r.Some? ==> 0 < |r.value.0| && IsCoordText(r.value.0) && 0 < |r.value.1| && IsCoordText(r.value.1)
  {
    match CenterSpan(t, i)
    case None => None
    case Some((q1, n1, q2, n2)) =>
      CoordRunChars(t, q1);
      CoordRunChars(t, q2);
      Some((t[q1..q1 + n1], t[q2..q2 + n2]))
  }

  /** Both numerals parsed, or nothing (`float` raising `ValueError` on either). */
  function ParsePair(x: string, y: string): (r: Option<(real, real)>)
    ensures r.Some? <==> ParseFloat(x).Some? && ParseFloat(y).Some?
    ensures r.Some? ==> r.value == (ParseFloat(x).value, ParseFloat(y).value)
  {
    match ParseFloat(x)
    case None => None
    case Some(lat) =>
      match ParseFloat(y)
      case None => None
      case Some(lng) => Some((lat, lng))
  }

  /** The first match of each key anywhere in the text, when both exist and parse. */
  function KeyPair(t: string): (r: Option<(real, real)>)
    ensures (forall i :: 0 <= i <= |t| ==> KeyNumberAt(t, LatitudeKey, i).None?) ==> r.None?
    ensures (forall i :: 0 <= i <= |t| ==> KeyNumberAt(t, LongitudeKey, i).None?) ==> r.None?
    ensures r.Some? ==> exists i, j :: (FirstKeyNumber(t, LatitudeKey, i) && FirstKeyNumber(t, LongitudeKey, j)
                                        && r == ParsePair(KeyNumberAt(t, LatitudeKey, i).value,
                                                          KeyNumberAt(t, LongitudeKey, j).value))
  {
    var lat := FirstKey(t, LatitudeKey);
    var lng := FirstKey(t, LongitudeKey);
    if lat.Some? && lng.Some? then ParsePair(lat.value.1, lng.value.1) else None
  }

  /** `key` is first matched at `i`. */
  predicate FirstKeyNumber(t: string, key: string, i: nat) {
    i <= |t| && KeyNumberAt(t, key, i).Some? && forall k :: 0 <= k < i ==> KeyNumberAt(t, key, k).None?
  }

  /** `re.search` for `<key>\s*([-\d.]+)`: where the key is first matched, and
      the numeral text it captures there. */
  function FirstKey(t: string, key: string): (r: Option<(nat, string)>)
    ensures r.None? <==> forall i :: 0 <= i <= |t| ==> KeyNumberAt(t, key, i).None?
    ensures r.Some? ==> FirstKeyNumber(t, key, r.value.0) && KeyNumberAt(t, key, r.value.0) == Some(r.value.1)
  {
    var at := (i: nat) => KeyNumberAt(t, key, i);
    assert forall j: nat :: at(j) == KeyNumberAt(t, key, j);
    Search(|t|, at, 0)
  }

  /** The first `center: [..]` array, when both numerals parse. */
  function CenterPair(t: string): (r: Option<(real, real)>)
    ensures (forall i :: 0 <= i <= |t| ==> CenterAt(t, i).None?) ==> r.None?
    ensures r.Some? ==> exists i :: (0 <= i <= |t| && CenterAt(t, i).Some?
                                     && (forall k :: 0 <= k < i ==> CenterAt(t, k).None?)
                                     && r == ParsePair(CenterAt(t, i).value.0, CenterAt(t, i).value.1))
  {
    var at := (i: nat) => CenterAt(t, i);
    assert forall j: nat :: at(j) == CenterAt(t, j);
    match Search(|t|, at, 0)
    case None => None
    case Some((_, (x, y))) => ParsePair(x, y)
  }

  /** One script's text: the key pair, else the centre array. */
  function ScriptCoordinates(t: string): (r: Option<(real, real)>)
    ensures r.Some? <==> KeyPair(t).Some? || CenterPair(t).Some?
    ensures KeyPair(t).Some? ==> r == KeyPair(t)
    ensures KeyPair(t).None? ==> r == CenterPair(t)
  {
    match KeyPair(t)
    case Some(c) => Some(c)
    case None => CenterPair(t)
  }

  /** The first occurrence of each key decides: when both numerals parse they
      are the coordinates, whatever else the script says; when either does not,
      the centre array is tried and a later occurrence of the key never is. */
  lemma KeysGiveCoordinates(t: string, i: nat, x: string, j: nat, y: string)
    requires KeyNumberAt(t, LatitudeKey, i) == Some(x) && KeyNumberAt(t, LongitudeKey, j) == Some(y)
    requires forall k :: 0 <= k < i ==> !WrittenAt(t, k, LatitudeKey)
    requires forall k :: 0 <= k < j ==> !WrittenAt(t, k, LongitudeKey)
    ensures ParsePair(x, y).Some? ==> ScriptCoordinates(t) == ParsePair(x, y)
    ensures ParsePair(x, y).None? ==> ScriptCoordinates(t) == CenterPair(t)
  {
    SearchFinds(|t|, (k: nat) => KeyNumberAt(t, LatitudeKey, k), 0, i);
    SearchFinds(|t|, (k: nat) => KeyNumberAt(t, LongitudeKey, k), 0, j);
  }

  /** A script without the latitude key is read through its centre array alone. */
  lemma NoLatitudeUsesCenter(t: string)
    requires forall k :: 0 <= k <= |t| ==> !WrittenAt(t, k, LatitudeKey)
    ensures ScriptCoordinates(t) == CenterPair(t)
  {
    assert forall k: nat :: k <= |t| ==> KeyNumberAt(t, LatitudeKey, k).None?;
  }

  /** `center: [x, y]` with blanks around the brackets and after the comma is
      read as the pair of numerals `x` and `y`; `o`, `q1` and `q2` are the
      offsets of the bracket and of the two numerals. */
  lemma CenterOfText(t: string, i: nat, sp1: string, sp2: string, x: string, sp3: string, y: string, sp4: string,
                     o: nat, q1: nat, q2: nat)
    requires AllSpaces(sp1) && AllSpaces(sp2) && AllSpaces(sp3) && AllSpaces(sp4)
    requires 0 < |x| && IsCoordText(x) && 0 < |y| && IsCoordText(y)
    requires o == i + |CenterKey| + |sp1| && q1 == o + 1 + |sp2| && q2 == q1 + |x| + 1 + |sp3|
    requires WrittenAt(t, i, CenterKey) && WrittenAt(t, i + |CenterKey|, sp1)
    requires WrittenAt(t, o, "[") && WrittenAt(t, o + 1, sp2)
    requires WrittenAt(t, q1, x) && WrittenAt(t, q1 + |x|, ",") && WrittenAt(t, q1 + |x| + 1, sp3)
    requires WrittenAt(t, q2, y) && WrittenAt(t, q2 + |y|, sp4) && WrittenAt(t, q2 + |y| + |sp4|, "]")
    ensures CenterAt(t, i) == Some((x, y))
  {
    CenterSpanOfText(t, i, sp1, sp2, x, sp3, y, sp4, o, q1, q2);
    WrittenSlice(t, q1, x);
    WrittenSlice(t, q2, y);
  }

  /** The offsets the centre pattern finds in such a text. */
  lemma CenterSpanOfText(t: string, i: nat, sp1: string, sp2: string, x: string, sp3: string, y: string, sp4: string,
                         o: nat, q1: nat, q2: nat)
    requires AllSpaces(sp1) && AllSpaces(sp2) && AllSpaces(sp3) && AllSpaces(sp4)
    requires 0 < |x| && IsCoordText(x) && 0 < |y| && IsCoordText(y)
    requires o == i + |CenterKey| + |sp1| && q1 == o + 1 + |sp2| && q2 == q1 + |x| + 1 + |sp3|
    requires WrittenAt(t, i, CenterKey) && WrittenAt(t, i + |CenterKey|, sp1)
    requires WrittenAt(t, o, "[") && WrittenAt(t, o + 1, sp2)
    requires WrittenAt(t, q1, x) && WrittenAt(t, q1 + |x|, ",") && WrittenAt(t, q1 + |x| + 1, sp3)
    requires WrittenAt(t, q2, y) && WrittenAt(t, q2 + |y|, sp4) && WrittenAt(t, q2 + |y| + |sp4|, "]")
    ensures CenterSpan(t, i) == Some((q1, |x|, q2, |y|))
  {
    SecondOfText(t, q1, |x|, q2, y, sp4);
    assert t[q2 + 0] == y[0];
    FirstOfText(t, q1, x, sp3, q2);
    assert t[q1 + 0] == x[0];
    WrittenChar(t, o, '[');
    ArrayOfText(t, i + |CenterKey|, sp1, sp2, q1);
  }

  /** `\s*\[\s*` written from `p` up to a character that is not a blank. */
  lemma ArrayOfText(t: string, p: nat, sp1: string, sp2: string, q1: nat)
    requires AllSpaces(sp1) && AllSpaces(sp2) && q1 == p + |sp1| + 1 + |sp2|
    requires WrittenAt(t, p, sp1) && p + |sp1| < |t| && t[p + |sp1|] == '[' && WrittenAt(t, p + |sp1| + 1, sp2)
    requires q1 < |t| && !IsSpace(t[q1])
    ensures ArraySpan(t, p) == FirstNumeralSpan(t, q1)
  {
    SpacesThen(t, p + |sp1| + 1, sp2);
    SpacesThen(t, p, sp1);
    ArrayStep(t, p, q1);
  }

  /** The bracket after the blanks at `p`, and the blanks after it. */
  lemma ArrayStep(t: string, p: nat, q1: nat)
    requires p <= |t| && p + SpaceRun(t, p) < |t| && t[p + SpaceRun(t, p)] == '['
    requires q1 == p + SpaceRun(t, p) + 1 + SpaceRun(t, p + SpaceRun(t, p) + 1)
    ensures ArraySpan(t, p) == FirstNumeralSpan(t, q1)
  {
  }

  /** A numeral, a comma and blanks up to a character of the class. */
  lemma FirstOfText(t: string, q1: nat, x: string, sp3: string, q2: nat)
    requires 0 < |x| && IsCoordText(x) && AllSpaces(sp3) && q2 == q1 + |x| + 1 + |sp3|
    requires WrittenAt(t, q1, x) && WrittenAt(t, q1 + |x|, ",") && WrittenAt(t, q1 + |x| + 1, sp3)
    requires q2 < |t| && IsCoordChar(t[q2])
    ensures FirstNumeralSpan(t, q1) == SecondNumeralSpan(t, q1, |x|, q2)
  {
    WrittenChar(t, q1 + |x|, ',');
    CoordThen(t, q1, x);
    SpacesThen(t, q1 + |x| + 1, sp3);
  }

  /** A numeral, blanks and the closing bracket. */
  lemma SecondOfText(t: string, q1: nat, n1: nat, q2: nat, y: string, sp4: string)
    requires 0 < |y| && IsCoordText(y) && AllSpaces(sp4)
    requires WrittenAt(t, q2, y) && WrittenAt(t, q2 + |y|, sp4) && WrittenAt(t, q2 + |y| + |sp4|, "]")
    ensures SecondNumeralSpan(t, q1, n1, q2) == Some((q1, n1, q2, |y|))
  {
    WrittenChar(t, q2 + |y| + |sp4|, ']');
    if 0 < |sp4| {
      assert t[q2 + |y| + 0] == sp4[0];
    }
    CoordThen(t, q2, y);
    SpacesThen(t, q2 + |y|, sp4);
  }

  /** A string of the class written at `q` and not followed by more is the run there. */
  lemma CoordThen(t: string, q: nat, x: string)
    requires IsCoordText(x) && WrittenAt(t, q, x)
    requires q + |x| == |t| || !IsCoordChar(t[q + |x|])
    ensures CoordRun(t, q) == |x|
  {
    WrittenChars(t, q, x);
    CoordRunUpTo(t, q, |x|);
  }

  /** What is written at `q` is the slice there. */
  lemma WrittenSlice(t: string, q: nat, x: string)
    requires WrittenAt(t, q, x)
    ensures t[q..q + |x|] == x
  {
    WrittenChars(t, q, x);
  }

  /** `script.string or ''`: a script with more than one child has no string. */
  function ScriptText(script: Option<string>): string {
    script.GetOr("")
  }

  /** The coordinates of the first script that yields any. */
  function FirstScript(scripts: seq<Option<string>>): (r: Option<(real, real)>)
  {
    if scripts == [] then None
    else
      match ScriptCoordinates(ScriptText(scripts[0]))
      case Some(c) => Some(c)
      case None => FirstScript(scripts[1..])
  }

  /** The scripts are tried in order: the result is that of the first script
      that yields a pair, and nothing only when none does. */
  lemma {:induction false} FirstScriptIsFirst(scripts: seq<Option<string>>)
    ensures FirstScript(scripts).None? <==>
      forall k :: 0 <= k < |scripts| ==> ScriptCoordinates(ScriptText(scripts[k])).None?
    ensures FirstScript(scripts).Some? ==>
      exists k :: 0 <= k < |scripts| && ScriptCoordinates(ScriptText(scripts[k])) == FirstScript(scripts) &&
        (forall j :: 0 <= j < k ==> ScriptCoordinates(ScriptText(scripts[j])).None?)
  {
    if scripts != [] && ScriptCoordinates(ScriptText(scripts[0])).None? {
      var rest := scripts[1..];
      FirstScriptIsFirst(rest);
      assert forall k :: 1 <= k < |scripts| ==> scripts[k] == rest[k - 1];
      if FirstScript(rest).Some? {
        var k :| 0 <= k < |rest| && ScriptCoordinates(ScriptText(rest[k])) == FirstScript(rest)
          && forall j :: 0 <= j < k ==> ScriptCoordinates(ScriptText(rest[j])).None?;
        assert ScriptCoordinates(ScriptText(scripts[k + 1])) == FirstScript(scripts);
        forall j | 0 <= j < k + 1
          ensures ScriptCoordinates(ScriptText(scripts[j])).None?
        {
          if j > 0 {
            assert scripts[j] == rest[j - 1];
          }
        }
      }
    } else if scripts != [] {
      assert ScriptCoordinates(ScriptText(scripts[0])) == FirstScript(scripts);
    }
  }

  /** No entry after the `k`-th has the slug. */
  predicate LastWith(table: seq<(string, (real, real))>, k: nat, slug: string) {
    forall j :: k < j < |table| ==> table[j].0 != slug
  }

  /** `slug in RESORT_COORDS` and `RESORT_COORDS[slug]` over the entries of
      the dictionary display: the last entry with that slug, since a display
      keeps the last value written for a key. */
  function Lookup(table: seq<(string, (real, real))>, slug: string): (r: Option<(real, real)>)
    ensures r.None? <==> forall k :: 0 <= k < |table| ==> table[k].0 != slug
    ensures r.Some? ==> exists k :: 0 <= k < |table| && table[k] == (slug, r.value) && LastWith(table, k, slug)
  {
    if table == [] then None
    else if table[|table| - 1].0 == slug then Some(table[|table| - 1].1)
    else
      var r := Lookup(table[..|table| - 1], slug);
      assert forall k :: 0 <= k < |table| - 1 ==> table[k] == table[..|table| - 1][k];
      r
  }

  /** `extract_coordinates_from_page`: the table entry for the slug wins over
      anything the page says; otherwise the first script that yields a pair. */
  function PageCoordinates(table: seq<(string, (real, real))>, slug: string, scripts: seq<Option<string>>): (r: Option<(real, real)>)
    ensures (exists k :: 0 <= k < |table| && table[k].0 == slug) ==>
      r.Some? && exists k :: 0 <= k < |table| && table[k] == (slug, r.value) && LastWith(table, k, slug)
    ensures (forall k :: 0 <= k < |table| ==> table[k].0 != slug) ==> r == FirstScript(scripts)
  {
    match Lookup(table, slug)
    case Some(c) => Some(c)
    case None => FirstScript(scripts)
  }

  /** A slug outside the table is placed by the first script that yields a
      pair, and not at all when no script does. */
  lemma {:induction false} TableBeforeScripts(table: seq<(string, (real, real))>, slug: string, scripts: seq<Option<string>>)
    ensures (forall k :: 0 <= k < |table| ==> table[k].0 != slug) ==>
      (PageCoordinates(table, slug, scripts).None? <==>
       forall k :: 0 <= k < |scripts| ==> ScriptCoordinates(ScriptText(scripts[k])).None?)
    ensures (forall k :: 0 <= k < |table| ==> table[k].0 != slug) && PageCoordinates(table, slug, scripts).Some? ==>
      exists k :: 0 <= k < |scripts| && ScriptCoordinates(ScriptText(scripts[k])) == PageCoordinates(table, slug, scripts) &&
        (forall j :: 0 <= j < k ==> ScriptCoordinates(ScriptText(scripts[j])).None?)
  {
    FirstScriptIsFirst(scripts);
  }

  /** A resort of the table is placed from the table whatever its page says. */
  lemma TableBeatsPage(scripts: seq<Option<string>>)
    ensures PageCoordinates(CoordTable.ResortCoords, "windham-mountain", scripts) == Some((42.2958, -74.2567))
  {
  }
}

=== FILE: durations.dfy ===
/** Human-readable drive times: the compact `_format_drive_time` of the web views
    ("1h 5min") and the longer `format_duration` of the distance module
    ("1 hr 5 min", "2 days 3 hr"). Hours are exact reals; Python's `int()` is
    `Trunc`, `round()` is `RoundReal` (half to even) and `//`, `%` by a positive
    constant floor, as Dafny's Euclidean operators do. */
module Durations {
  import opened Wrappers
  import opened Text
  import opened Rounding

  // ---------------------------------------------------------------------------
  // The shapes both formatters share: "<m><minutes>", "<h><hours>" and
  // "<h><hours> <m><minutes>", with their own unit words
  // ---------------------------------------------------------------------------

  /** The words a duration text puts after its minutes and after its hours. */
  datatype Units = Units(minutes: string, hours: string)

  /** `_format_drive_time`'s words: "45min", "2h", "1h 5min". */
  const ClockUnits := Units("min", "h")

  /** `format_duration`'s words below a day: "45 min", "2 hr", "1 hr 5 min". */
  const DurationUnits := Units(" min", " hr")

  /** Unit words a reader can tell apart: neither starts with a digit, and the
      hours word with its trailing space parts from the minutes word before
      the minutes word ends. */
  predicate Readable(u: Units) {
    && |u.minutes| > 0 && !IsDigit(u.minutes[0])
    && |u.hours| > 0 && !IsDigit(u.hours[0])
    && exists k :: 0 <= k < |u.minutes| && k <= |u.hours| && u.minutes[k] != (u.hours + " ")[k]
  }

  /** Both formatters' words can be read back. */
  lemma BothReadable()
    ensures Readable(ClockUnits) && Readable(DurationUnits)
  {
    assert ClockUnits.minutes[0] != (ClockUnits.hours + " ")[0];
    assert DurationUnits.minutes[1] != (DurationUnits.hours + " ")[1];
  }

  /** The text of `h` hours and `m` minutes: no hours part without hours, no
      minutes part on the hour. */
  function Shape(u: Units, h: int, m: nat): (s: string)
    ensures |s| > 0
  {
    if h == 0 then NatToString(m) + u.minutes
    else if m == 0 then IntToString(h) + u.hours
    else IntToString(h) + (u.hours + " " + (NatToString(m) + u.minutes))
  }

  /** Reads back the whole minutes from one of the three shapes; `None` for
      anything else. */
  function ReadTime(u: Units, s: string): (r: Option<nat>)
    ensures r.Some? ==> 0 < |s| && IsDigit(s[0])
  {
    var a := LeadingDigits(s);
    if a == [] then None else ReadUnit(u, DigitsValue(a), s[|a|..])
  }

  /** What follows the first number: its unit, and possibly the minutes. */
  function ReadUnit(u: Units, v: nat, rest: string): (r: Option<nat>)
  {
    var n := |u.hours| + 1;
    if rest == u.minutes then Some(v)
    else if rest == u.hours then Some(60 * v)
    else if |rest| > n && rest[..n] == u.hours + " " then ReadMinutes(u, v, rest[n..])
    else None
  }

  /** The minutes after `v` hours. */
  function ReadMinutes(u: Units, v: nat, t: string): (r: Option<nat>)
  {
    var b := LeadingDigits(t);
    if b != [] && t[|b|..] == u.minutes then Some(60 * v + DigitsValue(b)) else None
  }

  /** A digit string followed by a word that does not start with a digit. */
  lemma DigitsThenWord(d: string, w: string)
    requires |d| > 0 && AllDigits(d)
    requires |w| > 0 && !IsDigit(w[0])
    ensures LeadingDigits(d + w) == d && (d + w)[|d|..] == w
  {
    var s := d + w;
    assert s[..|d|] == d;
    LeadingDigitsUpTo(s, |d|);
  }

  /** Reading a number written in full, then its unit. */
  lemma ReadNumber(u: Units, n: nat, w: string)
    requires |w| > 0 && !IsDigit(w[0])
    ensures ReadTime(u, NatToString(n) + w) == ReadUnit(u, n, w)
  {
    DigitsThenWord(NatToString(n), w);
    NatToStringRoundTrip(n);
  }

  /** After an hour count, the hours word and a space hand the rest to the
      minutes reader. */
  lemma ReadHoursThen(u: Units, v: nat, tail: string)
    requires Readable(u) && |tail| > 0
    ensures ReadUnit(u, v, u.hours + " " + tail) == ReadMinutes(u, v, tail)
  {
    var n := |u.hours| + 1;
    var rest := u.hours + " " + tail;
    var k :| 0 <= k < |u.minutes| && k <= |u.hours| && u.minutes[k] != (u.hours + " ")[k];
    assert rest[k] == (u.hours + " ")[k];
    assert rest != u.minutes by { assert rest[k] != u.minutes[k]; }
    assert |rest| > n && rest != u.hours;
    assert rest[..n] == u.hours + " " && rest[n..] == tail;
  }

  /** Reading the minutes written in full after the hours. */
  lemma ReadMinutesOf(u: Units, v: nat, m: nat)
    requires Readable(u)
    ensures ReadMinutes(u, v, NatToString(m) + u.minutes) == Some(60 * v + m)
  {
    DigitsThenWord(NatToString(m), u.minutes);
    NatToStringRoundTrip(m);
  }

  /** The two words differ, so a bare hour count is not read as minutes. */
  lemma WordsDiffer(u: Units)
    requires Readable(u)
    ensures u.minutes != u.hours
  {
    var k :| 0 <= k < |u.minutes| && k <= |u.hours| && u.minutes[k] != (u.hours + " ")[k];
    if k < |u.hours| {
      assert (u.hours + " ")[k] == u.hours[k];
    } else {
      assert |u.minutes| > |u.hours|;
    }
  }

  /** Each of the three shapes reads back as its hours and minutes. */
  lemma {:induction false} ShapeRoundTrip(u: Units, h: nat, m: nat)
    requires Readable(u)
    ensures ReadTime(u, Shape(u, h, m)) == Some(60 * h + m)
  {
    if h == 0 {
      ReadNumber(u, m, u.minutes);
    } else if m == 0 {
      ReadNumber(u, h, u.hours);
      WordsDiffer(u);
    } else {
      var tail := NatToString(m) + u.minutes;
      ReadNumber(u, h, u.hours + " " + tail);
      ReadHoursThen(u, h, tail);
      ReadMinutesOf(u, h, m);
    }
  }

  // ---------------------------------------------------------------------------
  // _format_drive_time: "45min", "2h", "1h 5min"
  // ---------------------------------------------------------------------------

  /** `divmod(total, 60)`: whole hours and the minutes left over. */
  function Clock(total: int): (hm: (int, nat))
    ensures hm.1 < 60 && 60 * hm.0 + hm.1 == total
    ensures total >= 0 ==> hm.0 >= 0
  {
    (total / 60, total % 60)
  }

  /** The compact text of a whole number of minutes. The text of a
      non-negative count names exactly that many minutes, so no two such
      counts share a text. */
  function ClockText(total: int): (s: string)
    ensures |s| > 0
    ensures total >= 0 ==> ReadTime(ClockUnits, s) == Some(total)
  {
    var (h, m) := Clock(total);
    if total < 0 then Shape(ClockUnits, h, m)
    else
      ClockRoundTrip(h, m);
      Shape(ClockUnits, h, m)
  }

  /** The compact shape of `h` hours and `m` minutes reads back as their
      total in minutes. */
  lemma ClockRoundTrip(h: nat, m: nat)
    ensures ReadTime(ClockUnits, Shape(ClockUnits, h, m)) == Some(60 * h + m)
  {
    BothReadable();
    ShapeRoundTrip(ClockUnits, h, m);
  }

  /** A falsy duration (missing or zero) has no text; any other is cut down to
      whole minutes first. */
  function DriveTime(hours: Option<real>): (r: Option<string>)
    ensures r.None? <==> hours.None? || hours.value == 0.0
    ensures r.Some? ==> r.value == ClockText(Trunc(hours.value * 60.0))
  {
    if hours.None? || hours.value == 0.0 then None
    else Some(ClockText(Trunc(hours.value * 60.0)))
  }

  /** Two different non-negative minute counts never print alike. */
  lemma ClockTextInjective(a: nat, b: nat)
    requires ClockText(a) == ClockText(b)
    ensures a == b
  {
    assert ReadTime(ClockUnits, ClockText(a)) == Some(a) && ReadTime(ClockUnits, ClockText(b)) == Some(b);
  }

  /** A positive drive time prints as its whole minutes, rounded down. */
  lemma DriveTimeMinutes(hours: real)
    requires hours > 0.0
    ensures DriveTime(Some(hours)).Some?
    ensures var t := Trunc(hours * 60.0);
      t >= 0 && t as real <= hours * 60.0 < t as real + 1.0 &&
      ReadTime(ClockUnits, DriveTime(Some(hours)).value) == Some(t)
  {
    var t := Trunc(hours * 60.0);
    assert DriveTime(Some(hours)).value == ClockText(t);
  }

  /** Under a minute of driving still prints, as "0min". */
  lemma TinyDriveTime(hours: real)
    requires 0.0 < hours && hours * 60.0 < 1.0
    ensures DriveTime(Some(hours)) == Some("0min")
  {
    assert Trunc(hours * 60.0) == 0;
    assert Clock(0) == (0, 0);
    assert NatToString(0) == "0";
    assert ClockText(0) == "0min";
  }

  // ---------------------------------------------------------------------------
  // format_duration: "45 min", "1 hr 5 min", "2 days 3 hr"
  // ---------------------------------------------------------------------------

  /** Python's `x % y` on floats with a positive divisor: never negative. */
  function FloatMod(x: real, y: real): (r: real)
    requires y > 0.0
    ensures 0.0 <= r < y
  {
    var f := (x / y).Floor;
    var d := x / y - f as real;
    ScaleFraction(y, d);
    assert y * (x / y) == x;
    assert x - y * f as real == y * d;
    x - y * f as real
  }

  /** A positive scale keeps a fraction of a unit within the scale. */
  lemma ScaleFraction(y: real, d: real)
    requires y > 0.0 && 0.0 <= d < 1.0
    ensures 0.0 <= y * d < y
  {
    assert y - y * d == y * (1.0 - d);
  }

  /** Whole hours and the rounded minutes of the fraction, as the source
      computes them for durations between an hour and a day. */
  function HoursMinutes(hours: real): (hm: (int, int))
    requires 1.0 <= hours
  {
    var h := Trunc(hours);
    (h, RoundReal((hours - h as real) * 60.0))
  }

  /** The longer duration text, as the source writes it. */
  function FormatDuration(hours: real): (s: string)
    ensures |s| > 0
  {
    if hours < 1.0 then IntToString(RoundReal(hours * 60.0)) + " min"
    else if hours < 24.0 then
      var (h, m) := HoursMinutes(hours);
      if m == 0 then IntToString(h) + " hr"
      else IntToString(h) + " hr " + IntToString(m) + " min"
    else
      var days := Trunc(hours / 24.0);
      var h := Trunc(FloatMod(hours, 24.0));
      IntToString(days) + " day" + (if days > 1 then "s" else "") + " " + IntToString(h) + " hr"
  }

  /** The floor moves with whole shifts of its argument. */
  lemma FloorShift(x: real, k: int)
    ensures (x + k as real).Floor == x.Floor + k
  {
    var a := x.Floor;
    var b := (x + k as real).Floor;
    assert (a + k) as real <= x + k as real < (a + k) as real + 1.0;
    assert b as real <= x + k as real < b as real + 1.0;
  }

  /** Rounding moves with even whole shifts of its argument (an odd shift would
      move a tie to the other neighbour, since ties go to the even one). */
  lemma RoundShift(x: real, k: int)
    requires IsEven(k)
    ensures RoundReal(x + k as real) == RoundReal(x) + k
  {
    FloorShift(x, k);
    var f := x.Floor;
    assert (x + k as real) - (f + k) as real == x - f as real;
    assert IsEven(f) == IsEven(f + k);
  }

  /** Between an hour and a day, the hour and minute parts add up to the
      duration rounded to the minute, and the minute part stays within
      0 to 60 — including 60 itself, which the source then prints. */
  lemma {:induction false} HoursMinutesTotal(hours: real)
    requires 1.0 <= hours < 24.0
    ensures var (h, m) := HoursMinutes(hours);
      1 <= h <= 23 && 0 <= m <= 60 && 60 * h + m == RoundReal(hours * 60.0)
  {
    var (h, m) := HoursMinutes(hours);
    var frac := (hours - h as real) * 60.0;
    assert 0.0 <= frac < 60.0;
    RoundShift(frac, 60 * h);
    assert frac + (60 * h) as real == hours * 60.0;
    assert -1.0 <= 2.0 * (m as real - frac) <= 1.0;
  }

  /** From a day on, whole days and the whole hours left over account for
      every whole hour of the duration; the unit is plural from two days. */
  lemma {:induction false} DaysHours(hours: real)
    requires hours >= 24.0
    ensures var days := Trunc(hours / 24.0);
      var h := Trunc(FloatMod(hours, 24.0));
      days >= 1 && 0 <= h <= 23 && 24 * days + h == hours.Floor
    ensures FormatDuration(hours) ==
      IntToString(Trunc(hours / 24.0)) + (if Trunc(hours / 24.0) > 1 then " days " else " day ")
      + IntToString(Trunc(FloatMod(hours, 24.0))) + " hr"
  {
    var days := Trunc(hours / 24.0);
    var rem := FloatMod(hours, 24.0);
    assert days == (hours / 24.0).Floor;
    assert hours == rem + (24 * days) as real;
    FloorShift(rem, 24 * days);
    if days > 1 {
      assert " day" + "s" + " " == " days ";
    } else {
      assert " day" + "" + " " == " day ";
    }
  }

  /** Below a day the text is one of the three shapes in the longer words:
      the rounded minutes alone under an hour, otherwise the whole hours and
      the rounded minutes of the fraction. */
  lemma FormatShape(hours: real)
    requires 0.0 <= hours < 24.0
    ensures hours < 1.0 ==>
      0 <= RoundReal(hours * 60.0)
      && FormatDuration(hours) == Shape(DurationUnits, 0, RoundReal(hours * 60.0))
    ensures 1.0 <= hours ==>
      0 <= HoursMinutes(hours).1
      && FormatDuration(hours) == Shape(DurationUnits, HoursMinutes(hours).0, HoursMinutes(hours).1)
  {
    if hours >= 1.0 {
      HoursMinutesTotal(hours);
      var (h, m) := HoursMinutes(hours);
      assert IntToString(h) + " hr " + IntToString(m) + " min"
        == IntToString(h) + (" hr" + " " + (NatToString(m) + " min"));
    }
  }

  /** Below a day, the text reads back as the duration rounded to the minute
      — sixty printed minutes included. */
  lemma FormatDurationReads(hours: real)
    requires 0.0 <= hours < 24.0
    ensures ReadTime(DurationUnits, FormatDuration(hours)) == Some(RoundReal(hours * 60.0))
  {
    FormatShape(hours);
    if hours < 1.0 {
      var m := RoundReal(hours * 60.0);
      assert FormatDuration(hours) == Shape(DurationUnits, 0, m);
      ShapeReads(0, m);
    } else {
      var hm := HoursMinutes(hours);
      HoursMinutesTotal(hours);
      assert FormatDuration(hours) == Shape(DurationUnits, hm.0, hm.1);
      ShapeReads(hm.0, hm.1);
    }
  }

  /** Any shape in the longer words reads back as its total in minutes. */
  lemma ShapeReads(h: nat, m: nat)
    ensures ReadTime(DurationUnits, Shape(DurationUnits, h, m)) == Some(60 * h + m)
  {
    BothReadable();
    ShapeRoundTrip(DurationUnits, h, m);
  }

  /** The source's text for 1.995 hours: the fraction rounds up to a full
      sixty minutes, which is printed instead of carried into the hours. */
  lemma SixtyMinutes()
    ensures FormatDuration(1.995) == "1 hr 60 min"
  {
    assert Trunc(1.995) == 1;
    assert RoundReal((1.995 - 1.0) * 60.0) == 60;
    assert IntToString(60) == "60";
  }

  /** Whole hours and minutes with a rounded-up sixty carried into the hours. */
  function HoursMinutesCarried(hours: real): (hm: (int, int))
    requires 1.0 <= hours < 24.0
    ensures 0 <= hm.1 < 60 && 60 * hm.0 + hm.1 == RoundReal(hours * 60.0)
    ensures 1 <= hm.0 <= 24
  {
    HoursMinutesTotal(hours);
    var (h, m) := HoursMinutes(hours);
    if m == 60 then (h + 1, 0) else (h, m)
  }

  /** The longer duration text with the minutes carried, so it never reads
      "60 min". */
  function FormatDurationCarried(hours: real): (s: string)
    ensures |s| > 0
  {
    if hours < 1.0 then IntToString(RoundReal(hours * 60.0)) + " min"
    else if hours < 24.0 then
      var (h, m) := HoursMinutesCarried(hours);
      if m == 0 then IntToString(h) + " hr"
      else IntToString(h) + " hr " + IntToString(m) + " min"
    else
      var days := Trunc(hours / 24.0);
      var h := Trunc(FloatMod(hours, 24.0));
      IntToString(days) + " day" + (if days > 1 then "s" else "") + " " + IntToString(h) + " hr"
  }

  /** With the carry, 1.995 hours reads as the two hours it rounds to. */
  lemma CarriedSixty()
    ensures FormatDurationCarried(1.995) == "2 hr"
  {
    assert HoursMinutes(1.995) == (1, 60);
    assert IntToString(2) == "2";
  }

  /** The carried text differs from the source's only where the source prints
      sixty minutes. */
  lemma CarriedAgrees(hours: real)
    ensures FormatDurationCarried(hours) != FormatDuration(hours) <==>
      1.0 <= hours < 24.0 && HoursMinutes(hours).1 == 60
  {
    if 1.0 <= hours < 24.0 && HoursMinutes(hours).1 == 60 {
      var h := HoursMinutes(hours).0;
      var a := FormatDurationCarried(hours);
      var b := FormatDuration(hours);
      assert a == IntToString(h + 1) + " hr";
      assert b == IntToString(h) + " hr " + IntToString(60) + " min";
      assert |IntToString(60)| == 2;
      assert a[|a| - 1] == 'r' && b[|b| - 1] == 'n';
    }
  }
}

=== FILE: extract.dfy ===
/** The free-text readers of the scraper (resorts/scraper.py): `extract_number`
    and `find_text_with_pattern`, which read a row of the older div layout, and
    `extract_conditions`, which reads the whole text of a resort page. */
module Extract {

  import opened Wrappers
  import opened Text
  import opened Patterns
  import opened Pairs

  // ---------------------------------------------------------------- giving back digits

  /** The longest prefix, at least one digit long, of the `n` digits at `i`
      after which `tail` matches: the order in which a greedy `(\d+)` gives
      digits back when what follows it fails. */
  function GiveBack(i: nat, n: nat, tail: nat -> bool): (m: Option<nat>)
    ensures m.Some? ==> 1 <= m.value <= n && tail(i + m.value)
    ensures m.Some? ==> forall p: nat :: i + m.value < p <= i + n ==> !tail(p)
    ensures m.None? ==> forall p: nat :: i < p <= i + n ==> !tail(p)
  {
    if n == 0 then None else if tail(i + n) then Some(n) else GiveBack(i, n - 1, tail)
  }

  /** The value of the first `m` digits of the digit run at `i`. */
  function PrefixValue(t: string, i: nat, m: nat): nat
    requires i <= |t| && m <= DigitRun(t, i)
  {
    DigitRunChars(t, i);
    RunValue(t, i, i + m)
  }

  /** The whole run reads as the number at `i`. */
  lemma PrefixWholeRun(t: string, i: nat)
    requires i <= |t|
    ensures PrefixValue(t, i, DigitRun(t, i)) == NumberAt(t, i)
  {
  }

  // ---------------------------------------------------------------- extract_number

  /** The characters of the class `[:\s]`. */
  predicate IsColonOrSpace(c: char) {
    c == ':' || IsSpace(c)
  }

  /** The length of the run of `[:\s]` characters at `i`. */
  function ColonSpaceRun(s: string, i: nat): (n: nat)
    requires i <= |s|
    ensures i + n <= |s|
    ensures i + n == |s| || !IsColonOrSpace(s[i + n])
    decreases |s| - i
  {
    if i < |s| && IsColonOrSpace(s[i]) then 1 + ColonSpaceRun(s, i + 1) else 0
  }

  /** `<kw>[:\s]+(\d+)` at `i`: the keyword, at least one colon or whitespace
      character, then a digit run, whose whole value is the group. Giving back
      any of the `[:\s]` run would leave a colon or a blank where a digit is due. */
  function KeywordFirstAt(t: string, kw: string, i: nat): (r: Option<nat>)
    ensures r.Some? ==> LiteralAtIgnoreCase(t, i, kw)
  {
    if !LiteralAtIgnoreCase(t, i, kw) then None
    else
      var p := i + |kw|;
      var c := ColonSpaceRun(t, p);
      if c == 0 || DigitRun(t, p + c) == 0 then None else Some(NumberAt(t, p + c))
  }

  /** What may follow the number of `(\d+)"?\s*<kw>` at `p`: an inch mark (tried
      first), whitespace and the keyword. The keywords start with a letter or a
      digit, so `\s*` never gives back a blank. */
  predicate KeywordAfter(t: string, kw: string, p: nat) {
    p <= |t|
    && ((p < |t| && t[p] == '"' && LiteralAtIgnoreCase(t, p + 1 + SpaceRun(t, p + 1), kw))
        || LiteralAtIgnoreCase(t, p + SpaceRun(t, p), kw))
  }

  /** `KeywordAfter` as the test `GiveBack` applies. */
  function AfterKeyword(t: string, kw: string): nat -> bool {
    (p: nat) => KeywordAfter(t, kw, p)
  }

  /** `(\d+)"?\s*<kw>` at `i`: the value of the longest digit prefix after which
      the keyword follows. */
  function KeywordSecondAt(t: string, kw: string, i: nat): (r: Option<nat>)
  {
    if i > |t| then None
    else
      match GiveBack(i, DigitRun(t, i), AfterKeyword(t, kw))
      case None => None
      case Some(m) => Some(PrefixValue(t, i, m))
  }

  /** The two patterns of one keyword, each searched leftmost-first, in order. */
  function KeywordNumber(t: string, kw: string): (r: Option<nat>)
    ensures r.None? <==> forall i :: 0 <= i <= |t| ==> KeywordFirstAt(t, kw, i).None? && KeywordSecondAt(t, kw, i).None?
    ensures (exists i :: 0 <= i <= |t| && KeywordFirstAt(t, kw, i).Some?)
            ==> exists i :: 0 <= i <= |t| && KeywordFirstAt(t, kw, i) == r
    ensures r.Some? ==> exists i :: 0 <= i <= |t| && (KeywordFirstAt(t, kw, i) == r || KeywordSecondAt(t, kw, i) == r)
  {
    var first := (i: nat) => KeywordFirstAt(t, kw, i);
    var second := (i: nat) => KeywordSecondAt(t, kw, i);
    assert forall j: nat :: first(j) == KeywordFirstAt(t, kw, j) && second(j) == KeywordSecondAt(t, kw, j);
    match Search(|t|, first, 0)
    case Some((_, n)) => Some(n)
    case None =>
      match Search(|t|, second, 0)
      case Some((_, n)) => Some(n)
      case None => None
  }

  /** The keywords tried in order; the first that yields a number wins. */
  function FirstNumber(t: string, keywords: seq<string>): (r: Option<nat>)
    ensures r.None? <==> forall k :: 0 <= k < |keywords| ==> KeywordNumber(t, keywords[k]).None?
    ensures r.Some? ==> exists k :: (0 <= k < |keywords| && KeywordNumber(t, keywords[k]) == r
                                     && forall j :: 0 <= j < k ==> KeywordNumber(t, keywords[j]).None?)
    decreases |keywords|
  {
    if keywords == [] then None
    else
      match KeywordNumber(t, keywords[0])
      case Some(n) => Some(n)
      case None => FirstNumber(t, keywords[1..])
  }

  /** `extract_number`: the text is lower-cased first. `int()` of a digit run
      never raises, so the `except ValueError` branch is never taken. */
  function ExtractNumber(text: string, keywords: seq<string>): (r: Option<nat>)
    ensures r.None? <==> forall k :: 0 <= k < |keywords| ==> KeywordNumber(Lower(text), keywords[k]).None?
    ensures r.Some? ==> exists k :: (0 <= k < |keywords| && KeywordNumber(Lower(text), keywords[k]) == r
                                     && forall j :: 0 <= j < k ==> KeywordNumber(Lower(text), keywords[j]).None?)
  {
    FirstNumber(Lower(text), keywords)
  }

  /** The keywords of the base depth and of the new snow in the div layout. */
  const BaseWords: seq<string> := ["base", "depth"]
  const NewWords: seq<string> := ["new", "24h", "24hr"]

  /** The second pattern only matches where the keyword is written. */
  lemma KeywordSecondNeedsKeyword(t: string, kw: string, i: nat)
    requires KeywordSecondAt(t, kw, i).Some?
    ensures exists p :: i < p <= |t| && LiteralAtIgnoreCase(t, p, kw)
  {
    var g := GiveBack(i, DigitRun(t, i), AfterKeyword(t, kw));
    assert g.Some?;
    var p := i + g.value;
    assert KeywordAfter(t, kw, p);
    if p < |t| && t[p] == '"' && LiteralAtIgnoreCase(t, p + 1 + SpaceRun(t, p + 1), kw) {
      var w := p + 1 + SpaceRun(t, p + 1);
      assert i < w <= |t| && LiteralAtIgnoreCase(t, w, kw);
    } else {
      var w := p + SpaceRun(t, p);
      assert i < w <= |t| && LiteralAtIgnoreCase(t, w, kw);
    }
  }

  /** Where a keyword is not written, it reads no number. */
  lemma KeywordNumberNeedsKeyword(t: string, kw: string)
    requires forall i :: 0 <= i <= |t| ==> !LiteralAtIgnoreCase(t, i, kw)
    ensures KeywordNumber(t, kw) == None
  {
    var second := (i: nat) => KeywordSecondAt(t, kw, i);
    var r := Search(|t|, second, 0);
    if r.Some? {
      KeywordSecondNeedsKeyword(t, kw, r.value.0);
    }
  }

  /** No number is read from a text in which, once lower-cased, none of the
      keywords is written. */
  lemma {:induction false} ExtractNumberNeedsKeyword(text: string, keywords: seq<string>)
    requires forall k, i :: 0 <= k < |keywords| && 0 <= i <= |text|
                            ==> !LiteralAtIgnoreCase(Lower(text), i, keywords[k])
    ensures ExtractNumber(text, keywords) == None
    decreases |keywords|
  {
    if keywords != [] {
      KeywordNumberNeedsKeyword(Lower(text), keywords[0]);
      assert forall k :: 0 <= k < |keywords| - 1 ==> keywords[1..][k] == keywords[k + 1];
      ExtractNumberNeedsKeyword(text, keywords[1..]);
    }
  }

  /** A run of the class `[:\s]` written at `a`, not followed by another, is the whole run there. */
  lemma {:induction false} ColonSpaceRunUpTo(s: string, i: nat, n: nat)
    requires i + n <= |s|
    requires forall k :: i <= k < i + n ==> IsColonOrSpace(s[k])
    requires i + n == |s| || !IsColonOrSpace(s[i + n])
    ensures ColonSpaceRun(s, i) == n
    decreases n
  {
    if n > 0 {
      ColonSpaceRunUpTo(s, i + 1, n - 1);
    }
  }

  /** A string written in place reads as itself ignoring case. */
  lemma WrittenIgnoreCase(t: string, a: nat, x: string)
    requires WrittenAt(t, a, x)
    ensures LiteralAtIgnoreCase(t, a, x)
  {
  }

  /** `<kw>: <digits>` at the start of the text reads as the digits. */
  lemma KeywordFirstLeading(t: string, kw: string, sep: string, d: string)
    requires 0 < |sep| && forall k :: 0 <= k < |sep| ==> IsColonOrSpace(sep[k])
    requires 0 < |d| && AllDigits(d)
    requires WrittenAt(t, 0, kw) && WrittenAt(t, |kw|, sep) && WrittenAt(t, |kw| + |sep|, d)
    requires |kw| + |sep| + |d| == |t| || !IsDigit(t[|kw| + |sep| + |d|])
    ensures KeywordFirstAt(t, kw, 0) == Some(DigitsValue(d))
    ensures KeywordNumber(t, kw) == Some(DigitsValue(d))
  {
    KeywordFirstWritten(t, kw, 0, sep, d);
    SearchFinds(|t|, (i: nat) => KeywordFirstAt(t, kw, i), 0, 0);
  }

  /** The keyword, colons or blanks and a number written at `p` match the
      first pattern there. */
  lemma KeywordFirstWritten(t: string, kw: string, p: nat, sep: string, d: string)
    requires 0 < |sep| && forall k :: 0 <= k < |sep| ==> IsColonOrSpace(sep[k])
    requires 0 < |d| && AllDigits(d)
    requires WrittenAt(t, p, kw) && WrittenAt(t, p + |kw|, sep) && WrittenAt(t, p + |kw| + |sep|, d)
    requires p + |kw| + |sep| + |d| == |t| || !IsDigit(t[p + |kw| + |sep| + |d|])
    ensures KeywordFirstAt(t, kw, p) == Some(DigitsValue(d))
  {
    var q := p + |kw|;
    assert LiteralAtIgnoreCase(t, p, kw) by {
      WrittenIgnoreCase(t, p, kw);
    }
    assert ColonSpaceRun(t, q) == |sep| by {
      WrittenChars(t, q, sep);
      assert t[q + |sep| + 0] == d[0];
      ColonSpaceRunUpTo(t, q, |sep|);
    }
    assert DigitRun(t, q + |sep|) == |d| > 0 && NumberAt(t, q + |sep|) == DigitsValue(d) by {
      NumberAtWritten(t, q + |sep|, d);
    }
  }

  /** A text that, once lower-cased, starts with the first keyword, colons or
      blanks and a number (`Base: 24"`) reads as that number. */
  lemma ExtractNumberLeading(text: string, keywords: seq<string>, sep: string, d: string, rest: string)
    requires |keywords| > 0
    requires 0 < |sep| && forall k :: 0 <= k < |sep| ==> IsColonOrSpace(sep[k])
    requires 0 < |d| && AllDigits(d)
    requires rest == [] || !IsDigit(rest[0])
    requires Lower(text) == keywords[0] + (sep + (d + rest))
    ensures ExtractNumber(text, keywords) == Some(DigitsValue(d))
  {
    var t := Lower(text);
    var kw := keywords[0];
    WrittenPieces(kw, sep + (d + rest));
    WrittenSplit(t, |kw|, sep, d + rest);
    WrittenSplit(t, |kw| + |sep|, d, rest);
    if rest != [] {
      assert t[|kw| + |sep| + |d| + 0] == rest[0];
    }
    KeywordFirstLeading(t, kw, sep, d);
  }

  /** In `1224h` the first pattern of `24h` finds no colon or blank after the keyword. */
  lemma ExampleNoColon()
    ensures Search(5, (i: nat) => KeywordFirstAt("1224h", "24h", i), 0).None?
  {
    var t := "1224h";
    forall i | 0 <= i <= 5
      ensures KeywordFirstAt(t, "24h", i).None?
    {
      if i == 2 {
        assert ColonSpaceRun(t, 5) == 0;
      } else if i < 2 {
        assert ToLower(t[i + 1]) != ToLower("24h"[1]);
      }
    }
  }

  /** The second pattern of `24h` at the start of `1224h` gives back two digits. */
  lemma ExampleGiveBack()
    ensures KeywordSecondAt("1224h", "24h", 0) == Some(12)
  {
    var t := "1224h";
    DigitRunUpTo(t, 0, 4);
    assert !KeywordAfter(t, "24h", 4) && !KeywordAfter(t, "24h", 3);
    assert KeywordAfter(t, "24h", 2) by {
      assert SpaceRun(t, 2) == 0;
    }
    assert GiveBack(0, 4, AfterKeyword(t, "24h")) == Some(2);
    assert RunValue(t, 0, 2) == 12;
  }

  /** `1224h` holds no `new`, and the greedy `(\d+)` before `24h` gives back the
      digits `24`, so the new snow of the div layout reads 12. */
  lemma ExampleNewSnowBacktracks()
    ensures ExtractNumber("1224h", NewWords) == Some(12)
  {
    var t := "1224h";
    assert Lower(t) == t;
    forall i | 0 <= i <= |t|
      ensures !LiteralAtIgnoreCase(t, i, "new")
    {
      if i + 3 <= |t| {
        assert ToLower(t[i + 0]) != ToLower("new"[0]);
      }
    }
    KeywordNumberNeedsKeyword(t, "new");
    ExampleNoColon();
    ExampleGiveBack();
    SearchFinds(5, (i: nat) => KeywordSecondAt(t, "24h", i), 0, 0);
    assert KeywordNumber(t, "24h") == Some(12);
    assert NewWords[1..][0] == "24h";
  }

  // ---------------------------------------------------------------- find_text_with_pattern

  /** `find_text_with_pattern`: the text matched by the first pattern that
      matches anywhere (`group(0)` of its leftmost match). */
  function FindText(t: string, shapes: seq<PairShape>): (r: Option<string>)
    ensures r.None? <==> forall k :: 0 <= k < |shapes| ==> FindPair(t, shapes[k]).None?
    ensures r.Some? ==> exists k :: (0 <= k < |shapes| && PairText(t, shapes[k]) == r
                                     && forall j :: 0 <= j < k ==> FindPair(t, shapes[j]).None?)
    decreases |shapes|
  {
    if shapes == [] then None
    else
      match PairText(t, shapes[0])
      case Some(s) => Some(s)
      case None => FindText(t, shapes[1..])
  }

  /** The leftmost match of the first pattern that matches anywhere. */
  function FirstMatch(t: string, shapes: seq<PairShape>): (r: Option<PairMatch>)
  {
    if shapes == [] then None
    else
      match FindPair(t, shapes[0])
      case Some((_, m)) => Some(m)
      case None => FirstMatch(t, shapes[1..])
  }

  // How the div layout reads a count pair: the text found by the patterns is
  // searched again with `(\d+)\s*/\s*(\d+)`.
  function DivPair(t: string, shapes: seq<PairShape>): (r: Option<(nat, nat)>)
    ensures r.None? <==> forall k :: 0 <= k < |shapes| ==> FindPair(t, shapes[k]).None?
  {
    match FindText(t, shapes)
    case None => None
    case Some(s) =>
      FoundTextReads(t, shapes);
      NumbersOf(s)
  }

  /** The text found by any of the patterns holds a pair of numbers. */
  lemma {:induction false} FoundTextReads(t: string, shapes: seq<PairShape>)
    ensures FindText(t, shapes).Some? ==> NumbersOf(FindText(t, shapes).value).Some?
    decreases |shapes|
  {
    if shapes == [] {
    } else if FindPair(t, shapes[0]).Some? {
      MatchedTextAgain(t, shapes[0]);
    } else {
      FoundTextReads(t, shapes[1..]);
    }
  }

  // Trails of the div layout: `(\d+)\s*/\s*(\d+)\s*trails?`, then `(\d+)/(\d+)`.
  const DivTrailShapes: seq<PairShape> := [TrailWords, Unspaced]
  // Lifts of the div layout: `(\d+)\s*/\s*(\d+)\s*lifts?` alone.
  const DivLiftShapes: seq<PairShape> := [LiftWords]

  /** Searching the matched text again reads the numbers of the match: the
      spaced pattern matches it from its first character. */
  lemma MatchedTextAgain(t: string, sh: PairShape)
    requires FindPair(t, sh).Some?
    ensures NumbersOf(PairText(t, sh).value)
            == Some((FindPair(t, sh).value.1.open, FindPair(t, sh).value.1.total))
  {
    var (i, m) := FindPair(t, sh).value;
    PairAgain(t, i, sh);
    var s := t[i..m.end];
    assert PairText(t, sh).value == s;
    assert FindPair(s, Spaced).Some? && FindPair(s, Spaced).value.0 == 0;
  }

  /** The div layout reads the numbers of the first pattern's leftmost match;
      the second search changes nothing. */
  lemma {:induction false} DivPairReadsFirstMatch(t: string, shapes: seq<PairShape>)
    ensures FirstMatch(t, shapes).None? ==> DivPair(t, shapes) == None
    ensures FirstMatch(t, shapes).Some?
            ==> DivPair(t, shapes) == Some((FirstMatch(t, shapes).value.open, FirstMatch(t, shapes).value.total))
    decreases |shapes|
  {
    if shapes != [] {
      if FindPair(t, shapes[0]).Some? {
        MatchedTextAgain(t, shapes[0]);
      } else {
        DivPairReadsFirstMatch(t, shapes[1..]);
      }
    }
  }

  // ---------------------------------------------------------------- extract_conditions

  /** `(?:24|past)` at `p`, ignoring case. */
  predicate WindowAt(t: string, p: nat) {
    LiteralAtIgnoreCase(t, p, "24") || LiteralAtIgnoreCase(t, p, "past")
  }

  /** `\s*(?:in\s+)?(?:24|past)` at `p`; the optional `in` is tried first. */
  predicate WindowAfter(t: string, p: nat)
    requires p <= |t|
  {
    var r := p + SpaceRun(t, p);
    || (LiteralAtIgnoreCase(t, r, "in") && SpaceRun(t, r + 2) > 0 && WindowAt(t, r + 2 + SpaceRun(t, r + 2)))
    || WindowAt(t, r)
  }

  /** What may follow the number of the new-snow pattern at `p`: an inch mark
      (tried first) and the window. */
  predicate NewSnowTail(t: string, p: nat) {
    p <= |t| && ((p < |t| && t[p] == '"' && WindowAfter(t, p + 1)) || WindowAfter(t, p))
  }

  /** `NewSnowTail` as the test `GiveBack` applies. */
  function WindowFollows(t: string): nat -> bool {
    (p: nat) => NewSnowTail(t, p)
  }

  /** Where the number of `new\s+(?:snow\s+)?(\d+)` starts when `new` is at `i`.
      The optional `snow` group is taken whenever it is there, since without it
      the digits would have to start at the `s`. */
  function NewSnowDigits(t: string, i: nat): (q: Option<nat>)
    ensures q.Some? ==> i < q.value <= |t|
  {
    if !LiteralAtIgnoreCase(t, i, "new") || SpaceRun(t, i + 3) == 0 then None
    else
      var k := i + 3 + SpaceRun(t, i + 3);
      if LiteralAtIgnoreCase(t, k, "snow") && SpaceRun(t, k + 4) > 0 then Some(k + 4 + SpaceRun(t, k + 4))
      else Some(k)
  }

  /** `new\s+(?:snow\s+)?(\d+)"?\s*(?:in\s+)?(?:24|past)` at `i`, ignoring case:
      the value of the longest digit prefix after which the window follows. */
  function NewSnowAt(t: string, i: nat): (r: Option<nat>)
  {
    match NewSnowDigits(t, i)
    case None => None
    case Some(q) => SnowDigitsAt(t, q)
  }

  /** The number the greedy digits at `q` give once the window must follow them. */
  function SnowDigitsAt(t: string, q: nat): (r: Option<nat>)
    requires q <= |t|
  {
    match GiveBack(q, DigitRun(t, q), WindowFollows(t))
    case None => None
    case Some(m) => Some(PrefixValue(t, q, m))
  }

  /** The condition fields a resort page yields; the two fields the page never
      fills (`summit_depth`, `new_snow_48h`) are set to nothing by the upsert. */
  datatype Conditions = Conditions(
    baseDepth: Option<nat>,
    newSnow24h: Option<nat>,
    trailsOpen: Option<nat>,
    trailsTotal: Option<nat>,
    liftsOpen: Option<nat>,
    liftsTotal: Option<nat>,
    isOpen: bool)

  /** What a search captured, if it matched anywhere. */
  function Found<T>(r: Option<(nat, T)>): (v: Option<T>)
    ensures v.Some? <==> r.Some?
  {
    if r.Some? then Some(r.value.1) else None
  }

  /** Python's truth value of an optional count. */
  predicate Truthy(n: Option<int>) {
    n.Some? && n.value != 0
  }

  /** The base depth of a page: `base[:\s]+(\d+)"?`, ignoring case (the
      optional inch mark does not change the capture). */
  function PageBase(t: string): (r: Option<nat>)
    ensures r.Some? ==> exists i :: 0 <= i <= |t| && LiteralAtIgnoreCase(t, i, "base")
  {
    Found(Search(|t|, (i: nat) => KeywordFirstAt(t, "base", i), 0))
  }

  /** The 24-hour snowfall of a page. */
  function PageNewSnow(t: string): (r: Option<nat>)
    ensures r.Some? ==> exists i :: 0 <= i <= |t| && LiteralAtIgnoreCase(t, i, "new")
  {
    Found(Search(|t|, (i: nat) => NewSnowAt(t, i), 0))
  }

  /** The leftmost match of a pair pattern in a page. */
  function PagePair(t: string, sh: PairShape): (r: Option<PairMatch>)
    ensures r.None? <==> forall i :: 0 <= i <= |t| ==> PairAt(t, i, sh).None?
    ensures r.Some? ==> exists i :: (0 <= i <= |t| && PairAt(t, i, sh) == r
                                     && forall j :: 0 <= j < i ==> PairAt(t, j, sh).None?)
  {
    Found(FindPair(t, sh))
  }

  /** `extract_conditions` on the text of a page: each field from the leftmost
      match of its own pattern, and open when trails or lifts are open. */
  function ExtractConditions(t: string): (c: Conditions)
    ensures c.trailsOpen.Some? <==> c.trailsTotal.Some?
    ensures c.liftsOpen.Some? <==> c.liftsTotal.Some?
    ensures c.baseDepth == PageBase(t) && c.newSnow24h == PageNewSnow(t)
    ensures PagePair(t, TrailOrRunWords).None? ==> c.trailsOpen.None?
    ensures PagePair(t, TrailOrRunWords).Some? ==>
      c.trailsOpen == Some(PagePair(t, TrailOrRunWords).value.open)
      && c.trailsTotal == Some(PagePair(t, TrailOrRunWords).value.total)
    ensures PagePair(t, LiftsWord).None? ==> c.liftsOpen.None?
    ensures PagePair(t, LiftsWord).Some? ==>
      c.liftsOpen == Some(PagePair(t, LiftsWord).value.open)
      && c.liftsTotal == Some(PagePair(t, LiftsWord).value.total)
  {
    var trails := PagePair(t, TrailOrRunWords);
    var lifts := PagePair(t, LiftsWord);
    var trailsOpen := if trails.Some? then Some(trails.value.open) else None;
    var liftsOpen := if lifts.Some? then Some(lifts.value.open) else None;
    Conditions(
      PageBase(t),
      PageNewSnow(t),
      trailsOpen,
      if trails.Some? then Some(trails.value.total) else None,
      liftsOpen,
      if lifts.Some? then Some(lifts.value.total) else None,
      Truthy(trailsOpen) || Truthy(liftsOpen))
  }

  /** A page is open exactly when the leftmost `trails`/`runs` pair or the
      leftmost `lifts` pair has a positive open count. */
  lemma ConditionsOpen(t: string)
    ensures ExtractConditions(t).isOpen
            <==> (PagePair(t, TrailOrRunWords).Some? && PagePair(t, TrailOrRunWords).value.open > 0)
                 || (PagePair(t, LiftsWord).Some? && PagePair(t, LiftsWord).value.open > 0)
  {
  }

  /** A pair pattern needs a slash. */
  lemma PairNeedsSlash(t: string, sh: PairShape)
    requires forall k :: 0 <= k < |t| ==> t[k] != '/'
    ensures FindPair(t, sh).None?
  {
    if FindPair(t, sh).Some? {
      var (i, m) := FindPair(t, sh).value;
      var a, g1, g2, b := PairParts(t, i, sh);
    }
  }

  /** A page without a slash reports no trail or lift counts and is closed. */
  lemma NoSlashClosed(t: string)
    requires forall k :: 0 <= k < |t| ==> t[k] != '/'
    ensures var c := ExtractConditions(t);
            c.trailsOpen.None? && c.liftsOpen.None? && !c.isOpen
  {
    PairNeedsSlash(t, TrailOrRunWords);
    PairNeedsSlash(t, LiftsWord);
  }

  /** `base: 24"` at the first `base` of a page, in any case, gives the base
      depth, whatever follows. */
  lemma BaseOfPage(t: string, p: nat, sep: string, d: string)
    requires forall i :: 0 <= i < p ==> !LiteralAtIgnoreCase(t, i, "base")
    requires 0 < |sep| && forall k :: 0 <= k < |sep| ==> IsColonOrSpace(sep[k])
    requires 0 < |d| && AllDigits(d)
    requires WrittenAt(t, p, "base") && WrittenAt(t, p + 4, sep) && WrittenAt(t, p + 4 + |sep|, d)
    requires p + 4 + |sep| + |d| == |t| || !IsDigit(t[p + 4 + |sep| + |d|])
    ensures PageBase(t) == Some(DigitsValue(d))
  {
    KeywordFirstWritten(t, "base", p, sep, d);
    SearchFinds(|t|, (i: nat) => KeywordFirstAt(t, "base", i), 0, p);
  }

  /** `new`, blanks and a digit at `p`: the number starts after the blanks. */
  lemma NewThenDigits(t: string, p: nat, sp1: string, d: string)
    requires 0 < |sp1| && AllSpaces(sp1) && 0 < |d| && AllDigits(d)
    requires WrittenAt(t, p, "new") && WrittenAt(t, p + 3, sp1) && WrittenAt(t, p + 3 + |sp1|, d)
    ensures NewSnowDigits(t, p) == Some(p + 3 + |sp1|)
  {
    var k := p + 3 + |sp1|;
    WrittenIgnoreCase(t, p, "new");
    assert t[k + 0] == d[0];
    SpacesThen(t, p + 3, sp1);
    assert !LiteralAtIgnoreCase(t, k, "snow") by {
      assert ToLower(t[k + 0]) != ToLower("snow"[0]);
    }
  }

  /** An inch mark, blanks and `24` or `past` complete the pattern. */
  lemma InchThenWindow(t: string, p: nat, sp2: string, w: string)
    requires AllSpaces(sp2) && (w == "24" || w == "past")
    requires WrittenAt(t, p, "\"") && WrittenAt(t, p + 1, sp2) && WrittenAt(t, p + 1 + |sp2|, w)
    ensures NewSnowTail(t, p)
  {
    var r := p + 1 + |sp2|;
    WrittenChar(t, p, '"');
    assert t[r + 0] == w[0];
    SpacesThen(t, p + 1, sp2);
    WrittenIgnoreCase(t, r, w);
    assert WindowAt(t, r);
  }

  /** A digit string written at `q` and not followed by a further digit is
      taken whole when the tail matches right after it. */
  lemma GiveBackWhole(t: string, q: nat, d: string, tail: nat -> bool)
    requires 0 < |d| && AllDigits(d) && WrittenAt(t, q, d)
    requires q + |d| == |t| || !IsDigit(t[q + |d|])
    requires tail(q + |d|)
    ensures DigitRun(t, q) == |d|
    ensures GiveBack(q, DigitRun(t, q), tail) == Some(|d|)
    ensures PrefixValue(t, q, |d|) == DigitsValue(d)
  {
    DigitsThen(t, q, d);
    NumberAtWritten(t, q, d);
    PrefixWholeRun(t, q);
  }

  /** Digits followed by an inch mark and the window are all taken. */
  lemma SnowDigitsWhole(t: string, k: nat, d: string)
    requires 0 < |d| && AllDigits(d) && WrittenAt(t, k, d)
    requires k + |d| < |t| && t[k + |d|] == '"' && NewSnowTail(t, k + |d|)
    ensures SnowDigitsAt(t, k) == Some(DigitsValue(d))
  {
    WindowFollowsAt(t, k + |d|);
    GiveBackWhole(t, k, d, WindowFollows(t));
  }

  /** The test `GiveBack` applies holds wherever the tail pattern does. */
  lemma WindowFollowsAt(t: string, p: nat)
    requires NewSnowTail(t, p)
    ensures WindowFollows(t)(p)
  {
  }

  /** Digits, an inch mark, blanks and `24` or `past`: all the digits are taken. */
  lemma DigitsThenWindow(t: string, k: nat, d: string, sp2: string, w: string)
    requires 0 < |d| && AllDigits(d) && WrittenAt(t, k, d)
    requires AllSpaces(sp2) && (w == "24" || w == "past")
    requires WrittenAt(t, k + |d|, "\"") && WrittenAt(t, k + |d| + 1, sp2) && WrittenAt(t, k + |d| + 1 + |sp2|, w)
    ensures SnowDigitsAt(t, k) == Some(DigitsValue(d))
  {
    InchThenWindow(t, k + |d|, sp2, w);
    WrittenChar(t, k + |d|, '"');
    SnowDigitsWhole(t, k, d);
  }

  /** `new 6" in 24` style text at `p` matches there. */
  lemma NewSnowWritten(t: string, p: nat, sp1: string, d: string, sp2: string, w: string)
    requires 0 < |sp1| && AllSpaces(sp1) && AllSpaces(sp2)
    requires 0 < |d| && AllDigits(d)
    requires w == "24" || w == "past"
    requires WrittenAt(t, p, "new") && WrittenAt(t, p + 3, sp1) && WrittenAt(t, p + 3 + |sp1|, d)
    requires WrittenAt(t, p + 3 + |sp1| + |d|, "\"") && WrittenAt(t, p + 3 + |sp1| + |d| + 1, sp2)
    requires WrittenAt(t, p + 3 + |sp1| + |d| + 1 + |sp2|, w)
    ensures NewSnowAt(t, p) == Some(DigitsValue(d))
  {
    var k := p + 3 + |sp1|;
    DigitsThenWindow(t, k, d, sp2, w);
    NewThenDigits(t, p, sp1, d);
    NewSnowAtStart(t, p, k, DigitsValue(d));
  }

  /** Once the digits after `new` are found, the number is the one they give. */
  lemma NewSnowAtStart(t: string, p: nat, k: nat, v: nat)
    requires NewSnowDigits(t, p) == Some(k) && SnowDigitsAt(t, k) == Some(v)
    ensures NewSnowAt(t, p) == Some(v)
  {
  }

  /** `new 6" in 24` style text at the first `new` of a page, in any case,
      gives the snowfall: the number is followed by an inch mark, optional
      blanks and `24` or `past`. */
  lemma NewSnowOfPage(t: string, p: nat, sp1: string, d: string, sp2: string, w: string)
    requires forall i :: 0 <= i < p ==> !LiteralAtIgnoreCase(t, i, "new")
    requires 0 < |sp1| && AllSpaces(sp1) && AllSpaces(sp2)
    requires 0 < |d| && AllDigits(d)
    requires w == "24" || w == "past"
    requires WrittenAt(t, p, "new") && WrittenAt(t, p + 3, sp1) && WrittenAt(t, p + 3 + |sp1|, d)
    requires WrittenAt(t, p + 3 + |sp1| + |d|, "\"") && WrittenAt(t, p + 3 + |sp1| + |d| + 1, sp2)
    requires WrittenAt(t, p + 3 + |sp1| + |d| + 1 + |sp2|, w)
    ensures PageNewSnow(t) == Some(DigitsValue(d))
  {
    NewSnowWritten(t, p, sp1, d, sp2, w);
    forall j | 0 <= j < p
      ensures NewSnowAt(t, j).None?
    {
      assert NewSnowDigits(t, j).None?;
    }
    var at := (i: nat) => NewSnowAt(t, i);
    assert forall j: nat :: at(j) == NewSnowAt(t, j);
    SearchFinds(|t|, at, 0, p);
  }
}

=== FILE: geocoding.dfy ===
/** Turning what a visitor typed into a place search (resorts/geocoding.py):
    a US zip code becomes a postal-code search on its first five digits, any
    other text a free-text search with a trailing two-letter state code spelled
    out; and the short place name shown for a pair of coordinates. The search
    service itself (Nominatim over HTTP) is a function parameter. */
module Geocoding {
  import opened Wrappers
  import opened Text
  import opened Patterns

  // ---------------------------------------------------------------- queries

  /** The two kinds of search the service is asked for. */
  datatype Query = PostalCode(code: string) | Place(q: string)

  /** Five digits, optionally followed by a dash and four more. */
  predicate ZipBody(s: string) {
    (|s| == 5 && AllDigits(s)) ||
    (|s| == 10 && AllDigits(s[..5]) && s[5] == '-' && AllDigits(s[6..]))
  }

  /** `re.match(r'^\d{5}(-\d{4})?$', s)`: `$` also matches before a final line
      feed. */
  predicate IsZip(s: string) {
    ZipBody(s) || (|s| > 0 && s[|s| - 1] == '\n' && ZipBody(s[..|s| - 1]))
  }

  /** The search made for a location: none for the empty string; otherwise the
      stripped text decides between a zip search and a place search. */
  function LocationQuery(location: string): (r: Option<Query>)
    ensures r.None? <==> location == ""
    ensures r.Some? && r.value.PostalCode? ==> |r.value.code| == 5 && AllDigits(r.value.code)
    ensures r.Some? && r.value.Place? ==> EndsWith(r.value.q, ", USA")
    ensures location != "" && ZipBody(Strip(location)) ==> r == Some(PostalCode(Strip(location)[..5]))
  {
    if location == "" then None
    else
      var s := Strip(location);
      if IsZip(s) then
        assert AllDigits(s[..5]) by { ZipPrefix(s); }
        Some(PostalCode(s[..5]))
      else
        var q := NormalizeStateAbbreviation(s) + ", USA";
        assert q[|q| - 5..] == ", USA";
        Some(Place(q))
  }

  /** The first five characters of a zip are digits. */
  lemma ZipPrefix(s: string)
    requires IsZip(s)
    ensures |s| >= 5 && AllDigits(s[..5])
  {
    if !ZipBody(s) {
      assert s[..|s| - 1][..5] == s[..5];
    } else if |s| == 5 {
      assert s[..5] == s;
    }
  }

  /** `geocode_location`: the coordinates the search service returns for the
      query, none for an empty location. */
  function Geocode(location: string, search: Query -> Option<(real, real)>): (r: Option<(real, real)>)
    ensures location == "" ==> r.None?
    ensures location != "" ==> r == search(LocationQuery(location).value)
  {
    match LocationQuery(location)
    case None => None
    case Some(query) => search(query)
  }

  /** A stripped text never ends in a line feed, so after `strip()` only the
      plain zip shapes count. */
  lemma StrippedZip(location: string)
    ensures IsZip(Strip(location)) <==> ZipBody(Strip(location))
  {
  }

  /** A zip with its four-digit extension searches exactly as the five-digit
      zip does: the extension is dropped. */
  lemma ZipExtensionDropped(location: string)
    requires location != "" && ZipBody(Strip(location)) && |Strip(location)| == 10
    ensures LocationQuery(location) == LocationQuery(Strip(location)[..5])
    ensures LocationQuery(location) == Some(PostalCode(Strip(location)[..5]))
  {
    var s := Strip(location);
    var z := s[..5];
    assert !IsSpace(z[0]) && !IsSpace(z[4]);
    StripOfStripped(z);
    assert z[..5] == z;
  }

  /** A five-digit zip, blanks around it stripped, is searched as it is. */
  lemma FiveDigitZip(location: string)
    requires location != "" && |Strip(location)| == 5 && AllDigits(Strip(location))
    ensures LocationQuery(location) == Some(PostalCode(Strip(location)))
  {
    assert Strip(location)[..5] == Strip(location);
  }

  /** Text that is not a zip is searched as a place, its state code spelled out
      and ", USA" appended. */
  lemma PlaceSearch(location: string)
    requires location != "" && !ZipBody(Strip(location))
    ensures LocationQuery(location) == Some(Place(NormalizeStateAbbreviation(Strip(location)) + ", USA"))
  {
  }

  /** Whitespace alone is not empty: it is searched as the bare country. */
  lemma WhitespaceSearch(location: string)
    requires location != "" && Strip(location) == ""
    ensures LocationQuery(location) == Some(Place(", USA"))
  {
    assert !ZipBody("");
    assert Upper("") == "";
  }

  // ---------------------------------------------------------------- state codes

  /** A state name ends in three letters. */
  predicate NameShape(name: string) {
    |name| >= 3 && IsLetter(name[|name| - 1]) && IsLetter(name[|name| - 2]) && IsLetter(name[|name| - 3])
  }

  /** The 51 state codes that are spelled out (the fifty states and DC): the
      name of the state whose code is the two letters `a`, `b`. */
  function StateOf(a: char, b: char): (name: Option<string>)
    ensures name.Some? ==> IsUpperLetter(a) && IsUpperLetter(b)
    ensures name.Some? ==> NameShape(name.value)
  {
    if a < 'N' then StatesAToM(a, b) else StatesNToZ(a, b)
  }

  /** The codes starting A to M. */
  function StatesAToM(a: char, b: char): (name: Option<string>)
    ensures name.Some? ==> IsUpperLetter(a) && IsUpperLetter(b)
    ensures name.Some? ==> NameShape(name.value)
  {
    match (a, b)
    case ('A', 'L') => Some("Alabama")
    case ('A', 'K') => Some("Alaska")
    case ('A', 'Z') => Some("Arizona")
    case ('A', 'R') => Some("Arkansas")
    case ('C', 'A') => Some("California")
    case ('C', 'O') => Some("Colorado")
    case ('C', 'T') => Some("Connecticut")
    case ('D', 'E') => Some("Delaware")
    case ('F', 'L') => Some("Florida")
    case ('G', 'A') => Some("Georgia")
    case ('H', 'I') => Some("Hawaii")
    case ('I', 'D') => Some("Idaho")
    case ('I', 'L') => Some("Illinois")
    case ('I', 'N') => Some("Indiana")
    case ('I', 'A') => Some("Iowa")
    case ('K', 'S') => Some("Kansas")
    case ('K', 'Y') => Some("Kentucky")
    case ('L', 'A') => Some("Louisiana")
    case ('M', 'E') => Some("Maine")
    case ('M', 'D') => Some("Maryland")
    case ('M', 'A') => Some("Massachusetts")
    case ('M', 'I') => Some("Michigan")
    case ('M', 'N') => Some("Minnesota")
    case ('M', 'S') => Some("Mississippi")
    case ('M', 'O') => Some("Missouri")
    case ('M', 'T') => Some("Montana")
    case ('D', 'C') => Some("District of Columbia")
    case _ => None
  }

  /** The codes starting N to Z. */
  function StatesNToZ(a: char, b: char): (name: Option<string>)
    ensures name.Some? ==> IsUpperLetter(a) && IsUpperLetter(b)
    ensures name.Some? ==> NameShape(name.value)
  {
    match (a, b)
    case ('N', 'E') => Some("Nebraska")
    case ('N', 'V') => Some("Nevada")
    case ('N', 'H') => Some("New Hampshire")
    case ('N', 'J') => Some("New Jersey")
    case ('N', 'M') => Some("New Mexico")
    case ('N', 'Y') => Some("New York")
    case ('N', 'C') => Some("North Carolina")
    case ('N', 'D') => Some("North Dakota")
    case ('O', 'H') => Some("Ohio")
    case ('O', 'K') => Some("Oklahoma")
    case ('O', 'R') => Some("Oregon")
    case ('P', 'A') => Some("Pennsylvania")
    case ('R', 'I') => Some("Rhode Island")
    case ('S', 'C') => Some("South Carolina")
    case ('S', 'D') => Some("South Dakota")
    case ('T', 'N') => Some("Tennessee")
    case ('T', 'X') => Some("Texas")
    case ('U', 'T') => Some("Utah")
    case ('V', 'T') => Some("Vermont")
    case ('V', 'A') => Some("Virginia")
    case ('W', 'A') => Some("Washington")
    case ('W', 'V') => Some("West Virginia")
    case ('W', 'I') => Some("Wisconsin")
    case ('W', 'Y') => Some("Wyoming")
    case _ => None
  }

  /** `,\s*([A-Z]{2})$` matches `u` from offset `i` to the end offset `e`. */
  predicate AbbreviationAt(u: string, i: nat, e: nat) {
    AtEnd(u, e) && i + 3 <= e && u[i] == ',' &&
    (forall k :: i < k < e - 2 ==> IsSpace(u[k])) &&
    IsUpperLetter(u[e - 2]) && IsUpperLetter(u[e - 1])
  }

  /** Where `$` can match after two capital letters: the end of `u`, or just
      before a final line feed. */
  function MatchEnd(u: string): (e: nat)
    ensures e <= |u|
  {
    if |u| > 0 && u[|u| - 1] == '\n' then |u| - 1 else |u|
  }

  /** The start of the run of whitespace that ends at offset `k`. */
  function SpaceStart(u: string, k: nat): (j: nat)
    requires k <= |u|
    ensures j <= k
    ensures forall q :: j <= q < k ==> IsSpace(u[q])
    ensures j == 0 || !IsSpace(u[j - 1])
  {
    if k > 0 && IsSpace(u[k - 1]) then SpaceStart(u, k - 1) else k
  }

  /** `re.search(r',\s*([A-Z]{2})$', u)`: the offsets of the match. The comma
      can only be the one right before the whitespace in front of the two final
      letters, so there is at most one match and searching from the left finds
      it. */
  function StateMatch(u: string): (r: Option<(nat, nat)>)
  {
    var e := MatchEnd(u);
    if e >= 3 && IsUpperLetter(u[e - 2]) && IsUpperLetter(u[e - 1]) then
      var j := SpaceStart(u, e - 2);
      if j >= 1 && u[j - 1] == ',' then Some((j - 1, e)) else None
    else None
  }

  /** The search finds a match exactly where the pattern matches. */
  lemma StateMatchIff(u: string, i: nat, e: nat)
    ensures StateMatch(u) == Some((i, e)) <==> AbbreviationAt(u, i, e)
  {
    if AbbreviationAt(u, i, e) {
      assert MatchEnd(u) == e;
      assert !IsSpace(u[i]);
      assert SpaceStart(u, e - 2) == i + 1;
    }
  }

  /** Every name a code table gives ends in three letters. */
  predicate ShapedNames(states: (char, char) -> Option<string>) {
    forall a, b :: states(a, b).Some? ==> NameShape(states(a, b).value)
  }

  /** `normalize_state_abbreviation` with the code table `states`: a trailing
      ", XX" (any case, any whitespace after the comma) naming a state in the
      table is replaced by ", " and the state's name; anything else is
      returned unchanged. The proofs below hold for any table whose names end
      in three letters, so they do not depend on the 51 entries. */
  function NormalizeWith(location: string, states: (char, char) -> Option<string>): (r: string)
    ensures StateMatch(Upper(location)).None? ==> r == location
    ensures r != location ==>
      exists i, a, b :: 0 <= i <= |location| && states(a, b).Some? && r == location[..i] + ", " + states(a, b).value
  {
    var u := Upper(location);
    match StateMatch(u)
    case None => location
    case Some((i, e)) =>
      StateMatchIff(u, i, e);
      match states(u[e - 2], u[e - 1])
      case Some(name) => location[..i] + ", " + name
      case None => location
  }

  /** `normalize_state_abbreviation` with the source's table. */
  function NormalizeStateAbbreviation(location: string): (r: string)
    ensures StateMatch(Upper(location)).None? ==> r == location
    ensures r != location ==>
      exists i, a, b :: 0 <= i <= |location| && StateOf(a, b).Some? && r == location[..i] + ", " + StateOf(a, b).value
  {
    NormalizeWith(location, StateOf)
  }

  /** The source's table names end in three letters. */
  lemma StateNamesShaped()
    ensures ShapedNames(StateOf)
  {
  }

  /** A location ending in a comma, whitespace and a known two-letter code (in
      either case, possibly followed by a final line feed) gets the state's
      name in place of all of them. */
  lemma ExpandsKnownCode(prefix: string, spaces: string, a: char, b: char, end: string)
    requires forall k :: 0 <= k < |spaces| ==> IsSpace(spaces[k])
    requires IsLetter(a) && IsLetter(b) && StateOf(ToUpper(a), ToUpper(b)).Some?
    requires end == "" || end == "\n"
    ensures NormalizeStateAbbreviation(prefix + "," + spaces + [a, b] + end) ==
      prefix + ", " + StateOf(ToUpper(a), ToUpper(b)).value
  {
    ExpandsWith(prefix, spaces, a, b, end, StateOf);
  }

  lemma ExpandsWith(prefix: string, spaces: string, a: char, b: char, end: string,
                    states: (char, char) -> Option<string>)
    requires forall k :: 0 <= k < |spaces| ==> IsSpace(spaces[k])
    requires IsLetter(a) && IsLetter(b) && states(ToUpper(a), ToUpper(b)).Some?
    requires end == "" || end == "\n"
    ensures NormalizeWith(prefix + "," + spaces + [a, b] + end, states) ==
      prefix + ", " + states(ToUpper(a), ToUpper(b)).value
  {
    var location := prefix + "," + spaces + [a, b] + end;
    CodeLayout(prefix, spaces, a, b, end);
    StateMatchIff(Upper(location), |prefix|, |prefix| + 1 + |spaces| + 2);
  }

  /** Where the pattern matches in a location laid out as a prefix, a comma,
      whitespace, two letters and an optional final line feed. */
  lemma CodeLayout(prefix: string, spaces: string, a: char, b: char, end: string)
    requires forall k :: 0 <= k < |spaces| ==> IsSpace(spaces[k])
    requires IsLetter(a) && IsLetter(b)
    requires end == "" || end == "\n"
    ensures var location := prefix + "," + spaces + [a, b] + end;
      var u := Upper(location);
      var e := |prefix| + 1 + |spaces| + 2;
      e <= |u| && AbbreviationAt(u, |prefix|, e) && location[..|prefix|] == prefix &&
      u[e - 2] == ToUpper(a) && u[e - 1] == ToUpper(b)
  {
    var location := prefix + "," + spaces + [a, b] + end;
    var i := |prefix|;
    var e := i + 1 + |spaces| + 2;
    assert location[i] == ',';
    assert forall k :: i < k < e - 2 ==> location[k] == spaces[k - i - 1];
    assert location[e - 2] == a && location[e - 1] == b;
    assert location[..i] == prefix;
  }

  /** Spelling out is done once: a location that has been normalized is left
      as it is, because a state name does not end in a two-letter word. */
  lemma NormalizeIdempotent(location: string)
    ensures NormalizeStateAbbreviation(NormalizeStateAbbreviation(location)) ==
      NormalizeStateAbbreviation(location)
  {
    StateNamesShaped();
    IdempotentWith(location, StateOf);
  }

  lemma IdempotentWith(location: string, states: (char, char) -> Option<string>)
    requires ShapedNames(states)
    ensures NormalizeWith(NormalizeWith(location, states), states) == NormalizeWith(location, states)
  {
    var r := NormalizeWith(location, states);
    NormalizedEnd(location, states);
    if r != location {
      LettersEndKept(r, states);
    }
  }

  /** What normalizing changes ends in a state name, hence in three letters. */
  lemma NormalizedEnd(location: string, states: (char, char) -> Option<string>)
    requires ShapedNames(states)
    ensures var r := NormalizeWith(location, states);
      r == location ||
      (|r| >= 3 && IsLetter(r[|r| - 1]) && IsLetter(r[|r| - 2]) && IsLetter(r[|r| - 3]))
  {
    var r := NormalizeWith(location, states);
    if r != location {
      var p, name := Expansion(location, states);
      EndsWithName(p, name);
    }
  }

  /** A changed location is some prefix followed by a name from the table. */
  lemma Expansion(location: string, states: (char, char) -> Option<string>) returns (p: string, name: string)
    requires NormalizeWith(location, states) != location
    ensures NormalizeWith(location, states) == p + name
    ensures exists a, b :: states(a, b) == Some(name)
  {
    var i, a, b :| 0 <= i <= |location| && states(a, b).Some?
                   && NormalizeWith(location, states) == location[..i] + ", " + states(a, b).value;
    p := location[..i] + ", ";
    name := states(a, b).value;
  }

  /** A text ending in a state name ends in three letters. */
  lemma EndsWithName(p: string, name: string)
    requires NameShape(name)
    ensures var r := p + name;
      |r| >= 3 && IsLetter(r[|r| - 1]) && IsLetter(r[|r| - 2]) && IsLetter(r[|r| - 3])
  {
    var r := p + name;
    assert r[|r| - 1] == name[|name| - 1];
    assert r[|r| - 2] == name[|name| - 2];
    assert r[|r| - 3] == name[|name| - 3];
  }

  /** Text ending in three letters has no trailing code to spell out. */
  lemma LettersEndKept(r: string, states: (char, char) -> Option<string>)
    requires |r| >= 3 && IsLetter(r[|r| - 1]) && IsLetter(r[|r| - 2]) && IsLetter(r[|r| - 3])
    ensures StateMatch(Upper(r)).None?
    ensures NormalizeWith(r, states) == r
  {
    var v := Upper(r);
    var n := |r|;
    assert MatchEnd(v) == n;
    assert !IsSpace(v[n - 3]) && v[n - 3] != ',';
    assert SpaceStart(v, n - 2) == n - 2;
  }

  /** A location ending in a comma, any blanks and two letters (either case,
      optionally before a final line feed) that name no state is left alone. */
  lemma UnknownCodeKept(prefix: string, spaces: string, a: char, b: char, end: string)
    requires forall k :: 0 <= k < |spaces| ==> IsSpace(spaces[k])
    requires IsLetter(a) && IsLetter(b) && StateOf(ToUpper(a), ToUpper(b)).None?
    requires end == "" || end == "\n"
    ensures var location := prefix + "," + spaces + [a, b] + end;
      NormalizeStateAbbreviation(location) == location
  {
    UnknownWith(prefix, spaces, a, b, end, StateOf);
  }

  lemma UnknownWith(prefix: string, spaces: string, a: char, b: char, end: string,
                    states: (char, char) -> Option<string>)
    requires forall k :: 0 <= k < |spaces| ==> IsSpace(spaces[k])
    requires IsLetter(a) && IsLetter(b) && states(ToUpper(a), ToUpper(b)).None?
    requires end == "" || end == "\n"
    ensures var location := prefix + "," + spaces + [a, b] + end;
      NormalizeWith(location, states) == location
  {
    var location := prefix + "," + spaces + [a, b] + end;
    CodeLayout(prefix, spaces, a, b, end);
    StateMatchIff(Upper(location), |prefix|, |prefix| + 1 + |spaces| + 2);
  }

  /** Lower case counts, and so does a final line feed after the code. */
  lemma ExpandsExample()
    ensures NormalizeStateAbbreviation("Denver,co\n") == "Denver, Colorado"
  {
    assert ToUpper('c') == 'C' && ToUpper('o') == 'O';
    assert StateOf('C', 'O') == Some("Colorado");
    assert "Denver,co\n" == "Denver" + "," + "" + ['c', 'o'] + "\n";
    ExpandsWith("Denver", "", 'c', 'o', "\n", StateOf);
    assert "Denver" + ", " + "Colorado" == "Denver, Colorado";
  }

  // ---------------------------------------------------------------- reverse

  /** `reverse_geocode` on the service's `display_name` (none when the answer
      has none or the request failed): its first two comma-separated parts,
      stripped, or the only part. */
  function ShortName(displayName: Option<string>): (r: Option<string>)
    ensures r.Some? <==> displayName.Some?
  {
    match displayName
    case None => None
    case Some(d) =>
      var parts := Split(d, ',');
      if |parts| >= 2 then Some(Strip(parts[0]) + ", " + Strip(parts[1]))
      else Some(Strip(parts[0]))
  }

  /** Splitting at a first separator: the text before it, then the rest split. */
  lemma SplitAtFirst(a: string, t: string, c: char)
    requires c !in a
    ensures Split(a + [c] + t, c) == [a] + Split(t, c)
  {
    var s := a + [c] + t;
    assert forall k :: 0 <= k < |a| ==> s[k] == a[k];
    assert s[|a|] == c;
    assert IndexOf(s, c) == |a|;
    assert s[..|a|] == a && s[|a| + 1..] == t;
  }

  /** A text without separators is one part. */
  lemma SplitNone(s: string, c: char)
    requires c !in s
    ensures Split(s, c) == [s]
  {
    assert IndexOf(s, c) == |s|;
  }

  /** A name with no comma is shown whole, stripped. */
  lemma ShortNameOnePart(d: string)
    requires ',' !in d
    ensures ShortName(Some(d)) == Some(Strip(d))
  {
    SplitNone(d, ',');
  }

  /** A longer name is cut to its first two parts, whatever follows. */
  lemma ShortNameFirstTwo(a: string, b: string, tail: string)
    requires ',' !in a && ',' !in b
    requires tail == [] || tail[0] == ','
    ensures ShortName(Some(a + "," + b + tail)) == Some(Strip(a) + ", " + Strip(b))
  {
    SplitFirstTwo(a, b, tail);
  }

  /** The first two parts of a text with at least one comma. */
  lemma SplitFirstTwo(a: string, b: string, tail: string)
    requires ',' !in a && ',' !in b
    requires tail == [] || tail[0] == ','
    ensures var parts := Split(a + "," + b + tail, ',');
      |parts| >= 2 && parts[0] == a && parts[1] == b
  {
    assert a + "," + b + tail == a + [','] + (b + tail);
    SplitAtFirst(a, b + tail, ',');
    SplitHead(b, tail);
  }

  /** Text up to the first comma is the first part. */
  lemma SplitHead(b: string, tail: string)
    requires ',' !in b
    requires tail == [] || tail[0] == ','
    ensures Split(b + tail, ',')[0] == b
  {
    if tail == [] {
      assert b + tail == b;
      SplitNone(b, ',');
    } else {
      assert b + tail == b + [','] + tail[1..];
      SplitAtFirst(b, tail[1..], ',');
    }
  }
}

=== FILE: pairs.dfy ===
// The "open/total" readings of the scraper (resorts/scraper.py): the patterns
// `(\d+)\s*/\s*(\d+)` and `(\d+)/(\d+)`, optionally followed by whitespace and
// one of a list of words, searched leftmost-first and ignoring case. Every
// repetition in these patterns is greedy and no shorter choice can lead to a
// match (what follows each run cannot start with a character of the run), so
// a match at a position is determined by the maximal runs there.
module Pairs {

  import opened Wrappers
  import opened Text
  import opened Patterns

  /** A match: the two numbers and the end of the whole match (`group(0)`). */
  datatype PairMatch = PairMatch(open: nat, total: nat, end: nat)

  /** The shape of a pattern: whether whitespace may surround the slash, and
      the words one of which must follow (after optional whitespace), tried in
      order as the alternation does; no words means no suffix. */
  datatype PairShape = PairShape(spaced: bool, words: seq<string>)

  /** A well-formed shape: suffix words are non-empty and do not start with
      whitespace, and only spaced patterns carry them. */
  predicate ValidShape(sh: PairShape) {
    && (forall k :: 0 <= k < |sh.words| ==> |sh.words[k]| > 0 && !IsSpace(sh.words[k][0]))
    && (sh.words != [] ==> sh.spaced)
  }

  // `(\d+)\s*/\s*(\d+)`.
  const Spaced := PairShape(true, [])
  // `(\d+)/(\d+)`.
  const Unspaced := PairShape(false, [])
  // `(\d+)\s*/\s*(\d+)\s*trails?`: "trails" is tried before "trail".
  const TrailWords := PairShape(true, ["trails", "trail"])
  // `(\d+)\s*/\s*(\d+)\s*lifts?`.
  const LiftWords := PairShape(true, ["lifts", "lift"])
  // `(\d+)\s*/\s*(\d+)\s*(?:trails|runs)`.
  const TrailOrRunWords := PairShape(true, ["trails", "runs"])
  // `(\d+)\s*/\s*(\d+)\s*lifts`.
  const LiftsWord := PairShape(true, ["lifts"])

  /** The end of the first of `words` found at `p`, ignoring case. */
  function FirstWordAt(t: string, p: nat, words: seq<string>): (e: Option<nat>)
    ensures e.Some? ==> exists k :: 0 <= k < |words| && LiteralAtIgnoreCase(t, p, words[k]) && e.value == p + |words[k]|
    ensures e.None? ==> forall k :: 0 <= k < |words| ==> !LiteralAtIgnoreCase(t, p, words[k])
  {
    if words == [] then None
    else if LiteralAtIgnoreCase(t, p, words[0]) then Some(p + |words[0]|)
    else
      var r := FirstWordAt(t, p, words[1..]);
      assert forall k :: 1 <= k < |words| ==> words[k] == words[1..][k - 1];
      r
  }

  /** Optional whitespace that a spaced pattern allows at `p`. */
  function Gap(t: string, p: nat, spaced: bool): (n: nat)
    requires p <= |t|
    ensures p + n <= |t|
  {
    if spaced then SpaceRun(t, p) else 0
  }

  /** The two numbers and the slash between them at position `i`: where the
      second number starts and where it ends. */
  function NumbersAt(t: string, i: nat, spaced: bool): (r: Option<(nat, nat)>)
    ensures r.Some? ==> i < r.value.0 < r.value.1 <= |t|
  {
    if i > |t| || DigitRun(t, i) == 0 then None
    else
      var p := i + DigitRun(t, i) + Gap(t, i + DigitRun(t, i), spaced);
      if p == |t| || t[p] != '/' then None
      else
        var q := p + 1 + Gap(t, p + 1, spaced);
        if DigitRun(t, q) == 0 then None else Some((q, q + DigitRun(t, q)))
  }

  /** The pattern of shape `sh` at position `i`: the numbers, then one of the
      words after optional whitespace. */
  function PairAt(t: string, i: nat, sh: PairShape): (r: Option<PairMatch>)
    ensures r.Some? ==> i < r.value.end <= |t|
  {
    match NumbersAt(t, i, sh.spaced)
    case None => None
    case Some((q, e)) =>
      var n := PairMatch(NumberAt(t, i), NumberAt(t, q), e);
      if sh.words == [] then Some(n)
      else match FirstWordAt(t, e + SpaceRun(t, e), sh.words)
        case None => None
        case Some(w) => Some(n.(end := w))
  }

  /** `re.search` with a pair pattern: the leftmost match and where it starts. */
  function FindPair(t: string, sh: PairShape): (r: Option<(nat, PairMatch)>)
    ensures r.Some? ==> r.value.0 < r.value.1.end <= |t| && PairAt(t, r.value.0, sh) == Some(r.value.1)
    ensures r.Some? ==> forall j :: 0 <= j < r.value.0 ==> PairAt(t, j, sh).None?
    ensures r.None? ==> forall j :: 0 <= j <= |t| ==> PairAt(t, j, sh).None?
  {
    var at := (i: nat) => PairAt(t, i, sh);
    assert forall j: nat :: at(j) == PairAt(t, j, sh);
    Search(|t|, at, 0)
  }

  /** `match.group(0)` of the leftmost match. */
  function PairText(t: string, sh: PairShape): (r: Option<string>)
    ensures r.Some? ==> |r.value| > 0
  {
    match FindPair(t, sh)
    case None => None
    case Some((i, m)) => Some(t[i..m.end])
  }

  /** The two numbers of the leftmost match of the spaced pattern in `s`: how
      the div-row parser reads the text another pattern matched. */
  function NumbersOf(s: string): (r: Option<(nat, nat)>)
  {
    match FindPair(s, Spaced)
    case None => None
    case Some((_, m)) => Some((m.open, m.total))
  }

  /** A match of any shape holds the numbers pattern, and reads the numbers
      where it says they are. */
  lemma NumbersOfPair(t: string, i: nat, sh: PairShape)
    requires PairAt(t, i, sh).Some?
    ensures NumbersAt(t, i, sh.spaced).Some?
    ensures var (q, e) := NumbersAt(t, i, sh.spaced).value;
            var m := PairAt(t, i, sh).value;
            m.open == NumberAt(t, i) && m.total == NumberAt(t, q) && e <= m.end
  {
  }

  /** The runs the numbers consist of. */
  lemma NumbersParts(t: string, i: nat, spaced: bool) returns (a: nat, g1: nat, g2: nat, b: nat)
    requires NumbersAt(t, i, spaced).Some?
    ensures var (q, e) := NumbersAt(t, i, spaced).value;
            && 0 < a && 0 < b && q == i + a + g1 + 1 + g2 && e == q + b
            && DigitRun(t, i) == a && t[i + a + g1] == '/' && DigitRun(t, q) == b
    ensures spaced ==> SpaceRun(t, i + a) == g1 && SpaceRun(t, i + a + g1 + 1) == g2
    ensures !spaced ==> g1 == 0 && g2 == 0
  {
    a := DigitRun(t, i);
    g1 := Gap(t, i + a, spaced);
    g2 := Gap(t, i + a + g1 + 1, spaced);
    b := DigitRun(t, i + a + g1 + 1 + g2);
  }

  /** At a slash no whitespace run starts. */
  lemma NoSpaceAtSlash(t: string, p: nat)
    requires p < |t| && t[p] == '/'
    ensures SpaceRun(t, p) == 0
  {
    SpaceRunUpTo(t, p, 0);
  }

  /** The spaced numbers at the start of `s`, read off their runs. */
  lemma SpacedOfRuns(s: string, a: nat, g1: nat, g2: nat, b: nat)
    requires 0 < a && a + g1 + 1 + g2 + b <= |s|
    requires DigitRun(s, 0) == a && SpaceRun(s, a) == g1 && s[a + g1] == '/'
    requires SpaceRun(s, a + g1 + 1) == g2 && DigitRun(s, a + g1 + 1 + g2) == b && 0 < b
    ensures NumbersAt(s, 0, true) == Some((a + g1 + 1 + g2, a + g1 + 1 + g2 + b))
  {
  }

  // The lemmas below read a copy `s` of part of the text, written at `lo`
  // (`s == t[lo..lo + |s|]`), and show that the runs and numbers in the copy
  // are those of the text when the copy holds them whole.

  /** A digit run held whole by the copy. */
  lemma DigitRunInCopy(t: string, lo: nat, s: string, k: nat)
    requires WrittenAt(t, lo, s) && k <= |s| && k + DigitRun(t, lo + k) <= |s|
    ensures DigitRun(s, k) == DigitRun(t, lo + k)
  {
    var n := DigitRun(t, lo + k);
    DigitRunChars(t, lo + k);
    forall j | k <= j < k + n
      ensures IsDigit(s[j])
    {
      assert s[j] == t[lo + j];
    }
    if k + n < |s| {
      assert s[k + n] == t[lo + (k + n)];
    }
    DigitRunUpTo(s, k, n);
  }

  /** A whitespace run held whole by the copy. */
  lemma SpaceRunInCopy(t: string, lo: nat, s: string, k: nat)
    requires WrittenAt(t, lo, s) && k <= |s| && k + SpaceRun(t, lo + k) <= |s|
    ensures SpaceRun(s, k) == SpaceRun(t, lo + k)
  {
    var n := SpaceRun(t, lo + k);
    SpaceRunChars(t, lo + k);
    forall j | k <= j < k + n
      ensures IsSpace(s[j])
    {
      assert s[j] == t[lo + j];
    }
    if k + n < |s| {
      assert s[k + n] == t[lo + (k + n)];
    }
    SpaceRunUpTo(s, k, n);
  }

  /** Reading digits in the copy is reading them in the text. */
  lemma {:induction false} RunValueInCopy(t: string, lo: nat, s: string, x: nat, y: nat)
    requires WrittenAt(t, lo, s) && x <= y <= |s|
    requires forall k :: lo + x <= k < lo + y ==> IsDigit(t[k])
    ensures forall k :: x <= k < y ==> IsDigit(s[k])
    ensures RunValue(s, x, y) == RunValue(t, lo + x, lo + y)
    decreases y - x
  {
    if y > x {
      RunValueInCopy(t, lo, s, x, y - 1);
      assert s[y - 1] == t[lo + (y - 1)];
    }
  }

  /** A number held whole by the copy. */
  lemma NumberAtInCopy(t: string, lo: nat, s: string, k: nat)
    requires WrittenAt(t, lo, s) && k <= |s| && k + DigitRun(t, lo + k) <= |s|
    ensures NumberAt(s, k) == NumberAt(t, lo + k)
  {
    DigitRunInCopy(t, lo, s, k);
    DigitRunChars(t, lo + k);
    RunValueInCopy(t, lo, s, k, k + DigitRun(t, lo + k));
  }

  /** The whitespace around the slash, as the spaced pattern sees it in a copy
      that holds the numbers. */
  lemma GapsInCopy(t: string, i: nat, s: string, spaced: bool, a: nat, g1: nat, g2: nat)
    requires WrittenAt(t, i, s) && a + g1 + 1 + g2 < |s|
    requires t[i + a + g1] == '/' && !IsSpace(t[i + a + g1 + 1 + g2])
    requires spaced ==> SpaceRun(t, i + a) == g1 && SpaceRun(t, i + a + g1 + 1) == g2
    requires !spaced ==> g1 == 0 && g2 == 0
    ensures SpaceRun(s, a) == g1 && SpaceRun(s, a + g1 + 1) == g2 && s[a + g1] == '/'
  {
    assert s[a + g1] == t[i + (a + g1)];
    if spaced {
      SpaceRunInCopy(t, i, s, a);
      SpaceRunInCopy(t, i, s, a + g1 + 1);
    } else {
      assert s[a + 1] == t[i + (a + 1)];
      NoSpaceAtSlash(s, a);
      SpaceRunUpTo(s, a + 1, 0);
    }
  }

  /** Numbers laid out as `a` digits, `g1` blanks, a slash, `g2` blanks and `b`
      digits, copied out of the text, are found by the spaced numbers pattern at
      the first character of the copy. */
  lemma CopiedNumbers(t: string, i: nat, s: string, spaced: bool, a: nat, g1: nat, g2: nat, b: nat)
    requires WrittenAt(t, i, s) && 0 < a && 0 < b && a + g1 + 1 + g2 + b <= |s|
    requires DigitRun(t, i) == a && t[i + a + g1] == '/' && DigitRun(t, i + a + g1 + 1 + g2) == b
    requires spaced ==> SpaceRun(t, i + a) == g1 && SpaceRun(t, i + a + g1 + 1) == g2
    requires !spaced ==> g1 == 0 && g2 == 0
    ensures NumbersAt(s, 0, true) == Some((a + g1 + 1 + g2, a + g1 + 1 + g2 + b))
  {
    var q := a + g1 + 1 + g2;
    DigitRunInCopy(t, i, s, 0);
    DigitRunInCopy(t, i, s, q);
    GapsInCopy(t, i, s, spaced, a, g1, g2);
    SpacedOfRuns(s, a, g1, g2, b);
  }

  /** The spaced pattern with no words, once its numbers are found. */
  lemma SpacedPairAt(s: string, q: nat, e: nat)
    requires NumbersAt(s, 0, true) == Some((q, e))
    ensures PairAt(s, 0, Spaced) == Some(PairMatch(NumberAt(s, 0), NumberAt(s, q), e))
  {
  }

  /** The runs a match of a pair pattern consists of, and the numbers it reads. */
  lemma PairParts(t: string, i: nat, sh: PairShape) returns (a: nat, g1: nat, g2: nat, b: nat)
    requires PairAt(t, i, sh).Some?
    ensures 0 < a && 0 < b && i + a + g1 + 1 + g2 + b <= PairAt(t, i, sh).value.end
    ensures DigitRun(t, i) == a && t[i + a + g1] == '/' && DigitRun(t, i + a + g1 + 1 + g2) == b
    ensures sh.spaced ==> SpaceRun(t, i + a) == g1 && SpaceRun(t, i + a + g1 + 1) == g2
    ensures !sh.spaced ==> g1 == 0 && g2 == 0
    ensures PairAt(t, i, sh).value.open == NumberAt(t, i)
    ensures PairAt(t, i, sh).value.total == NumberAt(t, i + a + g1 + 1 + g2)
  {
    NumbersOfPair(t, i, sh);
    a, g1, g2, b := NumbersParts(t, i, sh.spaced);
  }

  /** The pair laid out as runs, copied out of the text, read again by the
      spaced pattern with no words. */
  lemma CopiedPair(t: string, i: nat, s: string, spaced: bool, a: nat, g1: nat, g2: nat, b: nat)
    requires WrittenAt(t, i, s) && 0 < a && 0 < b && a + g1 + 1 + g2 + b <= |s|
    requires DigitRun(t, i) == a && t[i + a + g1] == '/' && DigitRun(t, i + a + g1 + 1 + g2) == b
    requires spaced ==> SpaceRun(t, i + a) == g1 && SpaceRun(t, i + a + g1 + 1) == g2
    requires !spaced ==> g1 == 0 && g2 == 0
    ensures PairAt(s, 0, Spaced)
         == Some(PairMatch(NumberAt(t, i), NumberAt(t, i + a + g1 + 1 + g2), a + g1 + 1 + g2 + b))
  {
    var q := a + g1 + 1 + g2;
    CopiedNumbers(t, i, s, spaced, a, g1, g2, b);
    SpacedPairAt(s, q, q + b);
    NumberAtInCopy(t, i, s, 0);
    NumberAtInCopy(t, i, s, q);
  }

  /** A slice is a copy of the text written where the slice starts. */
  lemma SliceWritten(t: string, lo: nat, hi: nat)
    requires lo <= hi <= |t|
    ensures WrittenAt(t, lo, t[lo..hi])
  {
  }

  /** Whatever a pair pattern matched, the spaced pattern matches it again from
      its first character and reads the same two numbers. */
  lemma PairAgain(t: string, i: nat, sh: PairShape)
    requires PairAt(t, i, sh).Some?
    ensures PairAt(t[i..PairAt(t, i, sh).value.end], 0, Spaced).Some?
    ensures var m := PairAt(t, i, sh).value;
            var m' := PairAt(t[i..m.end], 0, Spaced).value;
            m'.open == m.open && m'.total == m.total
  {
    var a, g1, g2, b := PairParts(t, i, sh);
    var e := PairAt(t, i, sh).value.end;
    SliceWritten(t, i, e);
    CopiedPair(t, i, t[i..e], sh.spaced, a, g1, g2, b);
  }
}

=== FILE: patterns.dfy ===
/** The regular expressions of the scraper (resorts/scraper.py), each written
    out as a matcher at one offset with Python's backtracking order resolved,
    plus the two drivers every use goes through: `re.search` (the leftmost offset
    where the matcher succeeds) and `re.sub(pattern, '', text)` (every
    non-overlapping match removed, scanning left to right). */
module Patterns {

  import opened Wrappers
  import opened Text

  // ---------------------------------------------------------------- drivers

  /** `re.search` over offsets `from..n`: the first offset where `at` matches and
      what it captured. */
  function Search<T>(n: nat, at: nat -> Option<T>, from: nat): (r: Option<(nat, T)>)
    ensures r.Some? ==> from <= r.value.0 <= n && at(r.value.0) == Some(r.value.1)
    ensures r.Some? ==> forall j :: from <= j < r.value.0 ==> at(j).None?
    ensures r.None? ==> forall j :: from <= j <= n ==> at(j).None?
    decreases n + 1 - from
  {
    if from > n then None
    else
      match at(from)
      case Some(v) => Some((from, v))
      case None => Search(n, at, from + 1)
  }

  /** Every match of `at` ends after it starts and inside a text of length `n`. */
  ghost predicate NonEmptyMatches(n: nat, at: nat -> Option<nat>) {
    forall i: nat :: at(i).Some? ==> i < at(i).value <= n
  }

  /** `re.sub(pattern, '', t[from..])` where `at(i)` is the end of the match at `i`. */
  function Remove(t: string, at: nat -> Option<nat>, from: nat): (r: string)
    requires from <= |t|
    requires NonEmptyMatches(|t|, at)
    ensures |r| <= |t| - from
    ensures Search(|t|, at, from).None? ==> r == t[from..]
    ensures Search(|t|, at, from).Some? ==> |r| < |t| - from
    decreases |t| - from
  {
    match Search(|t|, at, from)
    case None => t[from..]
    case Some((i, e)) => t[from..i] + Remove(t, at, e)
  }

  /** With nothing left to match from `from` on, removing changes nothing; with a
      first match at `i` ending at `e`, the text before `i` is kept and the
      scan resumes at `e`. */
  lemma RemoveStep(t: string, at: nat -> Option<nat>, from: nat, i: nat, e: nat)
    requires from <= i <= |t| && NonEmptyMatches(|t|, at)
    requires at(i) == Some(e)
    requires forall j :: from <= j < i ==> at(j).None?
    ensures Remove(t, at, from) == t[from..i] + Remove(t, at, e)
  {
    assert Search(|t|, at, from) == Some((i, e)) by {
      SearchFinds(|t|, at, from, i);
    }
  }

  /** The search stops at the first offset that matches. */
  lemma {:induction false} SearchFinds<T>(n: nat, at: nat -> Option<T>, from: nat, i: nat)
    requires from <= i <= n && at(i).Some?
    requires forall j :: from <= j < i ==> at(j).None?
    ensures Search(n, at, from) == Some((i, at(i).value))
    decreases i - from
  {
    if from < i {
      SearchFinds(n, at, from + 1, i);
    }
  }

  // ---------------------------------------------------------------- "N hours ago"

  /** A keyword that is a plain word: letters and digits only. */
  predicate IsWord(w: string) {
    |w| > 0 && forall k :: 0 <= k < |w| ==> IsLetter(w[k]) || IsDigit(w[k])
  }

  /** A case-insensitive occurrence of a lower-case word consists of letters. */
  lemma IgnoreCaseLetters(t: string, p: nat, w: string)
    requires forall k :: 0 <= k < |w| ==> IsLowerLetter(w[k])
    requires LiteralAtIgnoreCase(t, p, w)
    ensures forall q :: p <= q < p + |w| ==> IsLetter(t[q])
  {
    forall q | p <= q < p + |w|
      ensures IsLetter(t[q])
    {
      assert ToLower(t[p + (q - p)]) == ToLower(w[q - p]);
    }
  }

  /** The length of the unit word `hour`, `day` or `minute` at `k`, ignoring
      case, or 0 when none starts there. */
  function UnitWord(t: string, k: nat): (w: nat)
    ensures w == 0 || w == 3 || w == 4 || w == 6
    ensures w > 0 ==> k + w <= |t|
  {
    if LiteralAtIgnoreCase(t, k, "hour") then 4
    else if LiteralAtIgnoreCase(t, k, "day") then 3
    else if LiteralAtIgnoreCase(t, k, "minute") then 6
    else 0
  }

  /** `(hours?|days?|minutes?)` at `k`, ignoring case: the end of the unit. A
      plural `s` is always taken when present, since without it neither `\s*` nor
      `ago` could continue at the `s`. */
  function UnitEnd(t: string, k: nat): (e: Option<nat>)
    ensures e.Some? ==> k < e.value <= |t|
  {
    var w := UnitWord(t, k);
    if w == 0 then None
    else if k + w < |t| && ToLower(t[k + w]) == 's' then Some(k + w + 1)
    else Some(k + w)
  }

  /** A unit word is made of letters. */
  lemma UnitLetters(t: string, k: nat)
    requires UnitEnd(t, k).Some?
    ensures forall q :: k <= q < UnitEnd(t, k).value ==> IsLetter(t[q])
  {
    var w := UnitWord(t, k);
    assert k + w < |t| && ToLower(t[k + w]) == 's' ==> IsLetter(t[k + w]);
    if w == 4 {
      IgnoreCaseLetters(t, k, "hour");
    } else if w == 3 {
      IgnoreCaseLetters(t, k, "day");
    } else {
      IgnoreCaseLetters(t, k, "minute");
    }
  }

  /** `$`: the end of the text, or just before a final newline. */
  predicate AtEnd(t: string, e: nat) {
    e == |t| || (e + 1 == |t| && t[e] == '\n')
  }

  /** `ago$` at `m`, ignoring case: the end of the match. */
  function AgoWord(t: string, m: nat): (e: Option<nat>)
    ensures e.Some? ==> e.value == m + 3 <= |t| && AtEnd(t, e.value)
  {
    if LiteralAtIgnoreCase(t, m, "ago") && AtEnd(t, m + 3) then Some(m + 3) else None
  }

  /** `\s*(hours?|days?|minutes?)\s*ago$` at `p`: what follows the digits. */
  function AgoTail(t: string, p: nat): (e: Option<nat>)
    requires p <= |t|
    ensures e.Some? ==> p < e.value <= |t| && AtEnd(t, e.value)
  {
    match UnitEnd(t, p + SpaceRun(t, p))
    case None => None
    case Some(u) => AgoWord(t, u + SpaceRun(t, u))
  }

  /** `\d+\s*(hours?|days?|minutes?)\s*ago$` at `i`, ignoring case: the end of
      the match. Both `\d+` and `\s*` are maximal, as no shorter run lets the
      next part start. */
  function AgoAt(t: string, i: nat): (e: Option<nat>)
    ensures e.Some? ==> i < e.value <= |t| && IsDigit(t[i]) && AtEnd(t, e.value)
  {
    if i <= |t| && DigitRun(t, i) > 0 then AgoTail(t, i + DigitRun(t, i)) else None
  }

  /** The word `ago` holds no digit. */
  lemma AgoWordNoDigits(t: string, m: nat)
    requires AgoWord(t, m).Some?
    ensures forall q :: m <= q < m + 3 ==> !IsDigit(t[q])
  {
    assert ToLower(t[m + 0]) == ToLower("ago"[0]);
    assert ToLower(t[m + 1]) == ToLower("ago"[1]);
    assert ToLower(t[m + 2]) == ToLower("ago"[2]);
    forall q | m <= q < m + 3
      ensures !IsDigit(t[q])
    {
      assert q == m || q == m + 1 || q == m + 2;
    }
  }

  /** What follows the digits of a match holds no digit: whitespace, the unit
      and `ago` are all non-digits. */
  lemma AgoTailNoDigits(t: string, p: nat)
    requires p <= |t| && AgoTail(t, p).Some?
    ensures forall q :: p <= q < AgoTail(t, p).value ==> !IsDigit(t[q])
  {
    var k := p + SpaceRun(t, p);
    var u := UnitEnd(t, k).value;
    var m := u + SpaceRun(t, u);
    SpaceRunChars(t, p);
    SpaceRunChars(t, u);
    UnitLetters(t, k);
    AgoWordNoDigits(t, m);
  }

  /** The name cell of the table layout: `re.sub(r'\d+\s*(hours?|days?|minutes?)\s*ago$',
      '', text, flags=re.IGNORECASE).strip()`. */
  function CleanRowName(t: string): (r: string)
    ensures |r| <= |t|
    ensures r == [] || (!IsSpace(r[0]) && !IsSpace(r[|r| - 1]))
    ensures (forall i :: 0 <= i <= |t| ==> AgoAt(t, i).None?) ==> r == Strip(t)
  {
    assert t[0..] == t;
    Strip(Remove(t, i => AgoAt(t, i), 0))
  }

  /** The unit words the suffix accepts, in the forms `str.lower()` gives them. */
  predicate IsUnit(w: string) {
    w in UnitWords
  }

  const UnitWords: seq<string> := ["hour", "hours", "day", "days", "minute", "minutes"]

  /** A unit word starts with a letter other than `s` and ends in a letter. */
  lemma UnitShape(w: string)
    requires IsUnit(w)
    ensures 3 <= |w| && IsLowerLetter(w[0]) && IsLowerLetter(w[|w| - 1])
  {
  }

  /** A unit word written at `k`, not followed by a further `s`, ends where it is written. */
  lemma UnitEndOf(t: string, k: nat, w: string)
    requires IsUnit(w) && WrittenAt(t, k, w)
    requires k + |w| < |t| ==> ToLower(t[k + |w|]) != 's'
    ensures UnitEnd(t, k) == Some(k + |w|)
  {
    assert t[k + 0] == w[0];
    if w == "hour" || w == "hours" {
      assert LiteralAtIgnoreCase(t, k, "hour") by {
        forall q | 0 <= q < 4 ensures ToLower(t[k + q]) == ToLower("hour"[q]) {
          assert t[k + q] == w[q];
        }
      }
      if w == "hours" { assert t[k + 4] == w[4]; }
    } else if w == "day" || w == "days" {
      assert ToLower(t[k + 0]) != ToLower("hour"[0]);
      assert LiteralAtIgnoreCase(t, k, "day") by {
        forall q | 0 <= q < 3 ensures ToLower(t[k + q]) == ToLower("day"[q]) {
          assert t[k + q] == w[q];
        }
      }
      if w == "days" { assert t[k + 3] == w[3]; }
    } else {
      assert ToLower(t[k + 0]) != ToLower("hour"[0]);
      assert ToLower(t[k + 0]) != ToLower("day"[0]);
      assert LiteralAtIgnoreCase(t, k, "minute") by {
        forall q | 0 <= q < 6 ensures ToLower(t[k + q]) == ToLower("minute"[q]) {
          assert t[k + q] == w[q];
        }
      }
      if w == "minutes" { assert t[k + 6] == w[6]; }
    }
  }

  /** A run of whitespace characters (possibly empty). */
  predicate AllSpaces(s: string) {
    forall k :: 0 <= k < |s| ==> IsSpace(s[k])
  }

  /** Whitespace written at `a` and not followed by more is the whole run there. */
  lemma SpacesThen(t: string, a: nat, sp: string)
    requires AllSpaces(sp) && WrittenAt(t, a, sp)
    requires a + |sp| == |t| || !IsSpace(t[a + |sp|])
    ensures SpaceRun(t, a) == |sp|
  {
    WrittenChars(t, a, sp);
    SpaceRunUpTo(t, a, |sp|);
  }

  /** Digits written at `a` and not followed by more are the whole run there. */
  lemma DigitsThen(t: string, a: nat, d: string)
    requires AllDigits(d) && WrittenAt(t, a, d)
    requires a + |d| == |t| || !IsDigit(t[a + |d|])
    ensures DigitRun(t, a) == |d|
  {
    WrittenChars(t, a, d);
    DigitRunUpTo(t, a, |d|);
  }

  /** `ago` written at the very end. */
  lemma AgoWordMatches(t: string, m: nat)
    requires WrittenAt(t, m, "ago") && m + 3 == |t|
    ensures AgoWord(t, m) == Some(|t|)
  {
    assert LiteralAtIgnoreCase(t, m, "ago");
  }

  /** The first character of whitespace followed by `ago`: a space or the `a`. */
  lemma SpacesAgoStart(t: string, u: nat, sp: string)
    requires AllSpaces(sp) && WrittenAt(t, u, sp) && WrittenAt(t, u + |sp|, "ago")
    ensures u < |t| && ToLower(t[u]) != 's'
  {
    if |sp| > 0 {
      assert t[u + 0] == sp[0];
    } else {
      assert t[u + 0] == "ago"[0];
    }
  }

  /** The unit, whitespace and `ago` at the end of the text. */
  lemma UnitAgoPieces(t: string, k: nat, unit: string, sp2: string)
    requires AllSpaces(sp2) && IsUnit(unit)
    requires WrittenAt(t, k, unit) && WrittenAt(t, k + |unit|, sp2)
    requires WrittenAt(t, k + |unit| + |sp2|, "ago") && k + |unit| + |sp2| + 3 == |t|
    ensures UnitEnd(t, k) == Some(k + |unit|)
    ensures AgoWord(t, k + |unit| + SpaceRun(t, k + |unit|)) == Some(|t|)
  {
    var u := k + |unit|;
    SpacesAgoStart(t, u, sp2);
    UnitEndOf(t, k, unit);
    assert t[u + |sp2| + 0] == "ago"[0];
    SpacesThen(t, u, sp2);
    AgoWordMatches(t, u + |sp2|);
  }

  /** `\s*(hours?|days?|minutes?)\s*ago$` matches whitespace, a unit, whitespace
      and `ago` written at the end of the text. */
  lemma AgoTailMatches(t: string, a: nat, sp1: string, unit: string, sp2: string)
    requires AllSpaces(sp1) && AllSpaces(sp2) && IsUnit(unit)
    requires WrittenAt(t, a, sp1) && WrittenAt(t, a + |sp1|, unit)
    requires WrittenAt(t, a + |sp1| + |unit|, sp2)
    requires WrittenAt(t, a + |sp1| + |unit| + |sp2|, "ago") && a + |sp1| + |unit| + |sp2| + 3 == |t|
    ensures AgoTail(t, a) == Some(|t|)
  {
    var k := a + |sp1|;
    UnitShape(unit);
    assert t[k + 0] == unit[0];
    SpacesThen(t, a, sp1);
    UnitAgoPieces(t, k, unit, sp2);
    AgoTailOfParts(t, a, k, k + |unit|);
  }

  lemma AgoTailOfParts(t: string, a: nat, k: nat, u: nat)
    requires a <= k <= |t| && SpaceRun(t, a) == k - a && UnitEnd(t, k) == Some(u)
    requires AgoWord(t, u + SpaceRun(t, u)) == Some(|t|)
    ensures AgoTail(t, a) == Some(|t|)
  {
  }

  /** The first character after the digits: whitespace or the unit's first letter. */
  lemma AfterDigits(t: string, b: nat, sp1: string, unit: string)
    requires AllSpaces(sp1) && IsUnit(unit) && WrittenAt(t, b, sp1) && WrittenAt(t, b + |sp1|, unit)
    ensures b < |t| && !IsDigit(t[b])
  {
    UnitShape(unit);
    if |sp1| > 0 {
      assert t[b + 0] == sp1[0];
    } else {
      assert t[b + 0] == unit[0];
    }
  }

  /** `digits`, whitespace, a unit, whitespace and `ago` written at the end of
      the text match the suffix pattern at the first digit. */
  lemma AgoSuffixMatches(t: string, a: nat, digits: string, sp1: string, unit: string, sp2: string)
    requires |digits| > 0 && AllDigits(digits) && AllSpaces(sp1) && AllSpaces(sp2) && IsUnit(unit)
    requires WrittenAt(t, a, digits) && WrittenAt(t, a + |digits|, sp1)
    requires WrittenAt(t, a + |digits| + |sp1|, unit) && WrittenAt(t, a + |digits| + |sp1| + |unit|, sp2)
    requires WrittenAt(t, a + |digits| + |sp1| + |unit| + |sp2|, "ago")
    requires a + |digits| + |sp1| + |unit| + |sp2| + 3 == |t|
    ensures AgoAt(t, a) == Some(|t|)
  {
    var b := a + |digits|;
    AfterDigits(t, b, sp1, unit);
    DigitsThen(t, a, digits);
    AgoTailMatches(t, b, sp1, unit, sp2);
    AgoAtOfParts(t, a, b);
  }

  lemma AgoAtOfParts(t: string, a: nat, b: nat)
    requires a < b <= |t| && DigitRun(t, a) == b - a && AgoTail(t, b) == Some(|t|)
    ensures AgoAt(t, a) == Some(|t|)
  {
  }

  /** No match of the suffix starts before a digit run that follows a non-digit:
      a match from an earlier digit would have to cross that non-digit and then
      meet the digit at `n`. */
  lemma NoAgoBefore(t: string, n: nat)
    requires n + 1 < |t| && IsDigit(t[n]) && (n == 0 || !IsDigit(t[n - 1]))
    ensures forall j :: 0 <= j < n ==> AgoAt(t, j).None?
  {
    forall j | 0 <= j < n
      ensures AgoAt(t, j).None?
    {
      if AgoAt(t, j).Some? {
        DigitRunChars(t, j);
        AgoTailNoDigits(t, j + DigitRun(t, j));
      }
    }
  }

  /** A single match that runs to the end of the text, with none before it,
      leaves exactly the text before it. */
  lemma RemoveToEnd(t: string, at: nat -> Option<nat>, n: nat)
    requires n <= |t| && NonEmptyMatches(|t|, at)
    requires at(n) == Some(|t|)
    requires forall j :: 0 <= j < n ==> at(j).None?
    ensures Remove(t, at, 0) == t[..n]
  {
    RemoveStep(t, at, 0, n, |t|);
    assert Search(|t|, at, |t|).None? by {
      assert at(|t|).None?;
    }
  }

  /** Where the pieces of a name followed by the suffix are written. */
  lemma SuffixLayout(name: string, digits: string, sp1: string, unit: string, sp2: string, t: string)
    requires t == name + (digits + (sp1 + (unit + (sp2 + "ago"))))
    ensures var n := |name|;
            && WrittenAt(t, 0, name) && WrittenAt(t, n, digits) && WrittenAt(t, n + |digits|, sp1)
            && WrittenAt(t, n + |digits| + |sp1|, unit) && WrittenAt(t, n + |digits| + |sp1| + |unit|, sp2)
            && WrittenAt(t, n + |digits| + |sp1| + |unit| + |sp2|, "ago")
            && n + |digits| + |sp1| + |unit| + |sp2| + 3 == |t|
  {
    var n := |name|;
    WrittenPieces(name, digits + (sp1 + (unit + (sp2 + "ago"))));
    WrittenSplit(t, n, digits, sp1 + (unit + (sp2 + "ago")));
    WrittenSplit(t, n + |digits|, sp1, unit + (sp2 + "ago"));
    WrittenSplit(t, n + |digits| + |sp1|, unit, sp2 + "ago");
    WrittenSplit(t, n + |digits| + |sp1| + |unit|, sp2, "ago");
  }

  /** In `name` followed by the suffix, the suffix pattern first matches where
      the suffix starts, when the name does not end in a digit. */
  lemma SuffixFirstMatch(name: string, digits: string, sp1: string, unit: string, sp2: string, t: string)
    requires name == [] || !IsDigit(name[|name| - 1])
    requires |digits| > 0 && AllDigits(digits) && AllSpaces(sp1) && AllSpaces(sp2) && IsUnit(unit)
    requires t == name + (digits + (sp1 + (unit + (sp2 + "ago"))))
    ensures AgoAt(t, |name|) == Some(|t|)
    ensures forall j :: 0 <= j < |name| ==> AgoAt(t, j).None?
  {
    var n := |name|;
    SuffixLayout(name, digits, sp1, unit, sp2, t);
    AgoSuffixMatches(t, n, digits, sp1, unit, sp2);
    assert t[n + 0] == digits[0];
    if n > 0 {
      assert t[0 + (n - 1)] == name[n - 1];
    }
    NoAgoBefore(t, n);
  }

  /** Removing the suffix from a name that does not end in a digit gives the
      name back: `"Vail2 hours ago"` is the resort `Vail`. */
  lemma CleanRowNameDropsSuffix(name: string, digits: string, sp1: string, unit: string, sp2: string, t: string)
    requires name == [] || !IsDigit(name[|name| - 1])
    requires |digits| > 0 && AllDigits(digits) && AllSpaces(sp1) && AllSpaces(sp2) && IsUnit(unit)
    requires t == name + (digits + (sp1 + (unit + (sp2 + "ago"))))
    ensures CleanRowName(t) == Strip(name)
  {
    SuffixFirstMatch(name, digits, sp1, unit, sp2, t);
    CleanRowNameAt(t, |name|);
    assert t[..|name|] == name;
  }

  /** A suffix match at `n` with none before it leaves `strip(t[..n])`. */
  lemma CleanRowNameAt(t: string, n: nat)
    requires n <= |t| && AgoAt(t, n) == Some(|t|)
    requires forall j :: 0 <= j < n ==> AgoAt(t, j).None?
    ensures CleanRowName(t) == Strip(t[..n])
  {
    RemoveToEnd(t, (i: nat) => AgoAt(t, i), n);
  }

  // ---------------------------------------------------------------- page titles

  /** How many characters from `p` on precede the next newline: what `.*` consumes. */
  function LineRun(t: string, p: nat): (n: nat)
    requires p <= |t|
    ensures p + n <= |t|
    ensures forall q :: p <= q < p + n ==> t[q] != '\n'
    ensures p + n == |t| || t[p + n] == '\n'
    decreases |t| - p
  {
    if p < |t| && t[p] != '\n' then 1 + LineRun(t, p + 1) else 0
  }

  /** `\s*<lit>.*` at `i`, ignoring case: leading whitespace, the literal and
      the rest of its line. `\s*` is maximal, since the literal does not start
      with whitespace. */
  function CutAt(t: string, lit: string, i: nat): (e: Option<nat>)
    requires |lit| > 0
    ensures e.Some? ==> i < e.value <= |t|
  {
    if i > |t| then None
    else
      var k := i + SpaceRun(t, i);
      if LiteralAtIgnoreCase(t, k, lit) then Some(k + |lit| + LineRun(t, k + |lit|)) else None
  }

  /** `re.sub(r'\s*<lit>.*', '', t, flags=re.IGNORECASE)`. */
  function Cut(t: string, lit: string): (r: string)
    requires |lit| > 0
    ensures |r| <= |t|
  {
    Remove(t, (i: nat) => CutAt(t, lit, i), 0)
  }

  /** The name on a resort page: the `h1` text with `\s*Snow Report.*` and then
      `\s*Ski Resort.*` removed, ignoring case. */
  function CleanTitle(t: string): (r: string)
    ensures |r| <= |t|
    ensures (forall j :: 0 <= j <= |t| ==> CutAt(t, "Snow Report", j).None? && CutAt(t, "Ski Resort", j).None?) ==>
      r == t
  {
    CleanTitleUncut(t);
    Cut(Cut(t, "Snow Report"), "Ski Resort")
  }

  /** A title mentioning neither phrase is kept whole. */
  lemma CleanTitleUncut(t: string)
    ensures (forall j :: 0 <= j <= |t| ==> CutAt(t, "Snow Report", j).None? && CutAt(t, "Ski Resort", j).None?) ==>
      Cut(Cut(t, "Snow Report"), "Ski Resort") == t
  {
    if forall j :: 0 <= j <= |t| ==> CutAt(t, "Snow Report", j).None? && CutAt(t, "Ski Resort", j).None? {
      CutNowhere(t, "Snow Report");
      CutNowhere(t, "Ski Resort");
    }
  }

  /** An occurrence of a literal that does not start with whitespace starts a cut. */
  lemma LiteralStartsCut(t: string, lit: string, j: nat)
    requires |lit| > 0 && !IsSpace(lit[0])
    requires LiteralAtIgnoreCase(t, j, lit)
    ensures CutAt(t, lit, j).Some?
  {
    assert ToLower(t[j + 0]) == ToLower(lit[0]);
    assert SpaceRun(t, j) == 0;
  }

  /** The whitespace run before a cut belongs to it: a cut at `i` after a
      whitespace character is also a cut at `i - 1`. */
  lemma CutExtendsLeft(t: string, lit: string, i: nat)
    requires |lit| > 0 && 0 < i <= |t| && IsSpace(t[i - 1])
    requires CutAt(t, lit, i).Some?
    ensures CutAt(t, lit, i - 1).Some?
  {
    assert SpaceRun(t, i - 1) == 1 + SpaceRun(t, i);
  }

  /** What a cut consists of: optional whitespace and the literal; on a line
      without a newline it runs to the end. */
  lemma CutAtShape(t: string, lit: string, i: nat)
    requires |lit| > 0 && CutAt(t, lit, i).Some?
    requires forall q :: 0 <= q < |t| ==> t[q] != '\n'
    ensures i <= |t| && LiteralAtIgnoreCase(t, i + SpaceRun(t, i), lit)
    ensures CutAt(t, lit, i) == Some(|t|)
  {
  }

  /** Without a cut anywhere the title is kept whole. */
  lemma CutNowhere(t: string, lit: string)
    requires |lit| > 0
    requires forall j :: 0 <= j <= |t| ==> CutAt(t, lit, j).None?
    ensures Cut(t, lit) == t
  {
    var at := (i: nat) => CutAt(t, lit, i);
    assert forall j: nat :: at(j) == CutAt(t, lit, j);
    assert Search(|t|, at, 0).None?;
    assert t[0..] == t;
  }

  /** The first cut of a one-line title removes everything from it on. */
  lemma CutFirst(t: string, lit: string, i: nat)
    requires |lit| > 0 && i <= |t|
    requires forall q :: 0 <= q < |t| ==> t[q] != '\n'
    requires CutAt(t, lit, i).Some? && forall j :: 0 <= j < i ==> CutAt(t, lit, j).None?
    ensures Cut(t, lit) == t[..i]
  {
    var at := (i: nat) => CutAt(t, lit, i);
    assert forall j: nat :: at(j) == CutAt(t, lit, j);
    CutAtShape(t, lit, i);
    RemoveToEnd(t, at, i);
  }

  /** Where the first cut starts, or the length of the title when there is none. */
  function CutIndex(t: string, lit: string): (r: nat)
    requires |lit| > 0
    ensures r <= |t|
    ensures forall j :: 0 <= j < r ==> CutAt(t, lit, j).None?
    ensures r < |t| ==> CutAt(t, lit, r).Some?
    ensures r == |t| ==> CutAt(t, lit, r).None?
  {
    var at := (i: nat) => CutAt(t, lit, i);
    assert forall j: nat :: at(j) == CutAt(t, lit, j);
    match Search(|t|, at, 0)
    case None => |t|
    case Some((i, _)) => i
  }

  /** A one-line title is cut at the first cut. */
  lemma CutAtIndex(t: string, lit: string)
    requires |lit| > 0
    requires forall q :: 0 <= q < |t| ==> t[q] != '\n'
    ensures Cut(t, lit) == t[..CutIndex(t, lit)]
  {
    var i := CutIndex(t, lit);
    if i < |t| {
      CutFirst(t, lit, i);
    } else {
      CutNowhere(t, lit);
    }
  }

  /** What precedes the first cut holds no occurrence of the literal and does
      not end in whitespace; a cut starts with whitespace and the literal. */
  lemma CutIndexShape(t: string, lit: string)
    requires |lit| > 0 && !IsSpace(lit[0])
    ensures var i := CutIndex(t, lit);
            && (forall j :: 0 <= j < i ==> !LiteralAtIgnoreCase(t, j, lit))
            && (i < |t| ==> LiteralAtIgnoreCase(t, i + SpaceRun(t, i), lit))
            && (0 < i < |t| ==> !IsSpace(t[i - 1]))
  {
    var i := CutIndex(t, lit);
    forall j | 0 <= j < i && LiteralAtIgnoreCase(t, j, lit)
      ensures false
    {
      LiteralStartsCut(t, lit, j);
    }
    if 0 < i < |t| && IsSpace(t[i - 1]) {
      CutExtendsLeft(t, lit, i);
    }
  }

  /** On a one-line title the removal keeps the text before the first occurrence
      of the literal, without the whitespace in front of it: what is kept holds
      no occurrence, does not end in whitespace, and, when shorter than the title,
      is followed by whitespace and the literal. */
  lemma CutOneLine(t: string, lit: string)
    requires |lit| > 0 && !IsSpace(lit[0])
    requires forall q :: 0 <= q < |t| ==> t[q] != '\n'
    ensures var r := Cut(t, lit);
            && r == t[..|r|]
            && (forall j :: 0 <= j < |r| ==> !LiteralAtIgnoreCase(t, j, lit))
            && (|r| < |t| ==> LiteralAtIgnoreCase(t, |r| + SpaceRun(t, |r|), lit))
            && (0 < |r| < |t| ==> !IsSpace(r[|r| - 1]))
  {
    CutAtIndex(t, lit);
    CutIndexShape(t, lit);
  }

  // ---------------------------------------------------------------- table cells

  /** `(\d+)"` at `i`: a maximal digit run followed by an inch mark. Backtracking
      to fewer digits would leave a digit where the mark is needed. */
  function QuotedNumberAt(t: string, i: nat): (r: Option<nat>)
  {
    if i <= |t| && DigitRun(t, i) > 0 && i + DigitRun(t, i) < |t| && t[i + DigitRun(t, i)] == '"'
    then Some(NumberAt(t, i))
    else None
  }

  /** The 24-hour snowfall cell: the first `(\d+)"` anywhere in it. */
  function NewSnowCell(t: string): (r: Option<nat>)
    ensures r.None? <==> forall i :: 0 <= i <= |t| ==> QuotedNumberAt(t, i).None?
    ensures r.Some? ==> exists i :: FirstQuoted(t, i) && QuotedNumberAt(t, i) == r
  {
    match Search(|t|, QuotedAt(t), 0)
    case None =>
      QuotedAtApplied(t);
      None
    case Some((k, n)) =>
      QuotedAtApplied(t);
      assert FirstQuoted(t, k);
      Some(n)
  }

  /** `QuotedNumberAt` as the test `Search` applies. */
  function QuotedAt(t: string): nat -> Option<nat> {
    (i: nat) => QuotedNumberAt(t, i)
  }

  /** Applying the test is `QuotedNumberAt`. */
  lemma QuotedAtApplied(t: string)
    ensures forall i: nat :: QuotedAt(t)(i) == QuotedNumberAt(t, i)
  {
  }

  /** `(\d+)"` matches first at `i`: there, and at no offset before. */
  predicate FirstQuoted(t: string, i: nat) {
    i <= |t| && QuotedNumberAt(t, i).Some? && forall j :: 0 <= j < i ==> QuotedNumberAt(t, j).None?
  }

  /** A cell that starts with a printed number and an inch mark reads as that number. */
  lemma NewSnowCellRoundTrip(n: nat, rest: string, t: string)
    requires t == NatToString(n) + ("\"" + rest)
    ensures NewSnowCell(t) == Some(n)
  {
    var d := NatToString(n);
    NatToStringRoundTrip(n);
    WrittenPieces(d, "\"" + rest);
    WrittenSplit(t, |d|, "\"", rest);
    WrittenChar(t, |d|, '"');
    NumberAtWritten(t, 0, d);
    QuotedAtApplied(t);
    SearchFinds(|t|, QuotedAt(t), 0, 0);
  }

  /** Without an inch mark there is no snowfall figure. */
  lemma NewSnowCellNeedsMark(t: string)
    requires forall q :: 0 <= q < |t| ==> t[q] != '"'
    ensures NewSnowCell(t) == None
  {
  }

  /** The base-depth cell: `^(\d+)(?:-\d+)?"`, the first number of a single
      depth or a range, anchored at the start and closed by an inch mark. */
  function BaseDepthCell(t: string): (r: Option<nat>)
    ensures r.Some? ==> 0 < DigitRun(t, 0) && r.value == NumberAt(t, 0)
  {
    var d := DigitRun(t, 0);
    if d == 0 || d == |t| then None
    else if t[d] == '"' then Some(NumberAt(t, 0))
    else if t[d] == '-' && DigitRun(t, d + 1) > 0 && d + 1 + DigitRun(t, d + 1) < |t|
            && t[d + 1 + DigitRun(t, d + 1)] == '"'
    then Some(NumberAt(t, 0))
    else None
  }

  /** `19"Variable Conditions` reads as 19. */
  lemma BaseDepthSingle(a: nat, rest: string, t: string)
    requires t == NatToString(a) + ("\"" + rest)
    ensures BaseDepthCell(t) == Some(a)
  {
    var d := NatToString(a);
    NatToStringRoundTrip(a);
    WrittenPieces(d, "\"" + rest);
    WrittenSplit(t, |d|, "\"", rest);
    WrittenChar(t, |d|, '"');
    NumberAtWritten(t, 0, d);
  }

  /** A range of depths read off its layout: the first figure. */
  lemma BaseDepthOfRange(t: string, d: string, e: string)
    requires 0 < |d| && AllDigits(d) && 0 < |e| && AllDigits(e)
    requires WrittenAt(t, 0, d) && WrittenAt(t, |d|, "-") && WrittenAt(t, |d| + 1, e)
    requires WrittenAt(t, |d| + 1 + |e|, "\"")
    ensures BaseDepthCell(t) == Some(DigitsValue(d))
  {
    var p := |d|;
    WrittenChar(t, p, '-');
    WrittenChar(t, p + 1 + |e|, '"');
    NumberAtWritten(t, 0, d);
    DigitsThen(t, p + 1, e);
  }

  /** `16-30"Powder` reads as the lower figure, 16. */
  lemma BaseDepthRange(a: nat, b: nat, rest: string, t: string)
    requires t == NatToString(a) + ("-" + (NatToString(b) + ("\"" + rest)))
    ensures BaseDepthCell(t) == Some(a)
  {
    var d := NatToString(a);
    var e := NatToString(b);
    NatToStringRoundTrip(a);
    WrittenPieces(d, "-" + (e + ("\"" + rest)));
    WrittenSplit(t, |d|, "-", e + ("\"" + rest));
    WrittenSplit(t, |d| + 1, e, "\"" + rest);
    WrittenSplit(t, |d| + 1 + |e|, "\"", rest);
    BaseDepthOfRange(t, d, e);
  }
}

=== FILE: ranking.dfy ===
/** Ranking resorts around a visitor (resorts/distance.py): the snow-quality
    score, the radius filter with its straight-line pre-filter and its
    fallback when no driving route is known, the normalized scores, the
    weighted two-dimensional score and the three orders; and filling in
    driving distances for the first entries of a list. Great-circle distance,
    the driving-route service and fractional powers are function parameters. */
module Ranking {
  import opened Wrappers
  import opened Resorts
  import opened StableSort

  /** A driving route: its length in miles and its duration in hours. */
  datatype Route = Route(miles: real, hours: real)

  /** What the ranking asks of the outside world: the great-circle distance in
      miles between two (latitude, longitude) points, the driving route between
      them (none when the routing service fails or finds none), and `x ** w`. */
  datatype Oracles = Oracles(
    haversine: (real, real, real, real) -> real,
    route: (real, real, real, real) -> Option<Route>,
    power: (real, real) -> real)

  /** The visitor's position. */
  datatype Origin = Origin(lat: real, lng: real)

  /** One ranked resort with its driving information and scores. */
  datatype Ranked = Ranked(
    resort: Resort,
    distance: real,
    drivingHours: Option<real>,
    snowQuality: real,
    distanceScore: real,
    qualityScore: real,
    combinedScore: real)

  // ---------------------------------------------------------------- snow quality

  /** `min(x, cap)` on reals. */
  function Capped(x: real, cap: real): (r: real)
    ensures r <= cap && r <= x && (r == x || r == cap)
  {
    if x < cap then x else cap
  }

  /** The fraction `open / total` scaled to `points` when both counts are
      truthy, else nothing. */
  function Share(open: Option<nat>, total: Option<nat>, points: real): (r: real)
    requires points >= 0.0
    ensures r >= 0.0
    ensures !(Truthy(open) && Truthy(total)) ==> r == 0.0
    ensures Truthy(open) && Truthy(total) && open.value <= total.value ==> r <= points
  {
    if Truthy(total) && Truthy(open) then
      ScaledShare(open.value as real, total.value as real, points);
      open.value as real / total.value as real * points
    else 0.0
  }

  /** `x / m` of `p` points is non-negative, and at most `p` when `x <= m`. */
  lemma ScaledShare(x: real, m: real, p: real)
    requires m > 0.0 && x >= 0.0 && p >= 0.0
    ensures x / m * p >= 0.0
    ensures x <= m ==> x / m * p <= p
  {
    var f := x / m;
    assert f * m == x;
    assert f >= 0.0;
    if x <= m {
      assert f <= 1.0;
      assert f * p <= 1.0 * p;
    }
  }

  /** Each open count is at most its total, where both are present. */
  predicate WithinTotals(r: Resort) {
    (r.trailsOpen.Some? && r.trailsTotal.Some? ==> r.trailsOpen.value <= r.trailsTotal.value) &&
    (r.liftsOpen.Some? && r.liftsTotal.Some? ==> r.liftsOpen.value <= r.liftsTotal.value)
  }

  /** `_snow_quality_score`: zero for a closed resort; otherwise up to 30
      points of base depth (half an inch each), up to 35 of new snow (2.5 per
      inch), 20 times the share of trails open and 15 times the share of lifts
      open, each only when its counts are truthy. */
  function SnowQuality(r: Resort): (q: real)
    ensures !r.isOpen ==> q == 0.0
    ensures q >= 0.0
    ensures WithinTotals(r) ==> q <= 100.0
  {
    if !r.isOpen then 0.0
    else
      (if Truthy(r.baseDepth) then Capped(r.baseDepth.value as real / 2.0, 30.0) else 0.0) +
      (if Truthy(r.newSnow24h) then Capped(r.newSnow24h.value as real * 2.5, 35.0) else 0.0) +
      Share(r.trailsOpen, r.trailsTotal, 20.0) +
      Share(r.liftsOpen, r.liftsTotal, 15.0)
  }

  /** A fresh-powder day outweighs a deep base: an open resort with 14 inches
      of new snow and nothing else scores 35, one with a 60-inch base and
      nothing else scores 30. */
  lemma PowderOutweighsBase(r: Resort)
    requires r.isOpen && r.newSnow24h == Some(14) && r.baseDepth.None?
    requires r.trailsOpen.None? && r.liftsOpen.None?
    ensures SnowQuality(r) == 35.0
    ensures SnowQuality(r.(newSnow24h := None, baseDepth := Some(60))) == 30.0
  {
  }

  /** Base depth alone: half a point an inch up to 60 inches, then 30. */
  lemma BaseTerm(r: Resort, b: nat)
    requires r.isOpen && r.baseDepth == Some(b)
    requires r.newSnow24h.None? && r.trailsOpen.None? && r.liftsOpen.None?
    ensures SnowQuality(r) == if b <= 60 then b as real / 2.0 else 30.0
  {
  }

  /** New snow alone: 2.5 points an inch up to 14 inches, then 35. */
  lemma NewSnowTerm(r: Resort, n: nat)
    requires r.isOpen && r.newSnow24h == Some(n)
    requires r.baseDepth.None? && r.trailsOpen.None? && r.liftsOpen.None?
    ensures SnowQuality(r) == if n <= 14 then n as real * 2.5 else 35.0
  {
  }

  /** The four terms add up: an open resort scores the sum of what it would
      score with only its base depth, only its new snow, only its trail
      counts and only its lift counts. */
  lemma QualityAdds(r: Resort)
    requires r.isOpen
    ensures var none := r.(baseDepth := None, newSnow24h := None, trailsOpen := None, liftsOpen := None);
      SnowQuality(r) ==
        SnowQuality(none.(baseDepth := r.baseDepth)) + SnowQuality(none.(newSnow24h := r.newSnow24h))
        + SnowQuality(none.(trailsOpen := r.trailsOpen)) + SnowQuality(none.(liftsOpen := r.liftsOpen))
  {
  }

  /** `x / t` of `p` points, times `t`, is `p` times `x`. */
  lemma ShareTimes(x: real, t: real, p: real)
    requires t > 0.0
    ensures x / t * p * t == p * x
  {
    assert x / t * t == x;
    calc {
      x / t * p * t;
      == (x / t * t) * p;
      == x * p;
    }
  }

  /** Trails alone weigh 20 points: an open resort with no depth, no new snow
      and no lift counts scores 20 times its share of trails open. */
  lemma TrailsWeigh20(r: Resort, open: nat, total: nat)
    requires r.isOpen && r.baseDepth.None? && r.newSnow24h.None? && r.liftsOpen.None?
    requires r.trailsOpen == Some(open) && r.trailsTotal == Some(total) && total > 0
    ensures SnowQuality(r) * total as real == 20.0 * open as real
  {
    if open > 0 {
      assert SnowQuality(r) == open as real / total as real * 20.0;
      ShareTimes(open as real, total as real, 20.0);
    }
  }

  /** Lifts alone weigh 15 points: an open resort with no depth, no new snow
      and no trail counts scores 15 times its share of lifts open. */
  lemma LiftsWeigh15(r: Resort, open: nat, total: nat)
    requires r.isOpen && r.baseDepth.None? && r.newSnow24h.None? && r.trailsOpen.None?
    requires r.liftsOpen == Some(open) && r.liftsTotal == Some(total) && total > 0
    ensures SnowQuality(r) * total as real == 15.0 * open as real
  {
    if open > 0 {
      assert SnowQuality(r) == open as real / total as real * 15.0;
      ShareTimes(open as real, total as real, 15.0);
    }
  }

  /** A share of everything scores all its points. */
  lemma FullShare(n: nat, points: real)
    requires n > 0 && points >= 0.0
    ensures Share(Some(n), Some(n), points) == points
  {
    assert n as real / n as real == 1.0;
  }

  /** Full marks: an open resort with a base of at least 60 inches, at least
      14 inches of new snow and every trail and lift open scores exactly 100. */
  lemma FullMarks(r: Resort, trails: nat, lifts: nat)
    requires r.isOpen && r.baseDepth.Some? && r.baseDepth.value >= 60
    requires r.newSnow24h.Some? && r.newSnow24h.value >= 14
    requires trails > 0 && r.trailsOpen == Some(trails) && r.trailsTotal == Some(trails)
    requires lifts > 0 && r.liftsOpen == Some(lifts) && r.liftsTotal == Some(lifts)
    ensures SnowQuality(r) == 100.0
  {
    FullShare(trails, 20.0);
    FullShare(lifts, 15.0);
  }

  // ---------------------------------------------------------------- the radius filter

  /** `resort.latitude and resort.longitude`: both present and neither 0.0. */
  predicate HasCoordinates(r: Resort) {
    r.latitude.Some? && r.latitude.value != 0.0 && r.longitude.Some? && r.longitude.value != 0.0
  }

  /** Great-circle miles from the origin to a located resort. */
  function StraightLine(o: Oracles, from: Origin, r: Resort): real
    requires HasCoordinates(r)
  {
    o.haversine(from.lat, from.lng, r.latitude.value, r.longitude.value)
  }

  /** The first pass: located resorts within one and a half times the radius
      as the crow flies. */
  predicate Candidate(o: Oracles, from: Origin, maxDistance: real, r: Resort) {
    HasCoordinates(r) && StraightLine(o, from, r) <= maxDistance * 1.5
  }

  /** The candidates, in their original order. */
  function Candidates(resorts: seq<Resort>, o: Oracles, from: Origin, maxDistance: real): (cs: seq<Resort>)
    ensures forall i :: 0 <= i < |cs| ==> Candidate(o, from, maxDistance, cs[i])
    ensures forall r :: r in cs <==> r in resorts && Candidate(o, from, maxDistance, r)
    ensures |cs| <= |resorts|
  {
    if resorts == [] then []
    else
      (if Candidate(o, from, maxDistance, resorts[0]) then [resorts[0]] else []) +
      Candidates(resorts[1..], o, from, maxDistance)
  }

  /** A resort found within the radius: its distance, known driving time and
      snow quality, before normalization. */
  datatype Found = Found(resort: Resort, distance: real, drivingHours: Option<real>, snowQuality: real)

  /** The distance a located resort is ranked at: the driving route's miles
      when the routing service finds a route, else the straight line. */
  function RoadMiles(o: Oracles, from: Origin, r: Resort): real
    requires HasCoordinates(r)
  {
    match o.route(from.lat, from.lng, r.latitude.value, r.longitude.value)
    case Some(info) => info.miles
    case None => StraightLine(o, from, r)
  }

  /** The driving time a located resort is ranked with: the route's hours, or
      unknown when no route was found. */
  function RouteHours(o: Oracles, from: Origin, r: Resort): Option<real>
    requires HasCoordinates(r)
  {
    match o.route(from.lat, from.lng, r.latitude.value, r.longitude.value)
    case Some(info) => Some(info.hours)
    case None => None
  }

  /** The second pass for one candidate: the driving route's miles decide when
      a route is known, and the straight line decides, with no driving time,
      when it is not. */
  function Reach(o: Oracles, from: Origin, maxDistance: real, r: Resort): (f: Option<Found>)
    requires HasCoordinates(r)
    ensures f.Some? <==> RoadMiles(o, from, r) <= maxDistance
    ensures f.Some? ==> f.value == Found(r, RoadMiles(o, from, r), RouteHours(o, from, r), SnowQuality(r))
    ensures f.Some? ==> f.value.distance <= maxDistance
    ensures f.Some? ==> (f.value.drivingHours.Some? <==>
      o.route(from.lat, from.lng, r.latitude.value, r.longitude.value).Some?)
  {
    match o.route(from.lat, from.lng, r.latitude.value, r.longitude.value)
    case Some(info) =>
      if info.miles <= maxDistance then Some(Found(r, info.miles, Some(info.hours), SnowQuality(r)))
      else None
    case None =>
      var straight := StraightLine(o, from, r);
      if straight <= maxDistance then Some(Found(r, straight, None, SnowQuality(r))) else None
  }

  /** The second pass over all candidates, in order. */
  function ReachAll(cs: seq<Resort>, o: Oracles, from: Origin, maxDistance: real): (fs: seq<Found>)
    requires forall i :: 0 <= i < |cs| ==> HasCoordinates(cs[i])
    ensures |fs| <= |cs|
  {
    if cs == [] then []
    else
      (match Reach(o, from, maxDistance, cs[0]) case Some(f) => [f] case None => []) +
      ReachAll(cs[1..], o, from, maxDistance)
  }

  /** A found resort comes from exactly one candidate's second pass. */
  lemma {:induction false} ReachAllMembers(cs: seq<Resort>, o: Oracles, from: Origin, maxDistance: real, f: Found)
    requires forall i :: 0 <= i < |cs| ==> HasCoordinates(cs[i])
    ensures f in ReachAll(cs, o, from, maxDistance) <==>
      exists i :: 0 <= i < |cs| && Reach(o, from, maxDistance, cs[i]) == Some(f)
    decreases |cs|
  {
    if cs != [] {
      ReachAllMembers(cs[1..], o, from, maxDistance, f);
      if Reach(o, from, maxDistance, cs[0]) == Some(f) {
        assert f in ReachAll(cs, o, from, maxDistance);
      }
      if exists i :: 1 <= i < |cs| && Reach(o, from, maxDistance, cs[i]) == Some(f) {
        var i :| 1 <= i < |cs| && Reach(o, from, maxDistance, cs[i]) == Some(f);
        assert cs[1..][i - 1] == cs[i];
      }
      if exists i :: 0 <= i < |cs[1..]| && Reach(o, from, maxDistance, cs[1..][i]) == Some(f) {
        var i :| 0 <= i < |cs[1..]| && Reach(o, from, maxDistance, cs[1..][i]) == Some(f);
        assert cs[i + 1] == cs[1..][i];
      }
    }
  }

  // ---------------------------------------------------------------- normalization

  /** Python's `max` over a non-empty sequence. */
  function Max(xs: seq<real>): (m: real)
    requires |xs| > 0
    ensures m in xs
    ensures forall i :: 0 <= i < |xs| ==> xs[i] <= m
  {
    if |xs| == 1 then xs[0]
    else
      var rest := Max(xs[1..]);
      assert forall i :: 1 <= i < |xs| ==> xs[i] == xs[1..][i - 1];
      if xs[0] >= rest then xs[0] else rest
  }

  /** `x or 1`: a zero maximum divides as one. */
  function OrOne(x: real): (r: real)
    ensures r != 0.0
    ensures x != 0.0 ==> r == x
  {
    if x == 0.0 then 1.0 else x
  }

  function Distances(fs: seq<Found>): (ds: seq<real>)
    ensures |ds| == |fs| && forall i :: 0 <= i < |fs| ==> ds[i] == fs[i].distance
  {
    seq(|fs|, i requires 0 <= i < |fs| => fs[i].distance)
  }

  function Qualities(fs: seq<Found>): (qs: seq<real>)
    ensures |qs| == |fs| && forall i :: 0 <= i < |fs| ==> qs[i] == fs[i].snowQuality
  {
    seq(|fs|, i requires 0 <= i < |fs| => fs[i].snowQuality)
  }

  /** The weights of quality and distance in the combined score: 60% to the
      dimension the visitor prioritizes, snow unless they ask for distance. */
  function Weights(priority: string): (w: (real, real))
    ensures priority == "distance" ==> w == (0.4, 0.6)
    ensures priority != "distance" ==> w == (0.6, 0.4)
    ensures w.0 + w.1 == 1.0
  {
    if priority == "distance" then (0.4, 0.6) else (0.6, 0.4)
  }

  /** `_calculate_2d_score`: the weighted geometric mean of the two scores,
      each raised by 0.01 so that a zero does not zero the product. */
  function Combined(distanceScore: real, qualityScore: real, priority: string, power: (real, real) -> real): (c: real)
    ensures priority == "distance" ==>
      c == power(qualityScore + 0.01, 0.4) * power(distanceScore + 0.01, 0.6)
    ensures priority != "distance" ==>
      c == power(qualityScore + 0.01, 0.6) * power(distanceScore + 0.01, 0.4)
  {
    var (qw, dw) := Weights(priority);
    power(qualityScore + 0.01, qw) * power(distanceScore + 0.01, dw)
  }

  /** One result's scores against the largest distance and quality. */
  function Score(f: Found, maxDist: real, maxQuality: real, priority: string, o: Oracles): (r: Ranked)
    requires maxDist != 0.0 && maxQuality != 0.0
    ensures r.resort == f.resort && r.distance == f.distance && r.drivingHours == f.drivingHours
    ensures r.snowQuality == f.snowQuality
    ensures r.distanceScore * maxDist == maxDist - f.distance
    ensures r.qualityScore * maxQuality == f.snowQuality
    ensures r.combinedScore ==
      o.power(r.qualityScore + 0.01, Weights(priority).0) * o.power(r.distanceScore + 0.01, Weights(priority).1)
  {
    var ds := 1.0 - f.distance / maxDist;
    var qs := f.snowQuality / maxQuality;
    Ranked(f.resort, f.distance, f.drivingHours, f.snowQuality, ds, qs, Combined(ds, qs, priority, o.power))
  }

  /** Every result scored against the maxima of the whole result set. */
  function ScoreAll(fs: seq<Found>, priority: string, o: Oracles): (rs: seq<Ranked>)
    requires |fs| > 0
    ensures |rs| == |fs|
    ensures forall i :: 0 <= i < |fs| ==>
      rs[i] == Score(fs[i], OrOne(Max(Distances(fs))), OrOne(Max(Qualities(fs))), priority, o)
  {
    var maxDist := OrOne(Max(Distances(fs)));
    var maxQuality := OrOne(Max(Qualities(fs)));
    seq(|fs|, i requires 0 <= i < |fs| => Score(fs[i], maxDist, maxQuality, priority, o))
  }

  /** A share of a positive bound lies in the unit interval. */
  lemma UnitShare(x: real, m: real)
    requires m > 0.0 && 0.0 <= x <= m
    ensures 0.0 <= x / m <= 1.0
    ensures x == m ==> x / m == 1.0
  {
    assert x / m * m == x;
  }

  /** One result's distance score against a largest distance `m`. */
  lemma DistanceScoreOf(f: Found, m: real, maxQuality: real, priority: string, o: Oracles)
    requires 0.0 <= f.distance <= m && maxQuality != 0.0
    ensures var r := Score(f, OrOne(m), maxQuality, priority, o);
      0.0 <= r.distanceScore <= 1.0 &&
      (f.distance == m && m > 0.0 ==> r.distanceScore == 0.0) &&
      (m == 0.0 ==> r.distanceScore == 1.0)
  {
    var r := Score(f, OrOne(m), maxQuality, priority, o);
    assert r.distanceScore == 1.0 - f.distance / OrOne(m);
    if m > 0.0 {
      assert OrOne(m) == m;
      UnitShare(f.distance, m);
    } else {
      assert f.distance == 0.0 && OrOne(m) == 1.0;
    }
  }

  /** One result's quality score against a largest quality `m`. */
  lemma QualityScoreOf(f: Found, maxDist: real, m: real, priority: string, o: Oracles)
    requires 0.0 <= f.snowQuality <= m && maxDist != 0.0
    ensures var r := Score(f, maxDist, OrOne(m), priority, o);
      0.0 <= r.qualityScore <= 1.0 &&
      (f.snowQuality == m && m > 0.0 ==> r.qualityScore == 1.0)
  {
    var r := Score(f, maxDist, OrOne(m), priority, o);
    assert r.qualityScore == f.snowQuality / OrOne(m);
    if m > 0.0 {
      assert OrOne(m) == m;
      UnitShare(f.snowQuality, m);
    } else {
      assert f.snowQuality == 0.0 && OrOne(m) == 1.0;
    }
  }

  /** With non-negative distances every distance score lies in [0, 1], the
      farthest result scoring 0 — unless every distance is 0, when all score 1. */
  lemma DistanceScores(fs: seq<Found>, priority: string, o: Oracles)
    requires |fs| > 0
    requires forall i :: 0 <= i < |fs| ==> fs[i].distance >= 0.0
    ensures var rs := ScoreAll(fs, priority, o);
      forall i :: 0 <= i < |rs| ==> 0.0 <= rs[i].distanceScore <= 1.0
    ensures var rs := ScoreAll(fs, priority, o);
      forall i :: 0 <= i < |rs| && fs[i].distance == Max(Distances(fs)) && fs[i].distance > 0.0 ==>
        rs[i].distanceScore == 0.0
    ensures var rs := ScoreAll(fs, priority, o);
      (forall i :: 0 <= i < |fs| ==> fs[i].distance == 0.0) ==>
        forall i :: 0 <= i < |rs| ==> rs[i].distanceScore == 1.0
  {
    var ds := Distances(fs);
    var m := Max(ds);
    var mq := OrOne(Max(Qualities(fs)));
    var rs := ScoreAll(fs, priority, o);
    var j :| 0 <= j < |ds| && ds[j] == m;
    forall i | 0 <= i < |rs|
      ensures 0.0 <= rs[i].distanceScore <= 1.0
      ensures fs[i].distance == m && m > 0.0 ==> rs[i].distanceScore == 0.0
      ensures m == 0.0 ==> rs[i].distanceScore == 1.0
    {
      assert ds[i] == fs[i].distance;
      DistanceScoreOf(fs[i], m, mq, priority, o);
    }
    if forall i :: 0 <= i < |fs| ==> fs[i].distance == 0.0 {
      assert m == fs[j].distance;
    }
  }

  /** Every quality score lies in [0, 1], the best result scoring 1 when it
      has any quality at all. */
  lemma QualityScores(fs: seq<Found>, priority: string, o: Oracles)
    requires |fs| > 0
    requires forall i :: 0 <= i < |fs| ==> fs[i].snowQuality >= 0.0
    ensures var rs := ScoreAll(fs, priority, o);
      forall i :: 0 <= i < |rs| ==> 0.0 <= rs[i].qualityScore <= 1.0
    ensures var rs := ScoreAll(fs, priority, o);
      forall i :: 0 <= i < |rs| && fs[i].snowQuality == Max(Qualities(fs)) && fs[i].snowQuality > 0.0 ==>
        rs[i].qualityScore == 1.0
  {
    var qs := Qualities(fs);
    var m := Max(qs);
    var md := OrOne(Max(Distances(fs)));
    var rs := ScoreAll(fs, priority, o);
    forall i | 0 <= i < |rs|
      ensures 0.0 <= rs[i].qualityScore <= 1.0
      ensures fs[i].snowQuality == m && m > 0.0 ==> rs[i].qualityScore == 1.0
    {
      assert qs[i] == fs[i].snowQuality;
      QualityScoreOf(fs[i], md, m, priority, o);
    }
  }

  // ---------------------------------------------------------------- ordering

  /** The ascending sort key for the visitor's choice of order: distance
      ascending, snow quality descending, or combined score descending. */
  function SortKey(sortBy: string): (key: Ranked -> real)
  {
    if sortBy == "distance" then (r: Ranked) => r.distance
    else if sortBy == "conditions" then (r: Ranked) => -r.snowQuality
    else (r: Ranked) => -r.combinedScore
  }

  /** `filter_resorts_by_distance`: the resorts within `maxDistance` miles,
      scored and ordered. */
  function FilterByDistance(resorts: seq<Resort>, from: Origin, maxDistance: real,
                            sortBy: string, priority: string, o: Oracles): (rs: seq<Ranked>)
    ensures |rs| <= |resorts|
    ensures (forall r :: r in resorts ==> !Candidate(o, from, maxDistance, r)) ==> rs == []
  {
    var cs := Candidates(resorts, o, from, maxDistance);
    if cs == [] then []
    else
      var fs := ReachAll(cs, o, from, maxDistance);
      if fs == [] then []
      else SortBy(ScoreAll(fs, priority, o), SortKey(sortBy))
  }

  /** The unsorted, scored results that `FilterByDistance` orders. */
  function Results(resorts: seq<Resort>, from: Origin, maxDistance: real,
                   priority: string, o: Oracles): (rs: seq<Ranked>)
  {
    var cs := Candidates(resorts, o, from, maxDistance);
    var fs := ReachAll(cs, o, from, maxDistance);
    if fs == [] then [] else ScoreAll(fs, priority, o)
  }

  /** The ranking is the stable sort of the scored results: the early exits
      for no candidates and for no results give the same empty list. */
  lemma FilterSortsResults(resorts: seq<Resort>, from: Origin, maxDistance: real,
                           sortBy: string, priority: string, o: Oracles)
    ensures FilterByDistance(resorts, from, maxDistance, sortBy, priority, o) ==
      SortBy(Results(resorts, from, maxDistance, priority, o), SortKey(sortBy))
  {
  }

  /** The ranking is a reordering of the scored results. */
  lemma FilterPermutes(resorts: seq<Resort>, from: Origin, maxDistance: real,
                       sortBy: string, priority: string, o: Oracles)
    ensures multiset(FilterByDistance(resorts, from, maxDistance, sortBy, priority, o)) ==
      multiset(Results(resorts, from, maxDistance, priority, o))
  {
    FilterSortsResults(resorts, from, maxDistance, sortBy, priority, o);
    SortPermutes(Results(resorts, from, maxDistance, priority, o), SortKey(sortBy));
  }

  /** The order the visitor asked for: nearest first, best snow first, or
      best combined score first. */
  lemma FilterOrdered(resorts: seq<Resort>, from: Origin, maxDistance: real,
                      sortBy: string, priority: string, o: Oracles)
    ensures var rs := FilterByDistance(resorts, from, maxDistance, sortBy, priority, o);
      forall i, j :: 0 <= i < j < |rs| ==>
        (sortBy == "distance" ==> rs[i].distance <= rs[j].distance) &&
        (sortBy == "conditions" ==> rs[i].snowQuality >= rs[j].snowQuality) &&
        (sortBy != "distance" && sortBy != "conditions" ==> rs[i].combinedScore >= rs[j].combinedScore)
  {
    FilterSortsResults(resorts, from, maxDistance, sortBy, priority, o);
    SortSorted(Results(resorts, from, maxDistance, priority, o), SortKey(sortBy));
  }

  /** Results that tie on the sort key keep the order of the resort list. */
  lemma FilterStable(resorts: seq<Resort>, from: Origin, maxDistance: real,
                     sortBy: string, priority: string, o: Oracles, v: real)
    ensures KeyClass(FilterByDistance(resorts, from, maxDistance, sortBy, priority, o), SortKey(sortBy), v) ==
      KeyClass(Results(resorts, from, maxDistance, priority, o), SortKey(sortBy), v)
  {
    FilterSortsResults(resorts, from, maxDistance, sortBy, priority, o);
    SortStable(Results(resorts, from, maxDistance, priority, o), SortKey(sortBy), v);
  }

  /** `x` ranks the located resort `r` at its road distance, with its route's
      driving time and its own snow quality. */
  predicate Ranks(o: Oracles, from: Origin, r: Resort, x: Ranked)
    requires HasCoordinates(r)
  {
    x.resort == r && x.distance == RoadMiles(o, from, r) && x.drivingHours == RouteHours(o, from, r) &&
    x.snowQuality == SnowQuality(r)
  }

  /** A ranked result carries what was found for its resort. */
  predicate SameFound(f: Found, x: Ranked) {
    f.resort == x.resort && f.distance == x.distance && f.drivingHours == x.drivingHours &&
    f.snowQuality == x.snowQuality
  }

  /** A scored result is an unsorted result with its resort's own scores. */
  lemma ResultsFound(resorts: seq<Resort>, from: Origin, maxDistance: real,
                     priority: string, o: Oracles, x: Ranked)
    requires x in Results(resorts, from, maxDistance, priority, o)
    ensures exists f :: f in ReachAll(Candidates(resorts, o, from, maxDistance), o, from, maxDistance) && SameFound(f, x)
  {
    var fs := ReachAll(Candidates(resorts, o, from, maxDistance), o, from, maxDistance);
    var rs := ScoreAll(fs, priority, o);
    var i :| 0 <= i < |rs| && rs[i] == x;
    assert fs[i] in fs;
  }

  /** Scoring keeps what was found. */
  lemma ScoreKeeps(f: Found, maxDist: real, maxQuality: real, priority: string, o: Oracles)
    requires maxDist != 0.0 && maxQuality != 0.0
    ensures SameFound(f, Score(f, maxDist, maxQuality, priority, o))
  {
  }

  /** Every ranked resort is a listed, located resort within one and a half
      times the radius as the crow flies and within the radius by the
      distance it is ranked at; its driving time is known exactly when a route
      was found, and its snow quality is its own. */
  lemma FilterShape(resorts: seq<Resort>, from: Origin, maxDistance: real,
                    sortBy: string, priority: string, o: Oracles, x: Ranked)
    requires x in FilterByDistance(resorts, from, maxDistance, sortBy, priority, o)
    ensures x.resort in resorts && HasCoordinates(x.resort)
    ensures StraightLine(o, from, x.resort) <= maxDistance * 1.5
    ensures x.distance <= maxDistance
    ensures x.snowQuality == SnowQuality(x.resort)
    ensures x.drivingHours.Some? <==>
      o.route(from.lat, from.lng, x.resort.latitude.value, x.resort.longitude.value).Some?
    ensures Ranks(o, from, x.resort, x)
  {
    var cs := Candidates(resorts, o, from, maxDistance);
    FilterSortsResults(resorts, from, maxDistance, sortBy, priority, o);
    SortMembers(Results(resorts, from, maxDistance, priority, o), SortKey(sortBy), x);
    ResultsFound(resorts, from, maxDistance, priority, o, x);
    var f :| f in ReachAll(cs, o, from, maxDistance) && SameFound(f, x);
    ReachAllMembers(cs, o, from, maxDistance, f);
    var k :| 0 <= k < |cs| && Reach(o, from, maxDistance, cs[k]) == Some(f);
    assert cs[k] in cs;
  }

  /** Every found resort is scored. */
  lemma ResultsScore(resorts: seq<Resort>, from: Origin, maxDistance: real,
                     priority: string, o: Oracles, f: Found)
    requires f in ReachAll(Candidates(resorts, o, from, maxDistance), o, from, maxDistance)
    ensures exists x :: x in Results(resorts, from, maxDistance, priority, o) && SameFound(f, x)
  {
    var fs := ReachAll(Candidates(resorts, o, from, maxDistance), o, from, maxDistance);
    var rs := ScoreAll(fs, priority, o);
    var i :| 0 <= i < |fs| && fs[i] == f;
    ScoreKeeps(f, OrOne(Max(Distances(fs))), OrOne(Max(Qualities(fs))), priority, o);
    assert rs[i] == Score(f, OrOne(Max(Distances(fs))), OrOne(Max(Qualities(fs))), priority, o);
    assert rs[i] in rs;
  }

  /** A located resort within the radius by road (or, with no route, as the
      crow flies) and within one and a half times the radius as the crow flies
      is ranked. */
  lemma FilterKeeps(resorts: seq<Resort>, from: Origin, maxDistance: real,
                    sortBy: string, priority: string, o: Oracles, r: Resort)
    requires r in resorts && Candidate(o, from, maxDistance, r)
    requires RoadMiles(o, from, r) <= maxDistance
    ensures exists x :: (x in FilterByDistance(resorts, from, maxDistance, sortBy, priority, o) &&
                         Ranks(o, from, r, x))
  {
    var cs := Candidates(resorts, o, from, maxDistance);
    var k :| 0 <= k < |cs| && cs[k] == r;
    var f := Reach(o, from, maxDistance, r).value;
    ReachAllMembers(cs, o, from, maxDistance, f);
    ResultsScore(resorts, from, maxDistance, priority, o, f);
    var x :| x in Results(resorts, from, maxDistance, priority, o) && SameFound(f, x);
    FilterSortsResults(resorts, from, maxDistance, sortBy, priority, o);
    SortMembers(Results(resorts, from, maxDistance, priority, o), SortKey(sortBy), x);
    assert Ranks(o, from, r, x);
  }

  // ---------------------------------------------------------------- driving distances

  /** An entry of a ranked list: `driving` is absent until it has been looked
      up, then holds the route or, when the lookup failed, nothing. */
  datatype Entry = Entry(resort: Resort, distance: real, driving: Option<Option<Route>>)

  /** `resort_list[:n]` keeps this many entries: a negative `n` counts from
      the end. */
  function SliceEnd(n: int, len: nat): (k: nat)
    ensures k <= len
    ensures n >= 0 ==> k == if n < len then n else len
    ensures n < 0 ==> k + (if -n < len then -n else len) == len
  {
    if n >= 0 then (if n < len then n else len)
    else if len + n > 0 then len + n else 0
  }

  /** The route to a resort; a missing coordinate makes the request fail. */
  function RouteTo(o: Oracles, from: Origin, r: Resort): (route: Option<Route>)
    ensures r.latitude.Some? && r.longitude.Some? ==>
      route == o.route(from.lat, from.lng, r.latitude.value, r.longitude.value)
    ensures r.latitude.None? || r.longitude.None? ==> route.None?
  {
    if r.latitude.Some? && r.longitude.Some? then
      o.route(from.lat, from.lng, r.latitude.value, r.longitude.value)
    else None
  }

  /** `get_driving_distances`: the first `maxResorts` entries get their route
      looked up; the rest are left as they were. */
  function DrivingDistances(entries: seq<Entry>, maxResorts: int, from: Origin, o: Oracles): (r: seq<Entry>)
    ensures |r| == |entries|
  {
    var k := SliceEnd(maxResorts, |entries|);
    seq(|entries|, i requires 0 <= i < |entries| =>
      if i < k then entries[i].(driving := Some(RouteTo(o, from, entries[i].resort))) else entries[i])
  }

  /** Entries keep their resort and distance; exactly the first ones gain a
      looked-up route, the others stay untouched. */
  lemma DrivingDistancesEffect(entries: seq<Entry>, maxResorts: int, from: Origin, o: Oracles)
    ensures var r := DrivingDistances(entries, maxResorts, from, o);
      forall i :: 0 <= i < |r| ==>
        r[i].resort == entries[i].resort && r[i].distance == entries[i].distance &&
        (i < SliceEnd(maxResorts, |entries|) && entries[i].resort.latitude.Some? &&
         entries[i].resort.longitude.Some? ==>
           r[i].driving == Some(o.route(from.lat, from.lng,
                                        entries[i].resort.latitude.value, entries[i].resort.longitude.value))) &&
        (i < SliceEnd(maxResorts, |entries|) &&
         (entries[i].resort.latitude.None? || entries[i].resort.longitude.None?) ==>
           r[i].driving == Some(None)) &&
        (i >= SliceEnd(maxResorts, |entries|) ==> r[i] == entries[i])
  {
  }

  /** Looking the routes up twice changes nothing the first lookup did not. */
  lemma DrivingDistancesIdempotent(entries: seq<Entry>, maxResorts: int, from: Origin, o: Oracles)
    ensures DrivingDistances(DrivingDistances(entries, maxResorts, from, o), maxResorts, from, o) ==
      DrivingDistances(entries, maxResorts, from, o)
  {
  }

  /** A negative limit skips entries at the end: with -1 every entry but the
      last is looked up. */
  lemma NegativeLimit(len: nat)
    requires len > 0
    ensures SliceEnd(-1, len) == len - 1
  {
  }
}

=== FILE: resort.dfy ===
/** The cached resort record (resorts/models.py, `Resort`), its derived
    values, and the upsert by slug the scraper writes through. */
module Resorts {

  import opened Wrappers
  import opened Text
  import opened Rounding

  /** One stored resort. The integer fields only ever hold counts and depths the
      scraper parsed from digits, so they are natural numbers; the timestamps
      (`conditions_updated`, `last_scraped`, `created_at`) are left out. */
  datatype Resort = Resort(
    name: string,
    slug: string,
    region: string,
    state: string,
    latitude: Option<real>,
    longitude: Option<real>,
    baseDepth: Option<nat>,
    summitDepth: Option<nat>,
    newSnow24h: Option<nat>,
    newSnow48h: Option<nat>,
    trailsOpen: Option<nat>,
    trailsTotal: Option<nat>,
    liftsOpen: Option<nat>,
    liftsTotal: Option<nat>,
    acresOpen: Option<nat>,
    isOpen: bool,
    url: string)

  /** Python truthiness of an optional count: present and not zero. */
  predicate Truthy(x: Option<nat>) {
    x.Some? && x.value != 0
  }

  // ---------------------------------------------------------------- percent open

  /** `round((open or 0) / total * 100)` when `total` is truthy and positive,
      else 0: the shared rule of `trails_percent_open` and `lifts_percent_open`. */
  function PercentOpen(open: Option<nat>, total: Option<nat>): (p: int)
    ensures !Truthy(total) ==> p == 0
    ensures Truthy(total) ==> 2 * Abs(p * total.value - 100 * open.GetOr(0)) <= total.value
    ensures Truthy(total) && 2 * Abs(p * total.value - 100 * open.GetOr(0)) == total.value ==> IsEven(p)
  {
    if Truthy(total) && total.value > 0 then
      RoundRatioIsNearest(100 * open.GetOr(0), total.value);
      RoundRatio(100 * open.GetOr(0), total.value)
    else 0
  }

  /** With no more open than in total the percentage lies in 0..100, and it is
      100 exactly when at least 199 of every 200 are open. */
  lemma PercentOpenBounds(open: Option<nat>, total: Option<nat>)
    requires Truthy(total) && open.GetOr(0) <= total.value
    ensures 0 <= PercentOpen(open, total) <= 100
    ensures PercentOpen(open, total) == 100 <==> 200 * open.GetOr(0) >= 199 * total.value
  {
    var p := PercentOpen(open, total);
    var t := total.value;
    var o := open.GetOr(0);
    if p < 0 {
      MulLe(p, -1, t);
    }
    if p > 100 {
      MulLe(101, p, t);
    }
    if p != 100 && 200 * o >= 199 * t {
      MulLe(p, 99, t);
      if p <= 98 {
        MulLe(p, 98, t);
      }
    }
  }

  /** Multiplying by a natural number keeps the order. */
  lemma MulLe(a: int, b: int, t: nat)
    requires a <= b
    ensures a * t <= b * t
  {
  }

  function TrailsPercentOpen(r: Resort): int {
    PercentOpen(r.trailsOpen, r.trailsTotal)
  }

  function LiftsPercentOpen(r: Resort): int {
    PercentOpen(r.liftsOpen, r.liftsTotal)
  }

  // ---------------------------------------------------------------- summary

  /** The parts of `get_conditions_summary`, in order: base depth, new snow, and
      trails open out of total when both are truthy. */
  function SummaryParts(r: Resort): (parts: seq<string>)
    ensures |parts| == (if Truthy(r.baseDepth) then 1 else 0) + (if Truthy(r.newSnow24h) then 1 else 0)
                       + (if Truthy(r.trailsOpen) && Truthy(r.trailsTotal) then 1 else 0)
    ensures Truthy(r.baseDepth) ==> parts[0] == NatToString(r.baseDepth.value) + "\" base"
    ensures Truthy(r.newSnow24h) ==>
      parts[if Truthy(r.baseDepth) then 1 else 0] == NatToString(r.newSnow24h.value) + "\" new"
    ensures Truthy(r.trailsOpen) && Truthy(r.trailsTotal) ==>
      parts[|parts| - 1] == NatToString(r.trailsOpen.value) + "/" + NatToString(r.trailsTotal.value) + " trails"
    ensures forall k :: 0 <= k < |parts| ==> 0 < |parts[k]| && IsDigit(parts[k][0])
    ensures Unbarred(parts)
  {
    var b := if Truthy(r.baseDepth) then
               NumberPartUnbarred(r.baseDepth.value, "\" base");
               [NatToString(r.baseDepth.value) + "\" base"]
             else [];
    var n := if Truthy(r.newSnow24h) then
               NumberPartUnbarred(r.newSnow24h.value, "\" new");
               [NatToString(r.newSnow24h.value) + "\" new"]
             else [];
    var t := if Truthy(r.trailsOpen) && Truthy(r.trailsTotal) then
               TrailsPartUnbarred(r.trailsOpen.value, r.trailsTotal.value);
               [NatToString(r.trailsOpen.value) + "/" + NatToString(r.trailsTotal.value) + " trails"]
             else [];
    UnbarredConcat(b, n);
    UnbarredConcat(b + n, t);
    b + n + t
  }

  /** No part holds the `|` of the ` | ` separator. */
  predicate Unbarred(parts: seq<string>) {
    forall k, q :: 0 <= k < |parts| && 0 <= q < |parts[k]| ==> parts[k][q] != '|'
  }

  /** A text without `|`. */
  predicate NoBar(s: string) {
    forall q :: 0 <= q < |s| ==> s[q] != '|'
  }

  /** Two texts without `|` make one. */
  lemma NoBarConcat(a: string, b: string)
    requires NoBar(a) && NoBar(b)
    ensures NoBar(a + b)
  {
    forall q | 0 <= q < |a + b| ensures (a + b)[q] != '|' {
      if q < |a| { assert (a + b)[q] == a[q]; } else { assert (a + b)[q] == b[q - |a|]; }
    }
  }

  /** The trails part holds no `|`. */
  lemma TrailsPartUnbarred(o: nat, t: nat)
    ensures Unbarred([NatToString(o) + "/" + NatToString(t) + " trails"])
  {
    NumberPartUnbarred(o, "/");
    NumberPartUnbarred(t, " trails");
    NoBarConcat(NatToString(o) + "/", NatToString(t) + " trails");
    assert NatToString(o) + "/" + NatToString(t) + " trails" == (NatToString(o) + "/") + (NatToString(t) + " trails");
  }

  /** A number followed by a word without `|` is a part without it. */
  lemma NumberPartUnbarred(v: nat, word: string)
    requires NoBar(word)
    ensures NoBar(NatToString(v) + word) && Unbarred([NatToString(v) + word])
  {
    var d := NatToString(v);
    assert NoBar(d) by { forall q | 0 <= q < |d| ensures d[q] != '|' { assert IsDigit(d[q]); } }
    NoBarConcat(d, word);
  }

  /** Parts free of `|` stay so when put together. */
  lemma UnbarredConcat(x: seq<string>, y: seq<string>)
    requires Unbarred(x) && Unbarred(y)
    ensures Unbarred(x + y)
  {
    forall k, q | 0 <= k < |x + y| && 0 <= q < |(x + y)[k]|
      ensures (x + y)[k][q] != '|'
    {
      if k < |x| { assert (x + y)[k] == x[k]; } else { assert (x + y)[k] == y[k - |x|]; }
    }
  }

  /** `get_conditions_summary`: the parts joined by ` | `, or `No data`.
      Splitting a summary on ` | ` gives its parts back. */
  function ConditionsSummary(r: Resort): (s: string)
    ensures s == "No data" <==> SummaryParts(r) == []
    ensures 0 < |s| && (SummaryParts(r) != [] ==> IsDigit(s[0]))
    ensures SummaryParts(r) != [] ==> SplitOn(s, " | ") == SummaryParts(r)
  {
    var parts := SummaryParts(r);
    if parts == [] then "No data"
    else
      JoinStarts(parts, " | ");
      SplitOnJoin(parts, " | ", 1);
      Join(parts, " | ")
  }

  /** A join starts with its first part. */
  lemma JoinStarts(parts: seq<string>, sep: string)
    requires 0 < |parts| && 0 < |parts[0]|
    ensures 0 < |Join(parts, sep)| && Join(parts, sep)[0] == parts[0][0]
  {
  }

  /** `No data` is the summary exactly when none of the three parts is present. */
  lemma SummaryNoData(r: Resort)
    ensures ConditionsSummary(r) == "No data" <==>
      !Truthy(r.baseDepth) && !Truthy(r.newSnow24h) && !(Truthy(r.trailsOpen) && Truthy(r.trailsTotal))
  {
    var parts := SummaryParts(r);
    if parts != [] {
      assert 0 < |parts[0]| && IsDigit(parts[0][0]);
      JoinStarts(parts, " | ");
      assert ConditionsSummary(r)[0] != "No data"[0];
    }
  }

  /** A part never reads `0/…`: the trails part needs a non-zero open count,
      and the other parts have a digit or an inch mark in second place. */
  lemma NoZeroTrails(r: Resort)
    ensures forall k :: 0 <= k < |SummaryParts(r)| ==>
      !(2 <= |SummaryParts(r)[k]| && SummaryParts(r)[k][0] == '0' && SummaryParts(r)[k][1] == '/')
  {
    var parts := SummaryParts(r);
    forall k | 0 <= k < |parts|
      ensures !(2 <= |parts[k]| && parts[k][0] == '0' && parts[k][1] == '/')
    {
      PartShape(r, k);
    }
  }

  /** Each part is a digit string followed by an inch mark or, for the trails
      part, by a slash after a non-zero count. */
  lemma PartShape(r: Resort, k: nat)
    requires k < |SummaryParts(r)|
    ensures var p := SummaryParts(r)[k];
      2 <= |p| && (p[0] != '0' || p[1] != '/')
  {
    var b := if Truthy(r.baseDepth) then [NatToString(r.baseDepth.value) + "\" base"] else [];
    var n := if Truthy(r.newSnow24h) then [NatToString(r.newSnow24h.value) + "\" new"] else [];
    var parts := SummaryParts(r);
    if k < |b| {
      DigitsThenMark(NatToString(r.baseDepth.value), "\" base");
    } else if k < |b| + |n| {
      assert parts[k] == n[k - |b|];
      DigitsThenMark(NatToString(r.newSnow24h.value), "\" new");
    } else {
      var o := NatToString(r.trailsOpen.value);
      assert parts[k] == o + "/" + NatToString(r.trailsTotal.value) + " trails";
      assert parts[k][0] == o[0];
      if |o| > 1 {
        assert parts[k][1] == o[1];
      }
    }
  }

  /** Digits followed by an inch mark: the second character is a digit or the mark. */
  lemma DigitsThenMark(d: string, rest: string)
    requires 0 < |d| && AllDigits(d) && 0 < |rest| && rest[0] == '"'
    ensures 2 <= |d + rest| && (d + rest)[1] != '/'
  {
    if |d| > 1 {
      assert (d + rest)[1] == d[1];
    } else {
      assert (d + rest)[1] == rest[0];
    }
  }

  // ---------------------------------------------------------------- upsert

  /** The `defaults` of an `update_or_create` call: the fields every scraper
      write sets. A page scrape (`extract_conditions`) also writes
      `summit_depth` and `new_snow_48h`, always as nothing. */
  datatype Defaults = Defaults(
    name: string,
    state: string,
    latitude: Option<real>,
    longitude: Option<real>,
    baseDepth: Option<nat>,
    newSnow24h: Option<nat>,
    trailsOpen: Option<nat>,
    trailsTotal: Option<nat>,
    liftsOpen: Option<nat>,
    liftsTotal: Option<nat>,
    isOpen: bool,
    url: string,
    fromPage: bool)

  /** A write: the slug that keys it and the values it sets. */
  datatype Write = Write(slug: string, defaults: Defaults)

  /** A record created by `update_or_create` starts from the model defaults. */
  function Blank(slug: string): Resort {
    Resort("", slug, "", "", None, None, None, None, None, None, None, None, None, None, None, false, "")
  }

  /** The record after the defaults are written over it. */
  function Apply(r: Resort, d: Defaults): (r': Resort)
    ensures Agrees(r', d)
    ensures r'.slug == r.slug && r'.region == r.region && r'.acresOpen == r.acresOpen
    ensures !d.fromPage ==> r'.summitDepth == r.summitDepth && r'.newSnow48h == r.newSnow48h
  {
    r.(name := d.name, state := d.state, latitude := d.latitude, longitude := d.longitude,
       baseDepth := d.baseDepth, newSnow24h := d.newSnow24h,
       trailsOpen := d.trailsOpen, trailsTotal := d.trailsTotal,
       liftsOpen := d.liftsOpen, liftsTotal := d.liftsTotal,
       isOpen := d.isOpen, url := d.url,
       summitDepth := if d.fromPage then None else r.summitDepth,
       newSnow48h := if d.fromPage then None else r.newSnow48h)
  }

  /** A record holds every value the defaults list. */
  predicate Agrees(r: Resort, d: Defaults) {
    && r.name == d.name && r.state == d.state
    && r.latitude == d.latitude && r.longitude == d.longitude
    && r.baseDepth == d.baseDepth && r.newSnow24h == d.newSnow24h
    && r.trailsOpen == d.trailsOpen && r.trailsTotal == d.trailsTotal
    && r.liftsOpen == d.liftsOpen && r.liftsTotal == d.liftsTotal
    && r.isOpen == d.isOpen && r.url == d.url
    && (d.fromPage ==> r.summitDepth.None? && r.newSnow48h.None?)
  }

  /** The store: records keyed by their unique slug. */
  predicate KeyedBySlug(db: map<string, Resort>) {
    forall s :: s in db ==> db[s].slug == s
  }

  /** `Resort.objects.update_or_create(slug=slug, defaults=…)`. */
  function Upsert(db: map<string, Resort>, w: Write): (db': map<string, Resort>)
    ensures db'.Keys == db.Keys + {w.slug}
    ensures Agrees(db'[w.slug], w.defaults)
    ensures forall s :: s in db && s != w.slug ==> db'[s] == db[s]
    ensures KeyedBySlug(db) ==> KeyedBySlug(db')
  {
    var prev := if w.slug in db then db[w.slug] else Blank(w.slug);
    db[w.slug := Apply(prev, w.defaults)]
  }

  /** Writing the same slug twice leaves one record, holding what the second
      write listed; every other record is untouched. */
  lemma UpsertTwice(db: map<string, Resort>, s: string, d1: Defaults, d2: Defaults)
    ensures var db' := Upsert(Upsert(db, Write(s, d1)), Write(s, d2));
      && db'.Keys == db.Keys + {s}
      && Agrees(db'[s], d2)
      && (forall k :: k in db && k != s ==> db'[k] == db[k])
  {
  }

  /** Writing the same values again changes nothing. */
  lemma UpsertIdempotent(db: map<string, Resort>, w: Write)
    ensures Upsert(Upsert(db, w), w) == Upsert(db, w)
  {
    var db1 := Upsert(db, w);
    assert Apply(db1[w.slug], w.defaults) == db1[w.slug];
  }

  /** The writes of a scrape, applied in order. */
  function ApplyWrites(db: map<string, Resort>, ws: seq<Write>): (db': map<string, Resort>)
    ensures KeyedBySlug(db) ==> KeyedBySlug(db')
    ensures db.Keys <= db'.Keys
    decreases |ws|
  {
    if ws == [] then db else ApplyWrites(Upsert(db, ws[0]), ws[1..])
  }

  /** The slugs a sequence of writes touches. */
  function Slugs(ws: seq<Write>): set<string> {
    set k | 0 <= k < |ws| :: ws[k].slug
  }

  /** The slugs of a non-empty sequence of writes: the first one's and the rest's. */
  lemma SlugsCons(ws: seq<Write>)
    requires ws != []
    ensures Slugs(ws) == {ws[0].slug} + Slugs(ws[1..])
  {
    var rest := ws[1..];
    forall s | s in Slugs(ws) ensures s in {ws[0].slug} + Slugs(rest) {
      var k :| 0 <= k < |ws| && ws[k].slug == s;
      if k > 0 {
        assert rest[k - 1].slug == s;
      }
    }
    forall s | s in Slugs(rest) ensures s in Slugs(ws) {
      var k :| 0 <= k < |rest| && rest[k].slug == s;
      assert ws[k + 1].slug == s;
    }
  }

  /** After a scrape the store holds the old slugs and the written ones. */
  lemma {:induction false} ApplyWritesKeys(db: map<string, Resort>, ws: seq<Write>)
    ensures ApplyWrites(db, ws).Keys == db.Keys + Slugs(ws)
    decreases |ws|
  {
    if ws != [] {
      SlugsCons(ws);
      ApplyWritesKeys(Upsert(db, ws[0]), ws[1..]);
    }
  }

  /** Applying two batches of writes one after the other is applying them
      together. */
  lemma {:induction false} ApplyWritesConcat(db: map<string, Resort>, a: seq<Write>, b: seq<Write>)
    ensures ApplyWrites(db, a + b) == ApplyWrites(ApplyWrites(db, a), b)
    decreases |a|
  {
    if a != [] {
      assert (a + b)[0] == a[0] && (a + b)[1..] == a[1..] + b;
      ApplyWritesConcat(Upsert(db, a[0]), a[1..], b);
    } else {
      assert a + b == b;
    }
  }

  /** A record no write touches is kept as it was. */
  lemma {:induction false} ApplyWritesUntouched(db: map<string, Resort>, ws: seq<Write>, s: string)
    requires s in db && s !in Slugs(ws)
    ensures s in ApplyWrites(db, ws) && ApplyWrites(db, ws)[s] == db[s]
    decreases |ws|
  {
    if ws != [] {
      SlugsCons(ws);
      ApplyWritesUntouched(Upsert(db, ws[0]), ws[1..], s);
    }
  }

  /** No later write has the same slug as write `k`. */
  predicate LastWrite(ws: seq<Write>, k: nat)
    requires k < |ws|
  {
    forall j :: k < j < |ws| ==> ws[j].slug != ws[k].slug
  }

  /** A written slug holds what its last write listed. */
  lemma {:induction false} ApplyWritesLast(db: map<string, Resort>, ws: seq<Write>, k: nat)
    requires k < |ws| && LastWrite(ws, k)
    ensures ws[k].slug in ApplyWrites(db, ws)
    ensures Agrees(ApplyWrites(db, ws)[ws[k].slug], ws[k].defaults)
    decreases |ws|
  {
    var db1 := Upsert(db, ws[0]);
    var rest := ws[1..];
    if k == 0 {
      assert ws[0].slug !in Slugs(rest) by {
        forall j | 0 <= j < |rest| ensures rest[j].slug != ws[0].slug {
          assert rest[j] == ws[j + 1];
        }
      }
      ApplyWritesUntouched(db1, rest, ws[0].slug);
    } else {
      assert ws[k] == rest[k - 1];
      assert LastWrite(rest, k - 1) by {
        forall j | k - 1 < j < |rest| ensures rest[j].slug != rest[k - 1].slug {
          assert rest[j] == ws[j + 1];
        }
      }
      ApplyWritesLast(db1, rest, k - 1);
    }
  }
}

=== FILE: rounding.dfy ===
/** Python's `round()` and `int()` on numbers. Floats are modelled as exact
    rationals (`real`), so the artefacts of binary floating point are not modelled:
    `round` rounds the exact quotient half-to-even. */
module Rounding {

  predicate IsEven(n: int) {
    n % 2 == 0
  }

  function Abs(x: int): nat {
    if x < 0 then -x else x
  }

  function AbsReal(x: real): real {
    if x < 0.0 then -x else x
  }

  /** `round(n / d)` with a positive divisor, computed from the floor quotient
      and remainder; `RoundRatioIsNearest` states what it is. */
  function RoundRatio(n: int, d: int): int
    requires d > 0
  {
    var q := n / d;
    var rem := n % d;
    if 2 * rem < d then q
    else if 2 * rem > d then q + 1
    else if IsEven(q) then q
    else q + 1
  }

  /** `round(n / d)` is the integer nearest to the exact quotient, the even one on a tie. */
  lemma RoundRatioIsNearest(n: int, d: int)
    requires d > 0
    ensures 2 * Abs(RoundRatio(n, d) * d - n) <= d
    ensures 2 * Abs(RoundRatio(n, d) * d - n) == d ==> IsEven(RoundRatio(n, d))
  {
    var q := n / d;
    var rem := n % d;
    assert n == q * d + rem;
    assert (q + 1) * d - n == d - rem;
  }

  /** The nearest-integer property pins `RoundRatio` down: any integer at most
      half a unit from the quotient, and even on a tie, is the rounded value. */
  lemma RoundRatioUnique(n: int, d: int, k: int)
    requires d > 0
    requires 2 * Abs(k * d - n) <= d
    requires 2 * Abs(k * d - n) == d ==> IsEven(k)
    ensures k == RoundRatio(n, d)
  {
    var r := RoundRatio(n, d);
    RoundRatioIsNearest(n, d);
    if k != r {
      var hi := if k > r then k else r;
      var lo := if k > r then r else k;
      Distance(hi, lo, n, d);
    }
  }

  /** Two integers whose multiples of `d` both lie within `d/2` of `n` and
      differ are neighbours, and both sit exactly on the tie. */
  lemma Distance(hi: int, lo: int, n: int, d: int)
    requires d > 0 && hi > lo
    requires 2 * Abs(hi * d - n) <= d && 2 * Abs(lo * d - n) <= d
    ensures hi == lo + 1
    ensures 2 * Abs(hi * d - n) == d && 2 * Abs(lo * d - n) == d
  {
    var m := hi - lo;
    assert hi * d - lo * d == m * d;
    MultipleAtLeast(m, d);
  }

  lemma MultipleAtLeast(m: int, d: int)
    requires m >= 1 && d > 0
    ensures m * d >= d
    ensures m >= 2 ==> m * d >= 2 * d
  {
  }

  /** `round(x)` on a float: the nearest integer, ties to even. */
  function RoundReal(x: real): (r: int)
    ensures 2.0 * AbsReal(r as real - x) <= 1.0
    ensures 2.0 * AbsReal(r as real - x) == 1.0 ==> IsEven(r)
  {
    var f := x.Floor;
    var frac := x - f as real;
    if 2.0 * frac < 1.0 then f
    else if 2.0 * frac > 1.0 then f + 1
    else if IsEven(f) then f
    else f + 1
  }

  /** `int(x)` on a float: truncation toward zero. */
  function Trunc(x: real): (r: int)
    ensures x >= 0.0 ==> 0 <= r && r as real <= x < r as real + 1.0
    ensures x < 0.0 ==> r <= 0 && r as real - 1.0 < x <= r as real
  {
    if x >= 0.0 then x.Floor else -((-x).Floor)
  }
}

=== FILE: scraper.dfy ===
/** The scraping pipeline of resorts/scraper.py: the three layouts of a state
    listing tried in turn, the reader of each kind of row and of a resort page,
    and the upserts they produce. The HTML is taken as already selected: each
    page is given as what its CSS selectors return. */
module Scraper {

  import opened Wrappers
  import opened Text
  import opened Slug
  import opened Patterns
  import Pairs
  import TrailsLifts
  import TrailsLiftsProofs
  import Extract
  import Coordinates
  import CoordTable
  import Resorts

  /** A link: its text as `get_text(strip=True)` returns it (every text
      fragment stripped, the fragments joined with nothing between them), and
      its `href` (empty when the attribute is missing). */
  datatype Anchor = Anchor(text: string, href: string)

  /** A `td` cell: its text as `get_text(strip=True)` returns it, and its
      first link, if any. */
  datatype Cell = Cell(text: string, anchor: Option<Anchor>)

  /** A row of the older `div` layout: its first link whose `href` contains
      `snow-report`, its first link of any kind, and its text. */
  datatype DivRow = DivRow(reportAnchor: Option<Anchor>, firstAnchor: Option<Anchor>, text: string)

  /** A state listing as its selectors see it: the `td` cells of each row of
      `table tbody tr` and of `table tr`, the rows of
      `div[data-testid="resort-row"]` and of `.styles_row__resort__`, and the
      `href` of each `a[href*="/snow-report.html"]`. */
  datatype StatePage = StatePage(
    bodyRows: seq<seq<Cell>>,
    tableRows: seq<seq<Cell>>,
    testIdRows: seq<DivRow>,
    classRows: seq<DivRow>,
    reportHrefs: seq<string>)

  /** A resort page: the `get_text(strip=True)` of its first `h1`, the text of the whole
      page, and the `.string` of each `script` tag. */
  datatype ResortPage = ResortPage(title: Option<string>, text: string, scripts: seq<Option<string>>)

  /** What the scraper consults outside the page in hand: the coordinates
      table (`RESORT_COORDS`, which is `CoordTable.ResortCoords`), the join of
      a link against `https://www.onthesnow.com` (`urljoin(BASE_URL, href)`),
      and the fetch of a resort page, `None` when the request fails. */
  datatype Env = Env(
    coords: seq<(string, (real, real))>,
    resolve: string -> string,
    fetch: string -> Option<ResortPage>)

  /** The live environment with the repository's own table. */
  function LiveEnv(resolve: string -> string, fetch: string -> Option<ResortPage>): Env {
    Env(CoordTable.ResortCoords, resolve, fetch)
  }

  // ---------------------------------------------------------------- shared pieces

  /** The values `f` yields along `xs`, in order: a loop that skips the items
      it cannot use. */
  function Collect<A, B>(xs: seq<A>, f: A -> Option<B>): (ys: seq<B>)
    ensures |ys| <= |xs|
  {
    if xs == [] then []
    else (match f(xs[0]) case Some(y) => [y] case None => []) + Collect(xs[1..], f)
  }

  /** A value is collected exactly when some item yields it. */
  lemma {:induction false} CollectMembers<A, B>(xs: seq<A>, f: A -> Option<B>, y: B)
    ensures y in Collect(xs, f) <==> exists i :: 0 <= i < |xs| && f(xs[i]) == Some(y)
    decreases |xs|
  {
    if xs != [] {
      var rest := xs[1..];
      CollectMembers(rest, f, y);
      if exists i :: 0 <= i < |rest| && f(rest[i]) == Some(y) {
        var i :| 0 <= i < |rest| && f(rest[i]) == Some(y);
        assert xs[i + 1] == rest[i];
      }
      if exists i :: 0 <= i < |xs| && f(xs[i]) == Some(y) {
        var i :| 0 <= i < |xs| && f(xs[i]) == Some(y);
        if i > 0 {
          assert rest[i - 1] == xs[i];
        }
      }
    }
  }

  /** Nothing is collected when no item yields anything. */
  lemma {:induction false} CollectNone<A, B>(xs: seq<A>, f: A -> Option<B>)
    requires forall i :: 0 <= i < |xs| ==> f(xs[i]).None?
    ensures Collect(xs, f) == []
    decreases |xs|
  {
    if xs != [] {
      assert forall i :: 0 <= i < |xs[1..]| ==> xs[1..][i] == xs[i + 1];
      CollectNone(xs[1..], f);
    }
  }

  /** Two readers that agree on every item collect the same values. */
  lemma {:induction false} CollectAgrees<A, B>(xs: seq<A>, f: A -> Option<B>, g: A -> Option<B>)
    requires forall i :: 0 <= i < |xs| ==> f(xs[i]) == g(xs[i])
    ensures Collect(xs, f) == Collect(xs, g)
    decreases |xs|
  {
    if xs != [] {
      assert forall i :: 0 <= i < |xs[1..]| ==> xs[1..][i] == xs[i + 1];
      CollectAgrees(xs[1..], f, g);
    }
  }

  /** `RESORT_COORDS.get(slug, (None, None))` and the like: a pair of
      coordinates, or two missing values. */
  function LatLng(c: Option<(real, real)>): (Option<real>, Option<real>) {
    match c
    case Some((lat, lng)) => (Some(lat), Some(lng))
    case None => (None, None)
  }

  /** The open and total fields a trails or lifts reading fills. */
  function CountFields(c: TrailsLifts.Counts): (Option<nat>, Option<nat>) {
    match c
    case Unknown => (None, None)
    case Known(o, t) => (Some(o), Some(t))
  }

  /** The open and total fields of a pair read off a `div` row. */
  function PairFields(p: Option<(nat, nat)>): (Option<nat>, Option<nat>) {
    match p
    case Some((o, t)) => (Some(o), Some(t))
    case None => (None, None)
  }

  /** `is_open` of a row: trails or lifts have a positive open count. */
  function IsOpen(trailsOpen: Option<nat>, liftsOpen: Option<nat>): bool {
    Resorts.Truthy(trailsOpen) || Resorts.Truthy(liftsOpen)
  }

  /** `urljoin(BASE_URL, href) if href else ''`; `resolve` is the join against
      `https://www.onthesnow.com`. */
  function RowUrl(href: string, resolve: string -> string): string {
    if href == "" then "" else resolve(href)
  }

  /** What every write of the scraper keeps: a slug-shaped key, the state it
      was listed under, both coordinates or neither, both counts of a pair or
      neither, and `is_open` exactly when something is open. */
  predicate WriteShape(w: Resorts.Write, state: string) {
    var d := w.defaults;
    && IsSlug(w.slug)
    && d.state == state
    && (d.latitude.Some? <==> d.longitude.Some?)
    && (d.trailsOpen.Some? <==> d.trailsTotal.Some?)
    && (d.liftsOpen.Some? <==> d.liftsTotal.Some?)
    && (d.isOpen <==> Resorts.Truthy(d.trailsOpen) || Resorts.Truthy(d.liftsOpen))
  }

  // ---------------------------------------------------------------- table layout

  /** The lifts cell, or the empty text when the row has only five cells. */
  function LiftsText(cells: seq<Cell>): string {
    if |cells| > 5 then cells[5].text else ""
  }

  /** `parse_table_row`: nothing for a row of fewer than five cells or with no
      link in its first; `Err` when a trails or lifts cell raises. */
  function ParseTableRow(cells: seq<Cell>, state: string, env: Env): (r: Result<Option<Resorts.Write>>)
    ensures (|cells| < 5 || cells[0].anchor.None?) ==> r == Ok(None)
    ensures r.Err? <==>
      (5 <= |cells| && cells[0].anchor.Some? &&
       (TrailsLifts.Parse(cells[4].text).Err? || TrailsLifts.Parse(LiftsText(cells)).Err?))
    ensures r.Ok? && r.value.Some? ==> WriteShape(r.value.value, state) && !r.value.value.defaults.fromPage
    ensures r.Ok? && r.value.Some? ==> PlacedFromTable(r.value.value, env.coords)
  {
    if |cells| < 5 || cells[0].anchor.None? then Ok(None)
    else
      var trails :- TrailsLifts.Parse(cells[4].text);
      var lifts :- TrailsLifts.Parse(LiftsText(cells));
      Ok(Some(TableRowWrite(cells[0].anchor.value, cells, state, env, trails, lifts)))
  }

  /** The upsert a table row makes once its trails and lifts cells are read:
      the name of its link, the figures of its cells and the table's
      coordinates. */
  function TableRowWrite(link: Anchor, cells: seq<Cell>, state: string, env: Env,
                         trails: TrailsLifts.Counts, lifts: TrailsLifts.Counts): (w: Resorts.Write)
    requires 5 <= |cells|
    ensures WriteShape(w, state) && !w.defaults.fromPage && PlacedFromTable(w, env.coords)
    ensures w.defaults.name == CleanRowName(link.text) && w.slug == Slugify(w.defaults.name)
    ensures w.defaults.newSnow24h == NewSnowCell(cells[1].text) && w.defaults.baseDepth == BaseDepthCell(cells[3].text)
    ensures (w.defaults.trailsOpen, w.defaults.trailsTotal) == CountFields(trails)
    ensures (w.defaults.liftsOpen, w.defaults.liftsTotal) == CountFields(lifts)
  {
    var name := CleanRowName(link.text);
    var slug := Slugify(name);
    var (lat, lng) := LatLng(Coordinates.Lookup(env.coords, slug));
    var (to, tt) := CountFields(trails);
    var (lo, lt) := CountFields(lifts);
    var w := Resorts.Write(slug, Resorts.Defaults(
      name, state, lat, lng,
      BaseDepthCell(cells[3].text), NewSnowCell(cells[1].text),
      to, tt, lo, lt, IsOpen(to, lo), RowUrl(link.href, env.resolve), false));
    LookupPlaces(w, env.coords);
    w
  }

  /** A write whose coordinates are the table's entry for its slug is placed
      from the table. */
  lemma LookupPlaces(w: Resorts.Write, coords: seq<(string, (real, real))>)
    requires (w.defaults.latitude, w.defaults.longitude) == LatLng(Coordinates.Lookup(coords, w.slug))
    ensures PlacedFromTable(w, coords)
  {
    var c := Coordinates.Lookup(coords, w.slug);
    if c.Some? {
      var k :| 0 <= k < |coords| && coords[k] == (w.slug, c.value) && Coordinates.LastWith(coords, k, w.slug);
      assert coords[k] == (w.slug, (w.defaults.latitude.value, w.defaults.longitude.value));
    }
  }

  /** Coordinates that come from the table alone: present exactly when the
      slug is listed, and then those of the last entry listing it. */
  predicate PlacedFromTable(w: Resorts.Write, coords: seq<(string, (real, real))>) {
    var d := w.defaults;
    && (d.latitude.Some? <==> exists k :: 0 <= k < |coords| && coords[k].0 == w.slug)
    && (d.latitude.Some? && d.longitude.Some? ==>
          exists k :: (0 <= k < |coords| && coords[k] == (w.slug, (d.latitude.value, d.longitude.value))
                       && Coordinates.LastWith(coords, k, w.slug)))
  }

  /** The upsert of a table row, if any; a row that raises is logged and skipped. */
  function TableWrite(cells: seq<Cell>, state: string, env: Env): (w: Option<Resorts.Write>)
    ensures w.None? <==>
      (|cells| < 5 || cells[0].anchor.None? ||
       TrailsLifts.Parse(cells[4].text).Err? || TrailsLifts.Parse(LiftsText(cells)).Err?)
    ensures w.Some? ==> WriteShape(w.value, state) && !w.value.defaults.fromPage
    ensures w.Some? ==> PlacedFromTable(w.value, env.coords)
  {
    match ParseTableRow(cells, state, env)
    case Ok(w) => w
    case Err(_) => None
  }

  /** The rows with at least one `td` cell: header rows are dropped. */
  function DataRows(rows: seq<seq<Cell>>): (r: seq<seq<Cell>>)
  {
    Collect(rows, HasCells)
  }

  /** A row with cells, kept; a header row, dropped. */
  function HasCells(cells: seq<Cell>): Option<seq<Cell>> {
    if cells != [] then Some(cells) else None
  }

  /** The rows the table layout reads: `table tbody tr`, or `table tr` when the
      first selector matches nothing, without header rows. */
  function TableRows(p: StatePage): seq<seq<Cell>> {
    DataRows(if p.bodyRows != [] then p.bodyRows else p.tableRows)
  }

  /** A five-cell row with a link, new snow and base depth printed before an
      inch mark and a trails cell `open/total` yields those figures, no lift
      counts, and is open exactly when some trail is. */
  lemma {:induction false} TableRowReads(cells: seq<Cell>, state: string, env: Env,
                                         n: nat, rest1: string, b: nat, rest3: string, o: nat, t: nat)
    requires |cells| == 5 && cells[0].anchor.Some?
    requires cells[1].text == NatToString(n) + ("\"" + rest1)
    requires cells[3].text == NatToString(b) + ("\"" + rest3)
    requires cells[4].text == NatToString(o) + "/" + NatToString(t)
    ensures var r := ParseTableRow(cells, state, env);
      && r.Ok? && r.value.Some?
      && r.value.value.defaults.newSnow24h == Some(n)
      && r.value.value.defaults.baseDepth == Some(b)
      && r.value.value.defaults.trailsOpen == Some(o)
      && r.value.value.defaults.trailsTotal == Some(t)
      && r.value.value.defaults.liftsOpen.None? && r.value.value.defaults.liftsTotal.None?
      && (r.value.value.defaults.isOpen <==> o > 0)
  {
    CellsRead(cells[1].text, cells[3].text, cells[4].text, n, rest1, b, rest3, o, t);
    assert TrailsLifts.Parse(LiftsText(cells)) == Ok(TrailsLifts.Unknown);
    var w := TableRowWrite(cells[0].anchor.value, cells, state, env, TrailsLifts.Known(o, t), TrailsLifts.Unknown);
    assert ParseTableRow(cells, state, env) == Ok(Some(w));
    assert w.defaults.trailsOpen == Some(o) && w.defaults.liftsOpen.None?;
    assert w.defaults.isOpen <==> Resorts.Truthy(Some(o));
  }

  /** The new-snow, base-depth and trails cells of such a row, read one by one. */
  lemma {:induction false} CellsRead(newSnow: string, base: string, trails: string,
                                     n: nat, rest1: string, b: nat, rest3: string, o: nat, t: nat)
    requires newSnow == NatToString(n) + ("\"" + rest1)
    requires base == NatToString(b) + ("\"" + rest3)
    requires trails == NatToString(o) + "/" + NatToString(t)
    ensures NewSnowCell(newSnow) == Some(n) && BaseDepthCell(base) == Some(b)
    ensures TrailsLifts.Parse(trails) == Ok(TrailsLifts.Known(o, t))
  {
    TrailsCellReads(o, t, trails);
    NewSnowCellRoundTrip(n, rest1, newSnow);
    BaseDepthSingle(b, rest3, base);
  }

  /** A row that reads without raising carries the figures of its cells. */
  lemma RowFields(cells: seq<Cell>, state: string, env: Env)
    requires 5 <= |cells| && cells[0].anchor.Some?
    requires TrailsLifts.Parse(cells[4].text).Ok? && TrailsLifts.Parse(LiftsText(cells)).Ok?
    ensures var r := ParseTableRow(cells, state, env);
      && r.Ok? && r.value.Some?
      && r.value.value.defaults.newSnow24h == NewSnowCell(cells[1].text)
      && r.value.value.defaults.baseDepth == BaseDepthCell(cells[3].text)
      && (r.value.value.defaults.trailsOpen, r.value.value.defaults.trailsTotal)
         == CountFields(TrailsLifts.Parse(cells[4].text).value)
      && (r.value.value.defaults.liftsOpen, r.value.value.defaults.liftsTotal)
         == CountFields(TrailsLifts.Parse(LiftsText(cells)).value)
  {
  }

  /** A trails cell written `open/total` reads as those two counts. */
  lemma TrailsCellReads(o: nat, t: nat, text: string)
    requires text == NatToString(o) + "/" + NatToString(t)
    ensures TrailsLifts.Parse(text) == Ok(TrailsLifts.Known(o, t))
  {
    var od := NatToString(o);
    var td := NatToString(t);
    assert text == od + "/" + td + [];
    TrailsLiftsProofs.BareMatch(od, td, [], text);
    NatToStringRoundTrip(o);
    NatToStringRoundTrip(t);
    assert text[|od|] == '/';
  }

  // ---------------------------------------------------------------- div layout

  /** `parse_resort_row`: the first `snow-report` link names the resort, else
      the first link; the figures are read off the text of the whole row. */
  function ParseResortRow(row: DivRow, state: string, env: Env): (r: Option<Resorts.Write>)
    ensures r.Some? <==> row.reportAnchor.Some? || row.firstAnchor.Some?
    ensures r.Some? ==> WriteShape(r.value, state) && !r.value.defaults.fromPage
    ensures r.Some? && row.reportAnchor.Some? ==> r.value.defaults.name == row.reportAnchor.value.text
    ensures r.Some? ==>
      var a := if row.reportAnchor.Some? then row.reportAnchor.value else row.firstAnchor.value;
      r.value.defaults.name == a.text && r.value.slug == Slugify(a.text)
      && r.value.defaults.url == RowUrl(a.href, env.resolve)
    ensures r.Some? ==>
      r.value.defaults.baseDepth == Extract.ExtractNumber(row.text, Extract.BaseWords)
      && r.value.defaults.newSnow24h == Extract.ExtractNumber(row.text, Extract.NewWords)
    ensures r.Some? ==>
      (r.value.defaults.trailsOpen, r.value.defaults.trailsTotal)
        == PairFields(Extract.DivPair(row.text, Extract.DivTrailShapes))
      && (r.value.defaults.liftsOpen, r.value.defaults.liftsTotal)
        == PairFields(Extract.DivPair(row.text, Extract.DivLiftShapes))
  {
    var link := if row.reportAnchor.Some? then row.reportAnchor else row.firstAnchor;
    match link
    case None => None
    case Some(a) =>
      var slug := Slugify(a.text);
      var (lat, lng) := LatLng(Coordinates.Lookup(env.coords, slug));
      var (to, tt) := PairFields(Extract.DivPair(row.text, Extract.DivTrailShapes));
      var (lo, lt) := PairFields(Extract.DivPair(row.text, Extract.DivLiftShapes));
      Some(Resorts.Write(slug, Resorts.Defaults(
        a.text, state, lat, lng,
        Extract.ExtractNumber(row.text, Extract.BaseWords), Extract.ExtractNumber(row.text, Extract.NewWords),
        to, tt, lo, lt, IsOpen(to, lo), RowUrl(a.href, env.resolve), false)))
  }

  /** A `div` row's counts are the numbers of the first pattern's leftmost
      match in the row text: `trails` (or a bare pair) for the trails, `lifts`
      for the lifts; a row with no match has no counts. */
  lemma DivRowCounts(row: DivRow, state: string, env: Env)
    requires ParseResortRow(row, state, env).Some?
    ensures var d := ParseResortRow(row, state, env).value.defaults;
      var tm := Extract.FirstMatch(row.text, Extract.DivTrailShapes);
      var lm := Extract.FirstMatch(row.text, Extract.DivLiftShapes);
      && (tm.None? ==> d.trailsOpen.None? && d.trailsTotal.None?)
      && (tm.Some? ==> d.trailsOpen == Some(tm.value.open) && d.trailsTotal == Some(tm.value.total))
      && (lm.None? ==> d.liftsOpen.None? && d.liftsTotal.None?)
      && (lm.Some? ==> d.liftsOpen == Some(lm.value.open) && d.liftsTotal == Some(lm.value.total))
  {
    Extract.DivPairReadsFirstMatch(row.text, Extract.DivTrailShapes);
    Extract.DivPairReadsFirstMatch(row.text, Extract.DivLiftShapes);
  }

  /** The rows the `div` layout reads: the `data-testid` rows, or the class
      rows when there are none. */
  function DivRows(p: StatePage): seq<DivRow> {
    if p.testIdRows != [] then p.testIdRows else p.classRows
  }

  /** A `div` row placed from the coordinates table: a listed resort gets the
      coordinates of the table's last entry for its slug, the others none. */
  lemma RowCoordinates(row: DivRow, state: string, env: Env)
    requires ParseResortRow(row, state, env).Some?
    ensures PlacedFromTable(ParseResortRow(row, state, env).value, env.coords)
  {
    var w := ParseResortRow(row, state, env).value;
    assert (w.defaults.latitude, w.defaults.longitude) == LatLng(Coordinates.Lookup(env.coords, w.slug));
    LookupPlaces(w, env.coords);
  }

  // ---------------------------------------------------------------- link layout

  /** The links the last layout follows: a non-empty `href` naming a snow report. */
  predicate IsReportHref(href: string) {
    href != "" && Contains(href, "/snow-report.html")
  }

  /** `scrape_individual_resort`: nothing when the page cannot be fetched or has
      no `h1`; otherwise the conditions of the page text, the coordinates of the
      table or of the page's scripts, and the page URL. `fetch` stands for the
      HTTP request, `None` for a failed one. */
  function ScrapeIndividual(href: string, state: string, env: Env): (r: Option<Resorts.Write>)
    ensures r.Some? <==> env.fetch(env.resolve(href)).Some? && env.fetch(env.resolve(href)).value.title.Some?
    ensures r.Some? ==> WriteShape(r.value, state) && r.value.defaults.fromPage && r.value.defaults.url == env.resolve(href)
    ensures r.Some? ==>
      var page := env.fetch(env.resolve(href)).value;
      r.value.defaults.name == CleanTitle(page.title.value) && r.value.slug == Slugify(r.value.defaults.name)
      && (r.value.defaults.latitude, r.value.defaults.longitude)
           == LatLng(Coordinates.PageCoordinates(env.coords, r.value.slug, page.scripts))
      && ConditionsOf(r.value.defaults) == Extract.ExtractConditions(page.text)
  {
    var url := env.resolve(href);
    match env.fetch(url)
    case None => None
    case Some(page) =>
      match page.title
      case None => None
      case Some(title) =>
        var name := CleanTitle(title);
        var slug := Slugify(name);
        var (lat, lng) := LatLng(Coordinates.PageCoordinates(env.coords, slug, page.scripts));
        var c := Extract.ExtractConditions(page.text);
        Some(Resorts.Write(slug, Resorts.Defaults(
          name, state, lat, lng, c.baseDepth, c.newSnow24h,
          c.trailsOpen, c.trailsTotal, c.liftsOpen, c.liftsTotal, c.isOpen, url, true)))
  }

  /** The condition fields of a write. */
  function ConditionsOf(d: Resorts.Defaults): Extract.Conditions {
    Extract.Conditions(d.baseDepth, d.newSnow24h, d.trailsOpen, d.trailsTotal, d.liftsOpen, d.liftsTotal, d.isOpen)
  }

  /** A resort page is placed from the table when its slug is listed, taking
      the table's last entry for it; otherwise by the first of its scripts
      that yields a pair, or not at all. */
  lemma PagePlacement(href: string, state: string, env: Env)
    requires ScrapeIndividual(href, state, env).Some?
    ensures var w := ScrapeIndividual(href, state, env).value;
      var page := env.fetch(env.resolve(href)).value;
      && ((exists k :: 0 <= k < |env.coords| && env.coords[k].0 == w.slug) ==> PlacedFromTable(w, env.coords))
      && ((forall k :: 0 <= k < |env.coords| ==> env.coords[k].0 != w.slug) ==>
            (w.defaults.latitude, w.defaults.longitude) == LatLng(Coordinates.FirstScript(page.scripts)))
  {
    var w := ScrapeIndividual(href, state, env).value;
    var page := env.fetch(env.resolve(href)).value;
    PageCoordinatesPlace(w, env.coords, page.scripts);
  }

  /** A write placed by the page rule: from the table when its slug is listed,
      from the scripts otherwise. */
  lemma PageCoordinatesPlace(w: Resorts.Write, coords: seq<(string, (real, real))>, scripts: seq<Option<string>>)
    requires (w.defaults.latitude, w.defaults.longitude) == LatLng(Coordinates.PageCoordinates(coords, w.slug, scripts))
    ensures (exists k :: 0 <= k < |coords| && coords[k].0 == w.slug) ==> PlacedFromTable(w, coords)
    ensures (forall k :: 0 <= k < |coords| ==> coords[k].0 != w.slug) ==>
      (w.defaults.latitude, w.defaults.longitude) == LatLng(Coordinates.FirstScript(scripts))
  {
    var c := Coordinates.PageCoordinates(coords, w.slug, scripts);
    if exists k :: 0 <= k < |coords| && coords[k].0 == w.slug {
      var k :| 0 <= k < |coords| && coords[k] == (w.slug, c.value) && Coordinates.LastWith(coords, k, w.slug);
      assert coords[k] == (w.slug, (w.defaults.latitude.value, w.defaults.longitude.value));
    }
  }

  /** A resort page is open exactly when its leftmost trails or lifts pair has
      a positive open count. */
  lemma PageOpen(href: string, state: string, env: Env)
    requires ScrapeIndividual(href, state, env).Some?
    ensures var t := env.fetch(env.resolve(href)).value.text;
      ScrapeIndividual(href, state, env).value.defaults.isOpen <==>
        (Extract.PagePair(t, Pairs.TrailOrRunWords).Some? && Extract.PagePair(t, Pairs.TrailOrRunWords).value.open > 0)
        || (Extract.PagePair(t, Pairs.LiftsWord).Some? && Extract.PagePair(t, Pairs.LiftsWord).value.open > 0)
  {
    Extract.ConditionsOpen(env.fetch(env.resolve(href)).value.text);
  }

  // ---------------------------------------------------------------- a state listing

  /** The upserts of the table layout, in row order. */
  function TableWrites(rows: seq<seq<Cell>>, state: string, env: Env): seq<Resorts.Write> {
    Collect(rows, (cells: seq<Cell>) => TableWrite(cells, state, env))
  }

  /** The upserts of the `div` layout, in row order. */
  function DivWrites(rows: seq<DivRow>, state: string, env: Env): seq<Resorts.Write> {
    Collect(rows, (row: DivRow) => ParseResortRow(row, state, env))
  }

  /** The upserts of the link layout, in link order. */
  function LinkWrites(hrefs: seq<string>, state: string, env: Env): seq<Resorts.Write> {
    Collect(hrefs, (h: string) => if IsReportHref(h) then ScrapeIndividual(h, state, env) else None)
  }

  /** `scrape_state_resorts`: the table layout when it has data rows, else the
      `div` layout when it has rows, else the report links. `None` is a listing
      that could not be fetched. */
  function ScrapeState(page: Option<StatePage>, state: string, env: Env): (ws: seq<Resorts.Write>)
    ensures page.None? ==> ws == []
    ensures page.Some? && TableRows(page.value) != [] ==> |ws| <= |TableRows(page.value)|
    ensures page.Some? && TableRows(page.value) == [] && DivRows(page.value) != [] ==> |ws| <= |DivRows(page.value)|
    ensures page.Some? && TableRows(page.value) == [] && DivRows(page.value) == [] ==> |ws| <= |page.value.reportHrefs|
  {
    match page
    case None => []
    case Some(p) =>
      if TableRows(p) != [] then TableWrites(TableRows(p), state, env)
      else if DivRows(p) != [] then DivWrites(DivRows(p), state, env)
      else LinkWrites(p.reportHrefs, state, env)
  }

  /** A listing with data rows is read from its table alone: the `div` rows and
      the links are never consulted. */
  lemma TableFirst(p: StatePage, state: string, env: Env, q: StatePage, env': Env)
    requires TableRows(p) != []
    requires q.bodyRows == p.bodyRows && q.tableRows == p.tableRows
    requires env'.coords == env.coords && env'.resolve == env.resolve
    ensures ScrapeState(Some(p), state, env) == ScrapeState(Some(q), state, env')
  {
    var rows := TableRows(p);
    assert TableRows(q) == rows;
    CollectAgrees(rows, (cells: seq<Cell>) => TableWrite(cells, state, env), (cells: seq<Cell>) => TableWrite(cells, state, env'));
  }

  /** Without data rows but with `div` rows the listing is read from those
      rows: the links are never followed. */
  lemma DivsBeforeLinks(p: StatePage, state: string, env: Env, hrefs: seq<string>, env': Env)
    requires TableRows(p) == [] && DivRows(p) != []
    requires env'.coords == env.coords && env'.resolve == env.resolve
    ensures ScrapeState(Some(p), state, env) == ScrapeState(Some(p.(reportHrefs := hrefs)), state, env')
  {
    var q := p.(reportHrefs := hrefs);
    assert TableRows(q) == [] && DivRows(q) == DivRows(p);
    CollectAgrees(DivRows(p), (row: DivRow) => ParseResortRow(row, state, env), (row: DivRow) => ParseResortRow(row, state, env'));
  }

  /** Header-only body rows hide `table tr`: when `table tbody tr` matches
      only rows without cells, the plain table rows are not read, whatever
      they hold. */
  lemma HeaderOnlyBody(p: StatePage, rows: seq<seq<Cell>>, state: string, env: Env)
    requires p.bodyRows != [] && forall k :: 0 <= k < |p.bodyRows| ==> p.bodyRows[k] == []
    ensures TableRows(p) == []
    ensures ScrapeState(Some(p), state, env) == ScrapeState(Some(p.(tableRows := rows)), state, env)
  {
    CollectNone(p.bodyRows, HasCells);
  }

  /** Every upsert of a listing comes from the layout in use: a table row, a
      `div` row, or a report link whose page was fetched. */
  lemma {:induction false} ScrapeStateSources(p: StatePage, state: string, env: Env, w: Resorts.Write)
    ensures w in ScrapeState(Some(p), state, env) <==>
      if TableRows(p) != [] then exists i :: 0 <= i < |TableRows(p)| && TableWrite(TableRows(p)[i], state, env) == Some(w)
      else if DivRows(p) != [] then exists i :: 0 <= i < |DivRows(p)| && ParseResortRow(DivRows(p)[i], state, env) == Some(w)
      else exists i :: 0 <= i < |p.reportHrefs| && IsReportHref(p.reportHrefs[i])
                       && ScrapeIndividual(p.reportHrefs[i], state, env) == Some(w)
  {
    if TableRows(p) != [] {
      CollectMembers(TableRows(p), (cells: seq<Cell>) => TableWrite(cells, state, env), w);
    } else if DivRows(p) != [] {
      CollectMembers(DivRows(p), (row: DivRow) => ParseResortRow(row, state, env), w);
    } else {
      var f := (h: string) => if IsReportHref(h) then ScrapeIndividual(h, state, env) else None;
      CollectMembers(p.reportHrefs, f, w);
      assert forall i :: 0 <= i < |p.reportHrefs| ==>
        (f(p.reportHrefs[i]) == Some(w) <==>
          IsReportHref(p.reportHrefs[i]) && ScrapeIndividual(p.reportHrefs[i], state, env) == Some(w));
    }
  }

  /** Every upsert of a listing has the shape of a scraper write, and only the
      link layout writes the page-only fields. */
  lemma ScrapeStateShape(p: StatePage, state: string, env: Env, w: Resorts.Write)
    requires w in ScrapeState(Some(p), state, env)
    ensures WriteShape(w, state)
    ensures w.defaults.fromPage ==> TableRows(p) == [] && DivRows(p) == []
  {
    ScrapeStateSources(p, state, env, w);
    if TableRows(p) != [] {
      var i :| 0 <= i < |TableRows(p)| && TableWrite(TableRows(p)[i], state, env) == Some(w);
      assert ParseTableRow(TableRows(p)[i], state, env) == Ok(Some(w));
    }
  }

  /** A listing that cannot be fetched leaves the store as it was; one that
      can keeps the store keyed by slug and adds exactly the slugs it wrote. */
  lemma ScrapeStore(db: map<string, Resorts.Resort>, page: Option<StatePage>, state: string,
                    env: Env)
    requires Resorts.KeyedBySlug(db)
    ensures page.None? ==> Resorts.ApplyWrites(db, ScrapeState(page, state, env)) == db
    ensures var ws := ScrapeState(page, state, env);
      && Resorts.KeyedBySlug(Resorts.ApplyWrites(db, ws))
      && Resorts.ApplyWrites(db, ws).Keys == db.Keys + Resorts.Slugs(ws)
  {
    Resorts.ApplyWritesKeys(db, ScrapeState(page, state, env));
  }

  // ---------------------------------------------------------------- all states

  /** `get_us_states`: the states scraped, each with the path of its listing. */
  const UsStates: seq<(string, string)> := [
    ("Colorado", "/colorado/skireport.html"),
    ("California", "/california/skireport.html"),
    ("Utah", "/utah/skireport.html"),
    ("Vermont", "/vermont/skireport.html"),
    ("Montana", "/montana/skireport.html"),
    ("Wyoming", "/wyoming/skireport.html"),
    ("New Mexico", "/new-mexico/skireport.html"),
    ("Idaho", "/idaho/skireport.html"),
    ("Oregon", "/oregon/skireport.html"),
    ("Washington", "/washington/skireport.html"),
    ("New Hampshire", "/new-hampshire/skireport.html"),
    ("Maine", "/maine/skireport.html"),
    ("New York", "/new-york/skireport.html"),
    ("Michigan", "/michigan/skireport.html"),
    ("Wisconsin", "/wisconsin/skireport.html"),
    ("Minnesota", "/minnesota/skireport.html"),
    ("Pennsylvania", "/pennsylvania/skireport.html"),
    ("West Virginia", "/west-virginia/skireport.html"),
    ("Virginia", "/virginia/skireport.html"),
    ("North Carolina", "/north-carolina/skireport.html"),
    ("Massachusetts", "/massachusetts/skireport.html"),
    ("Connecticut", "/connecticut/skireport.html"),
    ("Nevada", "/nevada/skireport.html"),
    ("Arizona", "/arizona/skireport.html"),
    ("Alaska", "/alaska/skireport.html"),
    ("South Dakota", "/south-dakota/skireport.html")]

  /** The upserts of every listing, state after state; `listing` fetches the
      listing at a resolved URL, `None` when the request fails. */
  function AllWrites(states: seq<(string, string)>, listing: string -> Option<StatePage>, env: Env): seq<Resorts.Write>
    decreases |states|
  {
    if states == [] then []
    else ScrapeState(listing(env.resolve(states[0].1)), states[0].0, env) + AllWrites(states[1..], listing, env)
  }

  /** `scrape_all_resorts`: each state's listing scraped and written in turn.
      A listing that cannot be fetched writes nothing; rows that raise are
      already skipped inside a listing, so no state's scrape raises. */
  function ScrapeAll(db: map<string, Resorts.Resort>, states: seq<(string, string)>,
                     listing: string -> Option<StatePage>, env: Env): (db': map<string, Resorts.Resort>)
    ensures Resorts.KeyedBySlug(db) ==> Resorts.KeyedBySlug(db')
    ensures db.Keys <= db'.Keys
    decreases |states|
  {
    if states == [] then db
    else
      var state := states[0].0;
      ScrapeAll(Resorts.ApplyWrites(db, ScrapeState(listing(env.resolve(states[0].1)), state, env)),
                states[1..], listing, env)
  }

  /** Scraping the states one by one is applying all their writes in order. */
  lemma {:induction false} ScrapeAllWrites(db: map<string, Resorts.Resort>, states: seq<(string, string)>,
                                           listing: string -> Option<StatePage>, env: Env)
    ensures ScrapeAll(db, states, listing, env) == Resorts.ApplyWrites(db, AllWrites(states, listing, env))
    decreases |states|
  {
    if states != [] {
      var ws := ScrapeState(listing(env.resolve(states[0].1)), states[0].0, env);
      ScrapeAllWrites(Resorts.ApplyWrites(db, ws), states[1..], listing, env);
      Resorts.ApplyWritesConcat(db, ws, AllWrites(states[1..], listing, env));
    }
  }

  /** After scraping every state the store holds its old slugs and exactly the
      slugs some listing wrote; records no listing wrote are untouched. */
  lemma ScrapeAllStore(db: map<string, Resorts.Resort>, states: seq<(string, string)>,
                       listing: string -> Option<StatePage>, env: Env, s: string)
    ensures ScrapeAll(db, states, listing, env).Keys == db.Keys + Resorts.Slugs(AllWrites(states, listing, env))
    ensures s in db && s !in Resorts.Slugs(AllWrites(states, listing, env)) ==>
      ScrapeAll(db, states, listing, env)[s] == db[s]
  {
    ScrapeAllWrites(db, states, listing, env);
    Resorts.ApplyWritesKeys(db, AllWrites(states, listing, env));
    if s in db && s !in Resorts.Slugs(AllWrites(states, listing, env)) {
      Resorts.ApplyWritesUntouched(db, AllWrites(states, listing, env), s);
    }
  }

  /** `get_or_refresh_resorts`: with more than fifty records scraped within the
      cache timeout the store is served as it is; otherwise every listed state
      is scraped first. `recent` is the count of fresh records, which needs
      the clock; `states` is what `get_us_states` returns, `UsStates`. */
  function GetOrRefresh(db: map<string, Resorts.Resort>, recent: nat, states: seq<(string, string)>,
                        listing: string -> Option<StatePage>, env: Env): (db': map<string, Resorts.Resort>)
    ensures recent > 50 ==> db' == db
    ensures db.Keys <= db'.Keys
    ensures recent <= 50 ==> db'.Keys == db.Keys + Resorts.Slugs(AllWrites(states, listing, env))
    ensures Resorts.KeyedBySlug(db) ==> Resorts.KeyedBySlug(db')
  {
    if recent > 50 then db
    else
      ScrapeAllStore(db, states, listing, env, "");
      ScrapeAll(db, states, listing, env)
  }

  /** A refresh in which no listing can be fetched changes nothing. */
  lemma {:induction false} NothingFetched(db: map<string, Resorts.Resort>, states: seq<(string, string)>,
                                          listing: string -> Option<StatePage>, env: Env)
    requires forall k :: 0 <= k < |states| ==> listing(env.resolve(states[k].1)).None?
    ensures ScrapeAll(db, states, listing, env) == db
    decreases |states|
  {
    if states != [] {
      assert listing(env.resolve(states[0].1)).None?;
      NothingFetched(db, states[1..], listing, env);
    }
  }
}

=== FILE: slug.dfy ===
/** The resort slug, the unique key of a stored resort (resorts/scraper.py, the
    expression `re.sub(r'[^a-z0-9]+', '-', name.lower()).strip('-')`, written out
    at each of the three places a resort name is read). */
module Slug {

  import opened Text

  /** The characters the class `[a-z0-9]` accepts. */
  predicate IsSlugChar(c: char) {
    IsLowerLetter(c) || IsDigit(c)
  }

  /** Every character is a slug character or a dash. */
  predicate InSlugAlphabet(s: string) {
    forall i :: 0 <= i < |s| ==> IsSlugChar(s[i]) || s[i] == '-'
  }

  /** No two dashes are adjacent. */
  predicate NoDoubleDash(s: string) {
    forall i :: 0 <= i < |s| - 1 ==> s[i] != '-' || s[i + 1] != '-'
  }

  /** The shape of a slug: lower-case letters, digits and single dashes, with no
      dash at either end. */
  predicate IsSlug(s: string) {
    && InSlugAlphabet(s)
    && NoDoubleDash(s)
    && (|s| > 0 ==> s[0] != '-' && s[|s| - 1] != '-')
  }

  /** Drops the characters `[^a-z0-9]` from the front of `s`: what the `+` of the
      class consumes after its first character. */
  function SkipNonSlug(s: string): (r: string)
    ensures |r| <= |s|
    ensures r == [] || IsSlugChar(r[0])
  {
    if s == [] || IsSlugChar(s[0]) then s else SkipNonSlug(s[1..])
  }

  /** `re.sub(r'[^a-z0-9]+', '-', s)`: every maximal run of characters outside
      `[a-z0-9]` becomes a single dash. */
  function Collapse(s: string): (r: string)
    ensures |r| <= |s|
    ensures r == [] <==> s == []
    ensures (forall i :: 0 <= i < |s| ==> IsSlugChar(s[i])) ==> r == s
    decreases |s|
  {
    if s == [] then []
    else if IsSlugChar(s[0]) then [s[0]] + Collapse(s[1..])
    else "-" + Collapse(SkipNonSlug(s[1..]))
  }

  /** The substitution leaves only slug characters and single dashes, and starts
      with a dash only where the text starts with a character outside the class. */
  lemma {:induction false} CollapseShape(s: string)
    ensures InSlugAlphabet(Collapse(s)) && NoDoubleDash(Collapse(s))
    ensures |Collapse(s)| > 0 && Collapse(s)[0] == '-' ==> |s| > 0 && !IsSlugChar(s[0])
    decreases |s|
  {
    if s != [] {
      var r := Collapse(s);
      if IsSlugChar(s[0]) {
        var r' := Collapse(s[1..]);
        CollapseShape(s[1..]);
        assert r == [s[0]] + r';
        assert forall i :: 0 < i < |r| ==> r[i] == r'[i - 1];
      } else {
        var k := SkipNonSlug(s[1..]);
        var r' := Collapse(k);
        CollapseShape(k);
        assert r == "-" + r';
        assert forall i :: 0 < i < |r| ==> r[i] == r'[i - 1];
        assert |r'| > 0 ==> r'[0] != '-';
      }
    }
  }

  /** `s.lstrip('-')`. */
  function TrimLeadingDashes(s: string): (r: string)
    ensures |r| <= |s| && r == s[|s| - |r|..]
    ensures r == [] || r[0] != '-'
    ensures forall i :: 0 <= i < |s| - |r| ==> s[i] == '-'
  {
    if s != [] && s[0] == '-' then TrimLeadingDashes(s[1..]) else s
  }

  /** `s.rstrip('-')`. */
  function TrimTrailingDashes(s: string): (r: string)
    ensures |r| <= |s| && r == s[..|r|]
    ensures r == [] || r[|r| - 1] != '-'
    ensures forall i :: |r| <= i < |s| ==> s[i] == '-'
  {
    if s != [] && s[|s| - 1] == '-' then TrimTrailingDashes(s[..|s| - 1]) else s
  }

  /** `s.strip('-')`. */
  function TrimDashes(s: string): (r: string)
  {
    TrimTrailingDashes(TrimLeadingDashes(s))
  }

  /** The slug of a resort name. */
  function Slugify(name: string): (r: string)
    ensures IsSlug(r)
  {
    CollapseShape(Lower(name));
    TrimDashesShape(Collapse(Lower(name)));
    TrimDashes(Collapse(Lower(name)))
  }

  /** Trimming the dashes of a dash-separated string over the slug alphabet
      leaves a slug. */
  lemma TrimDashesShape(s: string)
    requires InSlugAlphabet(s) && NoDoubleDash(s)
    ensures IsSlug(TrimDashes(s))
  {
    var l := TrimLeadingDashes(s);
    var a := |s| - |l|;
    SliceKeepsShape(s, a, a + |TrimTrailingDashes(l)|);
  }

  /** A slice of a dash-separated string over the slug alphabet keeps both properties. */
  lemma SliceKeepsShape(s: string, a: nat, b: nat)
    requires a <= b <= |s|
    requires InSlugAlphabet(s) && NoDoubleDash(s)
    ensures InSlugAlphabet(s[a..b]) && NoDoubleDash(s[a..b])
  {
    var t := s[a..b];
    forall i | 0 <= i < |t| - 1
      ensures t[i] != '-' || t[i + 1] != '-'
    {
      assert t[i] == s[a + i] && t[i + 1] == s[a + i + 1];
    }
  }

  /** Lower-casing leaves the slug alphabet alone. */
  lemma LowerOfSlugAlphabet(s: string)
    requires InSlugAlphabet(s)
    ensures Lower(s) == s
  {
  }

  /** On a string over the slug alphabet without double dashes every run of
      non-slug characters is a single dash, so the substitution changes nothing. */
  lemma {:induction false} CollapseFixed(s: string)
    requires InSlugAlphabet(s) && NoDoubleDash(s)
    ensures Collapse(s) == s
    decreases |s|
  {
    if s != [] {
      SliceKeepsShape(s, 1, |s|);
      CollapseFixed(s[1..]);
      if !IsSlugChar(s[0]) {
        assert s[0] == '-';
        assert SkipNonSlug(s[1..]) == s[1..] by {
          assert s[1..] == [] || s[1] != '-';
        }
      }
    }
  }

  /** A slug is a fixed point of `Slugify`, and only a slug is. */
  lemma SlugifyFixedPoint(s: string)
    ensures Slugify(s) == s <==> IsSlug(s)
  {
    if IsSlug(s) {
      LowerOfSlugAlphabet(s);
      CollapseFixed(s);
      assert TrimLeadingDashes(s) == s;
      assert TrimTrailingDashes(s) == s;
    }
  }

  /** Slugging a slug changes nothing. */
  lemma SlugifyIdempotent(name: string)
    ensures Slugify(Slugify(name)) == Slugify(name)
  {
    SlugifyFixedPoint(Slugify(name));
  }

  /** A run of slug characters is kept by the substitution. */
  lemma {:induction false} CollapseKeepsAll(a: string, rest: string)
    requires forall i :: 0 <= i < |a| ==> IsSlugChar(a[i])
    ensures Collapse(a + rest) == a + Collapse(rest)
    decreases |a|
  {
    if a != [] {
      var x := a + rest;
      assert x[0] == a[0];
      assert x[1..] == a[1..] + rest;
      assert Collapse(x) == [a[0]] + Collapse(a[1..] + rest);
      CollapseKeepsAll(a[1..], rest);
      assert [a[0]] + (a[1..] + Collapse(rest)) == a + Collapse(rest) by {
        assert a == [a[0]] + a[1..];
      }
    } else {
      assert a + rest == rest && a + Collapse(rest) == Collapse(rest);
    }
  }

  /** The `+` of the class consumes a whole run of separators. */
  lemma {:induction false} SkipSeparator(sep: string, b: string)
    requires forall i :: 0 <= i < |sep| ==> !IsSlugChar(sep[i])
    requires b == [] || IsSlugChar(b[0])
    ensures SkipNonSlug(sep + b) == b
    decreases |sep|
  {
    if sep == [] {
      assert sep + b == b;
    } else {
      assert (sep + b)[1..] == sep[1..] + b;
      SkipSeparator(sep[1..], b);
    }
  }

  /** A run of separators before a word becomes one dash. */
  lemma CollapseSeparator(sep: string, b: string)
    requires |sep| > 0 && forall i :: 0 <= i < |sep| ==> !IsSlugChar(sep[i])
    requires |b| > 0 && forall i :: 0 <= i < |b| ==> IsSlugChar(b[i])
    ensures Collapse(sep + b) == "-" + b
  {
    var x := sep + b;
    assert x[0] == sep[0] && x[1..] == sep[1..] + b;
    assert Collapse(x) == "-" + Collapse(SkipNonSlug(sep[1..] + b));
    SkipSeparator(sep[1..], b);
    CollapseFixed(b);
  }

  /** Two words of slug characters with punctuation or whitespace between them
      (`"vail" + " - " + "2"`) slug to the words joined by one dash. */
  lemma SlugOfWords(a: string, sep: string, b: string)
    requires |a| > 0 && forall i :: 0 <= i < |a| ==> IsSlugChar(a[i])
    requires |b| > 0 && forall i :: 0 <= i < |b| ==> IsSlugChar(b[i])
    requires |sep| > 0 && forall i :: 0 <= i < |sep| ==> !IsSlugChar(sep[i]) && !IsUpperLetter(sep[i])
    ensures Slugify(a + sep + b) == a + "-" + b
  {
    var name := a + (sep + b);
    assert a + sep + b == name;
    forall i | 0 <= i < |name|
      ensures !IsUpperLetter(name[i])
    {
      if i < |a| {
        assert name[i] == a[i];
      } else if i < |a| + |sep| {
        assert name[i] == sep[i - |a|];
      } else {
        assert name[i] == b[i - |a| - |sep|];
      }
    }
    assert Lower(name) == name;
    CollapseKeepsAll(a, sep + b);
    CollapseSeparator(sep, b);
    var c := a + ("-" + b);
    assert c[0] == a[0] && c[|c| - 1] == b[|b| - 1];
    assert TrimLeadingDashes(c) == c;
    assert TrimTrailingDashes(c) == c;
    assert c == a + "-" + b;
  }
}

=== FILE: stable_sort.dfy ===
/** Python's `list.sort(key=...)`: a stable sort, here by a real-valued key in
    ascending order, written as an insertion sort on sequences. A sort with
    `reverse=True` is the ascending sort by the negated key: Python's reverse
    sort keeps equal elements in their original order too. */
module StableSort {

  /** Keys never decrease along `s`. */
  predicate SortedBy<T>(s: seq<T>, key: T -> real) {
    forall i, j :: 0 <= i < j < |s| ==> key(s[i]) <= key(s[j])
  }

  /** The elements of `s` whose key is `v`, in their order in `s`. */
  function KeyClass<T>(s: seq<T>, key: T -> real, v: real): (c: seq<T>)
    ensures |c| <= |s|
  {
    if s == [] then []
    else (if key(s[0]) == v then [s[0]] else []) + KeyClass(s[1..], key, v)
  }

  /** `x` placed in front of the first element whose key is not smaller. */
  function Insert<T>(x: T, s: seq<T>, key: T -> real): (r: seq<T>)
    ensures |r| == |s| + 1
  {
    if s == [] || key(x) <= key(s[0]) then [x] + s
    else [s[0]] + Insert(x, s[1..], key)
  }

  /** Sorting by insertion, the earliest element inserted last so that it goes
      in front of every element with an equal key. */
  function SortBy<T>(xs: seq<T>, key: T -> real): (r: seq<T>)
    ensures |r| == |xs|
  {
    if xs == [] then [] else Insert(xs[0], SortBy(xs[1..], key), key)
  }

  lemma {:induction false} InsertSorted<T>(x: T, s: seq<T>, key: T -> real)
    requires SortedBy(s, key)
    ensures SortedBy(Insert(x, s, key), key)
    ensures Insert(x, s, key) != [] && (key(Insert(x, s, key)[0]) == key(x) || (s != [] && key(Insert(x, s, key)[0]) == key(s[0])))
    decreases |s|
  {
    if s != [] && key(x) > key(s[0]) {
      InsertSorted(x, s[1..], key);
      var t := Insert(x, s[1..], key);
      assert forall j :: 0 <= j < |t| ==> key(s[0]) <= key(t[j]) by {
        InsertKeys(x, s[1..], key);
      }
    }
  }

  /** Insertion adds `x` and keeps every element of `s`. */
  lemma {:induction false} InsertKeys<T>(x: T, s: seq<T>, key: T -> real)
    ensures multiset(Insert(x, s, key)) == multiset(s) + multiset{x}
    ensures forall j :: 0 <= j < |Insert(x, s, key)| ==> Insert(x, s, key)[j] == x || Insert(x, s, key)[j] in s
    decreases |s|
  {
    if s != [] && key(x) > key(s[0]) {
      InsertKeys(x, s[1..], key);
      assert s == [s[0]] + s[1..];
    }
  }

  /** The result is ordered by the key. */
  lemma {:induction false} SortSorted<T>(xs: seq<T>, key: T -> real)
    ensures SortedBy(SortBy(xs, key), key)
    decreases |xs|
  {
    if xs != [] {
      SortSorted(xs[1..], key);
      InsertSorted(xs[0], SortBy(xs[1..], key), key);
    }
  }

  /** The result is a permutation of the input. */
  lemma {:induction false} SortPermutes<T>(xs: seq<T>, key: T -> real)
    ensures multiset(SortBy(xs, key)) == multiset(xs)
    decreases |xs|
  {
    if xs != [] {
      SortPermutes(xs[1..], key);
      InsertKeys(xs[0], SortBy(xs[1..], key), key);
      assert xs == [xs[0]] + xs[1..];
    }
  }

  /** Inserting `x` puts it in front of every element with its key. */
  lemma {:induction false} InsertClass<T>(x: T, s: seq<T>, key: T -> real, v: real)
    ensures KeyClass(Insert(x, s, key), key, v) ==
      (if key(x) == v then [x] else []) + KeyClass(s, key, v)
    decreases |s|
  {
    if s != [] && key(x) > key(s[0]) {
      InsertClass(x, s[1..], key, v);
      var t := Insert(x, s[1..], key);
      var head := if key(s[0]) == v then [s[0]] else [];
      assert ([s[0]] + t)[1..] == t;
      assert KeyClass([s[0]] + t, key, v) == head + KeyClass(t, key, v);
      assert KeyClass(s, key, v) == head + KeyClass(s[1..], key, v);
      assert key(x) == v ==> head == [];
    } else {
      assert ([x] + s)[1..] == s;
    }
  }

  /** Stability: the elements sharing any one key come out in their input
      order. */
  lemma {:induction false} SortStable<T>(xs: seq<T>, key: T -> real, v: real)
    ensures KeyClass(SortBy(xs, key), key, v) == KeyClass(xs, key, v)
    decreases |xs|
  {
    if xs != [] {
      SortStable(xs[1..], key, v);
      InsertClass(xs[0], SortBy(xs[1..], key), key, v);
    }
  }

  /** Sorting neither adds nor drops an element. */
  lemma SortMembers<T>(xs: seq<T>, key: T -> real, x: T)
    ensures x in SortBy(xs, key) <==> x in xs
  {
    SortPermutes(xs, key);
    assert x in SortBy(xs, key) <==> x in multiset(SortBy(xs, key));
    assert x in xs <==> x in multiset(xs);
  }

  /** Input already in key order is left as it is. */
  lemma {:induction false} SortOfSorted<T>(xs: seq<T>, key: T -> real)
    requires SortedBy(xs, key)
    ensures SortBy(xs, key) == xs
    decreases |xs|
  {
    if xs != [] {
      assert SortedBy(xs[1..], key);
      SortOfSorted(xs[1..], key);
      var s := xs[1..];
      assert s == [] || key(xs[0]) <= key(s[0]);
      assert xs == [xs[0]] + s;
    }
  }
}

=== FILE: text.dfy ===
/** Character classes, decimal conversion and the `str` helpers the scraper,
    the geocoder and the formatters rely on. Only ASCII is modelled: Python's
    `\d`, `\s`, `lower()` and `upper()` also act on other Unicode code points. */
module Text {

  import Wrappers

  // ---------------------------------------------------------------- characters

  predicate IsDigit(c: char) {
    '0' <= c <= '9'
  }

  predicate IsUpperLetter(c: char) {
    'A' <= c <= 'Z'
  }

  predicate IsLowerLetter(c: char) {
    'a' <= c <= 'z'
  }

  predicate IsLetter(c: char) {
    IsUpperLetter(c) || IsLowerLetter(c)
  }

  /** The characters `str.isspace()` and the regex class `\s` accept within ASCII:
      tab, line feed, vertical tab, form feed and carriage return (9 to 13), and
      the four separators 28 to 31 followed by the space (32). */
  predicate IsSpace(c: char) {
    ('\t' <= c <= '\r') || ('\U{1C}' <= c <= ' ')
  }

  function ToLower(c: char): (r: char)
    ensures IsUpperLetter(c) ==> IsLowerLetter(r)
    ensures !IsUpperLetter(c) ==> r == c
  {
    if IsUpperLetter(c) then (c as int - 'A' as int + 'a' as int) as char else c
  }

  function ToUpper(c: char): (r: char)
    ensures IsLowerLetter(c) ==> IsUpperLetter(r)
    ensures !IsLowerLetter(c) ==> r == c
  {
    if IsLowerLetter(c) then (c as int - 'a' as int + 'A' as int) as char else c
  }

  /** `str.lower()`, character by character. */
  function Lower(s: string): (r: string)
    ensures |r| == |s|
    ensures forall i :: 0 <= i < |s| ==> r[i] == ToLower(s[i])
  {
    if s == [] then [] else [ToLower(s[0])] + Lower(s[1..])
  }

  /** `str.upper()`, character by character. */
  function Upper(s: string): (r: string)
    ensures |r| == |s|
    ensures forall i :: 0 <= i < |s| ==> r[i] == ToUpper(s[i])
  {
    seq(|s|, i requires 0 <= i < |s| => ToUpper(s[i]))
  }

  /** The literal `lit` occurs in `s` at offset `i`. */
  predicate LiteralAt(s: string, i: nat, lit: string) {
    i + |lit| <= |s| && s[i..i + |lit|] == lit
  }

  /** The literal `lit` occurs in `s` at offset `i`, ignoring ASCII case, as a
      regular expression compiled with `re.IGNORECASE` compares literals. */
  predicate LiteralAtIgnoreCase(s: string, i: nat, lit: string) {
    i + |lit| <= |s| && forall k :: 0 <= k < |lit| ==> ToLower(s[i + k]) == ToLower(lit[k])
  }

  /** `x` is written in `t` from offset `a` on. */
  predicate WrittenAt(t: string, a: nat, x: string) {
    a + |x| <= |t| && forall q :: 0 <= q < |x| ==> t[a + q] == x[q]
  }

  /** A concatenation holds both its parts. */
  lemma WrittenPieces(x: string, y: string)
    ensures WrittenAt(x + y, 0, x) && WrittenAt(x + y, |x|, y)
  {
    forall q | 0 <= q < |y|
      ensures (x + y)[|x| + q] == y[q]
    {
    }
  }

  /** What is written as a concatenation is written piece by piece. */
  lemma WrittenSplit(t: string, a: nat, x: string, y: string)
    requires WrittenAt(t, a, x + y)
    ensures WrittenAt(t, a, x) && WrittenAt(t, a + |x|, y)
  {
    forall q | 0 <= q < |x|
      ensures t[a + q] == x[q]
    {
      assert (x + y)[q] == x[q];
    }
    forall q | 0 <= q < |y|
      ensures t[a + |x| + q] == y[q]
    {
      assert (x + y)[|x| + q] == y[q];
    }
  }

  /** A single written character. */
  lemma WrittenChar(t: string, a: nat, c: char)
    requires WrittenAt(t, a, [c])
    ensures a < |t| && t[a] == c
  {
    assert t[a + 0] == [c][0];
  }

  /** The characters of a written string, by their offset in the text. */
  lemma WrittenChars(t: string, a: nat, x: string)
    requires WrittenAt(t, a, x)
    ensures forall k :: a <= k < a + |x| ==> t[k] == x[k - a]
  {
    forall k | a <= k < a + |x|
      ensures t[k] == x[k - a]
    {
      assert t[a + (k - a)] == x[k - a];
    }
  }

  /** Python's `sub in s`. */
  predicate Contains(s: string, sub: string) {
    exists i :: 0 <= i <= |s| && LiteralAt(s, i, sub)
  }

  predicate EndsWith(s: string, suffix: string) {
    |suffix| <= |s| && s[|s| - |suffix|..] == suffix
  }

  // ---------------------------------------------------------------- digits

  predicate AllDigits(s: string) {
    forall i :: 0 <= i < |s| ==> IsDigit(s[i])
  }

  function DigitValue(c: char): (d: nat)
    requires IsDigit(c)
    ensures d < 10
  {
    c as int - '0' as int
  }

  function DigitChar(d: nat): (c: char)
    requires d < 10
    ensures IsDigit(c) && DigitValue(c) == d
  {
    ('0' as int + d) as char
  }

  /** The value of a decimal digit string, most significant digit first
      (Python's `int(s)` for a non-empty string of ASCII digits). */
  function DigitsValue(s: string): nat
    requires AllDigits(s)
  {
    if s == [] then 0 else 10 * DigitsValue(s[..|s| - 1]) + DigitValue(s[|s| - 1])
  }

  /** Python's `int(s)` on a string of ASCII digits: the empty string raises
      `ValueError`. */
  function ParseDigits(s: string): (r: Wrappers.Result<nat>)
    requires AllDigits(s)
    ensures r.Err? <==> s == []
  {
    if s == [] then Wrappers.Err("ValueError") else Wrappers.Ok(DigitsValue(s))
  }

  /** The longest prefix of `s` made of digits: what a greedy `\d+` (or `\d*`)
      consumes when it starts at offset 0. */
  function LeadingDigits(s: string): (r: string)
    ensures |r| <= |s| && r == s[..|r|]
    ensures AllDigits(r)
    ensures |r| == |s| || !IsDigit(s[|r|])
  {
    if s != [] && IsDigit(s[0]) then [s[0]] + LeadingDigits(s[1..]) else []
  }

  /** The number of consecutive characters of `s` from offset `i` on that satisfy `IsSpace`. */
  function SpaceRun(s: string, i: nat): (n: nat)
    requires i <= |s|
    ensures i + n <= |s|
    ensures i + n == |s| || !IsSpace(s[i + n])
    decreases |s| - i
  {
    if i < |s| && IsSpace(s[i]) then 1 + SpaceRun(s, i + 1) else 0
  }

  /** The number of consecutive digits of `s` from offset `i` on. */
  function DigitRun(s: string, i: nat): (n: nat)
    requires i <= |s|
    ensures i + n <= |s|
    ensures i + n == |s| || !IsDigit(s[i + n])
    decreases |s| - i
  {
    if i < |s| && IsDigit(s[i]) then 1 + DigitRun(s, i + 1) else 0
  }

  /** Every character a whitespace run covers is whitespace. */
  lemma {:induction false} SpaceRunChars(s: string, i: nat)
    requires i <= |s|
    ensures forall k :: i <= k < i + SpaceRun(s, i) ==> IsSpace(s[k])
    decreases |s| - i
  {
    if i < |s| && IsSpace(s[i]) {
      SpaceRunChars(s, i + 1);
    }
  }

  /** Every character a digit run covers is a digit. */
  lemma {:induction false} DigitRunChars(s: string, i: nat)
    requires i <= |s|
    ensures forall k :: i <= k < i + DigitRun(s, i) ==> IsDigit(s[k])
    decreases |s| - i
  {
    if i < |s| && IsDigit(s[i]) {
      DigitRunChars(s, i + 1);
    }
  }

  /** The value of the digits `s[i..j]`, most significant first, read in place. */
  function RunValue(s: string, i: nat, j: nat): nat
    requires i <= j <= |s|
    requires forall k :: i <= k < j ==> IsDigit(s[k])
    decreases j - i
  {
    if j == i then 0 else 10 * RunValue(s, i, j - 1) + DigitValue(s[j - 1])
  }

  /** Reading digits in place agrees with reading the slice that holds them. */
  lemma {:induction false} RunValueOfSlice(s: string, i: nat, j: nat)
    requires i <= j <= |s|
    requires forall k :: i <= k < j ==> IsDigit(s[k])
    ensures AllDigits(s[i..j]) && RunValue(s, i, j) == DigitsValue(s[i..j])
    decreases j - i
  {
    if j > i {
      RunValueOfSlice(s, i, j - 1);
      assert s[i..j][..j - i - 1] == s[i..j - 1];
    }
  }

  /** The value of the digit run at `i` (0 for an empty run). */
  function NumberAt(s: string, i: nat): nat
    requires i <= |s|
  {
    DigitRunChars(s, i);
    RunValue(s, i, i + DigitRun(s, i))
  }
  /** Where a digit string is written, followed by a non-digit or the end, the
      number read there is its value. */
  lemma NumberAtWritten(t: string, i: nat, d: string)
    requires AllDigits(d) && WrittenAt(t, i, d)
    requires i + |d| == |t| || !IsDigit(t[i + |d|])
    ensures DigitRun(t, i) == |d| && NumberAt(t, i) == DigitsValue(d)
  {
    WrittenChars(t, i, d);
    DigitRunUpTo(t, i, |d|);
    RunValueOfSlice(t, i, i + |d|);
    assert t[i..i + |d|] == d;
  }

  /** A greedy `\d+` at offset 0 consumes exactly the first `n` characters when
      they are digits and the next one is not. */
  lemma {:induction false} LeadingDigitsUpTo(s: string, n: nat)
    requires n <= |s| && AllDigits(s[..n])
    requires n == |s| || !IsDigit(s[n])
    ensures LeadingDigits(s) == s[..n]
    decreases n
  {
    if n == 0 {
      assert s == [] || !IsDigit(s[0]);
    } else {
      assert s[0] == s[..n][0];
      assert s[1..][..n - 1] == s[..n][1..];
      LeadingDigitsUpTo(s[1..], n - 1);
      assert s[..n] == [s[0]] + s[1..][..n - 1];
    }
  }

  /** The digit run from `i` is exactly `n` long when the `n` characters from
      `i` on are digits and the next one is not. */
  lemma {:induction false} DigitRunUpTo(s: string, i: nat, n: nat)
    requires i + n <= |s|
    requires forall k :: i <= k < i + n ==> IsDigit(s[k])
    requires i + n == |s| || !IsDigit(s[i + n])
    ensures DigitRun(s, i) == n
    decreases n
  {
    if n > 0 {
      DigitRunUpTo(s, i + 1, n - 1);
    }
  }

  /** The whitespace run from `i` is exactly `n` long when the `n` characters
      from `i` on are whitespace and the next one is not. */
  lemma {:induction false} SpaceRunUpTo(s: string, i: nat, n: nat)
    requires i + n <= |s|
    requires forall k :: i <= k < i + n ==> IsSpace(s[k])
    requires i + n == |s| || !IsSpace(s[i + n])
    ensures SpaceRun(s, i) == n
    decreases n
  {
    if n > 0 {
      SpaceRunUpTo(s, i + 1, n - 1);
    }
  }

  /** A greedy `\d+` stops exactly where the digits stop. */
  lemma LeadingDigitsOfConcat(d: string, rest: string)
    requires AllDigits(d)
    requires rest == [] || !IsDigit(rest[0])
    ensures LeadingDigits(d + rest) == d
  {
    if d != [] {
      assert (d + rest)[1..] == d[1..] + rest;
      LeadingDigitsOfConcat(d[1..], rest);
    }
  }

  function Pow10(n: nat): (p: nat)
    ensures p >= 1
  {
    if n == 0 then 1 else 10 * Pow10(n - 1)
  }

  /** The value of a concatenation of digit strings: the left part is shifted by
      the length of the right part. */
  lemma {:induction false} DigitsValueOfConcat(a: string, b: string)
    requires AllDigits(a) && AllDigits(b)
    ensures AllDigits(a + b)
    ensures DigitsValue(a + b) == DigitsValue(a) * Pow10(|b|) + DigitsValue(b)
    decreases |b|
  {
    if b != [] {
      var b' := b[..|b| - 1];
      var ab := a + b;
      assert ab[..|ab| - 1] == a + b';
      assert ab[|ab| - 1] == b[|b| - 1];
      DigitsValueOfConcat(a, b');
      var x := DigitsValue(a);
      var p := Pow10(|b'|);
      var y := DigitsValue(b');
      var d := DigitValue(b[|b| - 1]);
      assert DigitsValue(ab) == 10 * (x * p + y) + d;
      assert DigitsValue(b) == 10 * y + d;
      assert Pow10(|b|) == 10 * p;
      ShiftByTen(x, p);
    } else {
      assert a + b == a;
    }
  }

  lemma ShiftByTen(x: int, p: int)
    ensures 10 * (x * p) == x * (10 * p)
  {
  }

  /** The decimal spelling of a natural number, as `str(n)` prints it. */
  function NatToString(n: nat): (s: string)
    ensures |s| > 0 && AllDigits(s)
    ensures n > 0 ==> s[0] != '0'
    decreases n
  {
    if n < 10 then [DigitChar(n)] else NatToString(n / 10) + [DigitChar(n % 10)]
  }

  /** The decimal spelling of an integer, with a leading `-` when negative (`str(i)`). */
  function IntToString(i: int): (s: string)
    ensures |s| > 0
    ensures IsDigit(s[0]) || s[0] == '-'
    ensures i >= 0 ==> AllDigits(s)
  {
    if i < 0 then "-" + NatToString(-i) else NatToString(i)
  }

  /** Reading back a printed natural number gives the number: `int(str(n)) == n`. */
  lemma {:induction false} NatToStringRoundTrip(n: nat)
    ensures DigitsValue(NatToString(n)) == n
    decreases n
  {
    if n >= 10 {
      var s := NatToString(n);
      var p := NatToString(n / 10);
      assert s == p + [DigitChar(n % 10)];
      assert s[..|s| - 1] == p;
      NatToStringRoundTrip(n / 10);
    }
  }

  // ---------------------------------------------------------------- stripping

  function StripLeft(s: string): (r: string)
    ensures |r| <= |s| && r == s[|s| - |r|..]
    ensures forall k :: 0 <= k < |s| - |r| ==> IsSpace(s[k])
    ensures r == [] || !IsSpace(r[0])
  {
    if s != [] && IsSpace(s[0]) then StripLeft(s[1..]) else s
  }

  function StripRight(s: string): (r: string)
    ensures |r| <= |s| && r == s[..|r|]
    ensures forall k :: |r| <= k < |s| ==> IsSpace(s[k])
    ensures r == [] || !IsSpace(r[|r| - 1])
  {
    if s != [] && IsSpace(s[|s| - 1]) then StripRight(s[..|s| - 1]) else s
  }

  /** How many characters `strip()` cuts from the front of `s`. */
  function StripOffset(s: string): (i: nat)
    ensures i <= |s|
  {
    |s| - |StripLeft(s)|
  }

  /** Python's `str.strip()` with no argument: the slice of `s` that neither
      starts nor ends with whitespace, everything cut on either side being whitespace. */
  function Strip(s: string): (r: string)
    ensures StripOffset(s) + |r| <= |s| && r == s[StripOffset(s)..StripOffset(s) + |r|]
    ensures forall k :: 0 <= k < StripOffset(s) ==> IsSpace(s[k])
    ensures forall k :: StripOffset(s) + |r| <= k < |s| ==> IsSpace(s[k])
    ensures r == [] || (!IsSpace(r[0]) && !IsSpace(r[|r| - 1]))
  {
    StripRight(StripLeft(s))
  }

  /** A string with no surrounding whitespace is left alone by `strip()`. */
  lemma StripOfStripped(s: string)
    requires s == [] || (!IsSpace(s[0]) && !IsSpace(s[|s| - 1]))
    ensures Strip(s) == s
  {
  }

  // ---------------------------------------------------------------- split / join

  /** Python's `sep.join(parts)`. */
  function Join(parts: seq<string>, sep: string): string
  {
    if |parts| == 0 then ""
    else if |parts| == 1 then parts[0]
    else parts[0] + sep + Join(parts[1..], sep)
  }

  /** The first offset from `i` on where `sep` is written, or `|s|` when
      there is none. */
  function FindFrom(s: string, sep: string, i: nat): (r: nat)
    requires i <= |s|
    ensures i <= r <= |s|
    ensures forall k :: i <= k < r ==> !WrittenAt(s, k, sep)
    ensures r < |s| ==> WrittenAt(s, r, sep)
    decreases |s| - i
  {
    if i == |s| then |s| else if WrittenAt(s, i, sep) then i else FindFrom(s, sep, i + 1)
  }

  /** Python's `s.split(sep)` for a non-empty separator: cut at each leftmost
      occurrence in turn; joining the pieces with `sep` gives `s` back. */
  function SplitOn(s: string, sep: string): (parts: seq<string>)
    requires |sep| > 0
    ensures |parts| >= 1
    ensures Join(parts, sep) == s
    decreases |s|
  {
    var i := FindFrom(s, sep, 0);
    if i == |s| then [s]
    else
      var rest := SplitOn(s[i + |sep|..], sep);
      assert s[i..i + |sep|] == sep by {
        forall q | 0 <= q < |sep| ensures s[i..i + |sep|][q] == sep[q] {
          assert s[i + q] == sep[q];
        }
      }
      assert s == s[..i] + sep + s[i + |sep|..];
      [s[..i]] + rest
  }

  /** A text without the character `sep[d]` holds no occurrence of `sep`. */
  lemma NoSeparatorIn(s: string, sep: string, d: nat)
    requires d < |sep|
    requires forall q :: 0 <= q < |s| ==> s[q] != sep[d]
    ensures forall k :: 0 <= k <= |s| ==> !WrittenAt(s, k, sep)
    ensures FindFrom(s, sep, 0) == |s|
  {
    forall k | 0 <= k <= |s|
      ensures WrittenAt(s, k, sep) ==> k + d < |s| && s[k + d] == sep[d]
    {
    }
  }

  /** In `p + sep + rest`, the first occurrence of `sep` is the one after `p`,
      when `sep[d]` appears neither in `p` nor elsewhere in `sep`. */
  lemma FirstSeparator(p: string, sep: string, rest: string, d: nat)
    requires d < |sep|
    requires forall k :: 0 <= k < |sep| && k != d ==> sep[k] != sep[d]
    requires forall q :: 0 <= q < |p| ==> p[q] != sep[d]
    ensures FindFrom(p + sep + rest, sep, 0) == |p|
  {
    var s := p + sep + rest;
    assert WrittenAt(s, |p|, sep);
    forall k | 0 <= k < |p|
      ensures !WrittenAt(s, k, sep)
    {
      if k + d < |p| {
        assert s[k + d] == p[k + d];
      } else {
        assert s[k + d] == sep[k + d - |p|];
      }
      assert s[k + d] != sep[d];
    }
  }

  /** Splitting a join gives the parts back, when the separator holds a
      character `sep[d]` that appears nowhere else in it and in no part. */
  lemma {:induction false} SplitOnJoin(parts: seq<string>, sep: string, d: nat)
    requires |parts| > 0 && d < |sep|
    requires forall k :: 0 <= k < |sep| && k != d ==> sep[k] != sep[d]
    requires forall k, q :: 0 <= k < |parts| && 0 <= q < |parts[k]| ==> parts[k][q] != sep[d]
    ensures SplitOn(Join(parts, sep), sep) == parts
    decreases |parts|
  {
    var p := parts[0];
    assert forall q :: 0 <= q < |p| ==> p[q] != sep[d];
    if |parts| == 1 {
      NoSeparatorIn(p, sep, d);
    } else {
      var rest := Join(parts[1..], sep);
      assert Join(parts, sep) == p + sep + rest;
      FirstSeparator(p, sep, rest, d);
      SplitOnFirst(p, sep, rest);
      SplitOnJoin(parts[1..], sep, d);
      assert parts == [p] + parts[1..];
    }
  }

  /** When the first separator follows `p`, splitting cuts `p` off first. */
  lemma SplitOnFirst(p: string, sep: string, rest: string)
    requires |sep| > 0
    requires FindFrom(p + sep + rest, sep, 0) == |p|
    ensures SplitOn(p + sep + rest, sep) == [p] + SplitOn(rest, sep)
  {
    var s := p + sep + rest;
    assert s[..|p|] == p;
    assert s[|p| + |sep|..] == rest;
  }

  /** The offset of the first `c` in `s`, or `|s|` when there is none. */
  function IndexOf(s: string, c: char): (i: nat)
    ensures i <= |s|
    ensures forall k :: 0 <= k < i ==> s[k] != c
    ensures i < |s| ==> s[i] == c
  {
    if s == [] then 0 else if s[0] == c then 0 else 1 + IndexOf(s[1..], c)
  }

  /** Python's `s.split(c)` for a one-character separator: never empty, and the
      separators are exactly the characters between consecutive parts. */
  function Split(s: string, c: char): (parts: seq<string>)
    ensures |parts| >= 1
    ensures forall k :: 0 <= k < |parts| ==> c !in parts[k]
    ensures Join(parts, [c]) == s
    decreases |s|
  {
    var i := IndexOf(s, c);
    if i == |s| then [s]
    else
      var rest := Split(s[i + 1..], c);
      assert s == s[..i] + [c] + s[i + 1..];
      [s[..i]] + rest
  }
}

=== FILE: trails_lifts.dfy ===
/** The trails/lifts disambiguator of the table layout (resorts/scraper.py,
    `parse_trails_lifts_text`). A cell such as `9/1476% Open` runs the total and
    the percentage together; the parser tries every way of cutting a 3-, 2- or
    1-digit percentage off the end and keeps the cut whose percentage agrees best
    with `open / total`, penalising implausibly large totals. */
module TrailsLifts {

  import opened Wrappers
  import opened Text
  import opened Rounding

  /** The `(open, total)` pair a cell yields; `Unknown` is Python's `(None, None)`. */
  datatype Counts = Unknown | Known(open: nat, total: nat)

  /** How the start of the cell matches the two regular expressions
      `^(\d+)/(\d+)%` (`Percent`) and `^(\d+)/(\d+)` (`Bare`, when no `%` follows). */
  datatype Shape =
    | NoMatch
    | Percent(open: nat, combined: string)
    | Bare(open: nat, total: nat)

  /** One admissible split of `combined`: the leading digits are the total, the
      last `pctLen` digits the percentage, and `score` is lower for better splits. */
  datatype Candidate = Candidate(total: nat, pct: nat, pctLen: nat, score: nat)

  /** Matches the leading `open/combined` of `text`; both digit groups are greedy. */
  function MatchShape(text: string): (m: Shape)
    ensures m.Percent? ==> |m.combined| > 0 && AllDigits(m.combined)
  {
    var a := LeadingDigits(text);
    if |a| == 0 || |a| == |text| || text[|a|] != '/' then NoMatch
    else
      var rest := text[|a| + 1..];
      var b := LeadingDigits(rest);
      if |b| == 0 then NoMatch
      else if |b| < |rest| && rest[|b|] == '%' then Percent(DigitsValue(a), b)
      else Bare(DigitsValue(a), DigitsValue(b))
  }

  /** Penalty for implausible totals: most resorts have far fewer than 500 trails. */
  function RealismPenalty(total: nat): (p: nat)
    ensures total > 1000 ==> p == 500
    ensures 500 < total <= 1000 ==> p == 100
    ensures total <= 500 ==> p == 0
  {
    if total > 1000 then 500 else if total > 500 then 100 else 0
  }

  /** The total obtained by cutting the last `k` digits off `combined`. */
  function SplitTotal(combined: string, k: nat): nat
    requires AllDigits(combined) && k < |combined|
  {
    RunValue(combined, 0, |combined| - k)
  }

  /** The percentage formed by the last `k` digits of `combined`. */
  function SplitPct(combined: string, k: nat): nat
    requires AllDigits(combined) && k < |combined|
  {
    RunValue(combined, |combined| - k, |combined|)
  }

  /** Cutting `k` digits is admissible: a percentage in 0..100 and a positive
      total that is at least the open count. */
  predicate ValidSplit(open: nat, combined: string, k: nat)
    requires AllDigits(combined)
  {
    k < |combined| && SplitPct(combined, k) <= 100
    && SplitTotal(combined, k) > 0 && SplitTotal(combined, k) >= open
  }

  /** How far the percentage recomputed from `open / total` is from the parsed
      one, plus the realism penalty of the total. */
  function SplitScore(open: nat, combined: string, k: nat): nat
    requires AllDigits(combined) && k < |combined|
  {
    var total := SplitTotal(combined, k);
    if total == 0 then RealismPenalty(0)
    else Abs(RoundRatio(open * 100, total) - SplitPct(combined, k)) + RealismPenalty(total)
  }

  /** The candidate for a cut of `k` digits, when that cut is admissible. */
  function TrySplit(open: nat, combined: string, k: nat): (c: Option<Candidate>)
    requires AllDigits(combined)
    ensures c.Some? <==> ValidSplit(open, combined, k)
    ensures c.Some? ==> c.value.total == SplitTotal(combined, k) && c.value.pctLen == k
                        && c.value.pct == SplitPct(combined, k)
                        && c.value.score == SplitScore(open, combined, k)
  {
    if ValidSplit(open, combined, k)
    then Some(Candidate(SplitTotal(combined, k), SplitPct(combined, k), k, SplitScore(open, combined, k)))
    else None
  }

  function OptionToSeq<T>(o: Option<T>): (s: seq<T>)
    ensures |s| <= 1
    ensures o.Some? <==> |s| == 1
    ensures o.Some? ==> s[0] == o.value
  {
    if o.Some? then [o.value] else []
  }

  /** `c` is the candidate of an admissible cut of 1 to 3 digits. */
  predicate IsCut(open: nat, combined: string, c: Candidate)
    requires AllDigits(combined)
  {
    1 <= c.pctLen <= 3 && TrySplit(open, combined, c.pctLen) == Some(c)
  }

  /** The admissible cuts, tried with percentage lengths 3, 2, 1 in that order. */
  function Candidates(open: nat, combined: string): (cs: seq<Candidate>)
    requires AllDigits(combined)
    ensures forall i :: 0 <= i < |cs| ==> IsCut(open, combined, cs[i])
    ensures forall i, j :: 0 <= i < j < |cs| ==> cs[i].pctLen > cs[j].pctLen
  {
    var a := OptionToSeq(TrySplit(open, combined, 3));
    var b := OptionToSeq(TrySplit(open, combined, 2));
    var d := OptionToSeq(TrySplit(open, combined, 1));
    assert forall i :: 0 <= i < |a| ==> a[i].pctLen == 3 && IsCut(open, combined, a[i]);
    assert forall i :: 0 <= i < |b| ==> b[i].pctLen == 2 && IsCut(open, combined, b[i]);
    assert forall i :: 0 <= i < |d| ==> d[i].pctLen == 1 && IsCut(open, combined, d[i]);
    a + b + d
  }

  /** Every admissible cut appears among the candidates. */
  lemma CandidatesComplete(open: nat, combined: string, k: nat)
    requires AllDigits(combined)
    requires 1 <= k <= 3 && ValidSplit(open, combined, k)
    ensures exists i :: 0 <= i < |Candidates(open, combined)| && Candidates(open, combined)[i].pctLen == k
  {
    var a := OptionToSeq(TrySplit(open, combined, 3));
    var b := OptionToSeq(TrySplit(open, combined, 2));
    var cs := Candidates(open, combined);
    if k == 3 {
      assert cs[0].pctLen == 3;
    } else if k == 2 {
      assert cs[|a|].pctLen == 2;
    } else {
      assert cs[|a| + |b|].pctLen == 1;
    }
  }

  /** The position of the candidate a stable sort by score puts first: a least
      score, and strictly better than every candidate before it. */
  function FirstMinimum(cs: seq<Candidate>): (i: nat)
    requires |cs| > 0
    ensures i < |cs|
    ensures forall j :: 0 <= j < |cs| ==> cs[i].score <= cs[j].score
    ensures forall j :: 0 <= j < i ==> cs[j].score > cs[i].score
  {
    if |cs| == 1 then 0
    else
      var t := 1 + FirstMinimum(cs[1..]);
      if cs[0].score <= cs[t].score then 0 else t
  }

  /** The percent branch of `parse_trails_lifts_text` once `open/combined%` has
      matched: the best admissible cut; failing that, the `100` special case, whose
      `int(combined[:-3])` raises when `combined` is exactly `100`; failing that,
      the bare reading of the same digits. */
  function ResolvePercent(o: nat, c: string): (r: Result<Counts>)
    requires AllDigits(c)
    ensures r.Ok? ==> r.value.Known? && r.value.open == o
    ensures r.Err? ==> |c| == 3 && EndsWith(c, "100") && Candidates(o, c) == []
  {
    var cs := Candidates(o, c);
    if |cs| > 0 then Ok(Known(o, cs[FirstMinimum(cs)].total))
    else if EndsWith(c, "100") then
      var t :- ParseDigits(c[..|c| - 3]);
      if o == t then Ok(Known(o, t)) else Ok(Known(o, DigitsValue(c)))
    else Ok(Known(o, DigitsValue(c)))
  }

  /** `parse_trails_lifts_text`. `Err` is the `ValueError` raised by `int('')`. */
  function Parse(text: string): (r: Result<Counts>)
    ensures text == "" || text == "-" ==> r == Ok(Unknown)
    ensures r.Ok? && r.value.Known? ==> !MatchShape(text).NoMatch? && r.value.open == MatchShape(text).open
    ensures r.Err? ==> MatchShape(text).Percent? && |MatchShape(text).combined| == 3
  {
    if text == "" || text == "-" then Ok(Unknown)
    else
      match MatchShape(text)
      case NoMatch => Ok(Unknown)
      case Bare(o, t) => Ok(Known(o, t))
      case Percent(o, c) => ResolvePercent(o, c)
  }
}

module TrailsLiftsProofs {

  import opened Wrappers
  import opened Text
  import opened Rounding
  import opened TrailsLifts

  /** Where the pieces of `open/combined%rest` sit. */
  lemma PercentLayout(od: string, c: string, rest: string, text: string)
    requires text == od + "/" + c + "%" + rest
    ensures |text| > |od| + |c| + 1
    ensures text[..|od|] == od && text[|od|] == '/'
    ensures text[|od| + 1..][..|c|] == c && text[|od| + 1..][|c|] == '%'
  {
  }

  /** The regular expression `^(\d+)/(\d+)%` captures exactly the digit runs
      around the slash when a `%` follows them. */
  lemma PercentMatch(od: string, c: string, rest: string, text: string)
    requires |od| > 0 && AllDigits(od) && |c| > 0 && AllDigits(c)
    requires text == od + "/" + c + "%" + rest
    ensures MatchShape(text) == Percent(DigitsValue(od), c)
  {
    PercentLayout(od, c, rest, text);
    LeadingDigitsUpTo(text, |od|);
    LeadingDigitsUpTo(text[|od| + 1..], |c|);
  }

  /** Cutting `|pct|` digits off `c == tot + pct` gives back `tot` and `pct`. */
  lemma SplitAt(tot: string, pct: string, c: string)
    requires |tot| > 0 && AllDigits(tot) && AllDigits(pct) && c == tot + pct
    ensures AllDigits(c) && |pct| < |c|
    ensures SplitTotal(c, |pct|) == DigitsValue(tot)
    ensures SplitPct(c, |pct|) == DigitsValue(pct)
  {
    RunValueOfSlice(c, 0, |tot|);
    RunValueOfSlice(c, |tot|, |c|);
    assert c[0..|tot|] == tot;
    assert c[|tot|..|c|] == pct;
  }

  /** The regular expression `^(\d+)/(\d+)` captures both digit runs; when no
      `%` follows, the cell is read in the bare `open/total` form. */
  lemma BareMatch(od: string, td: string, rest: string, text: string)
    requires |od| > 0 && AllDigits(od) && |td| > 0 && AllDigits(td)
    requires rest == [] || (!IsDigit(rest[0]) && rest[0] != '%')
    requires text == od + "/" + td + rest
    ensures MatchShape(text) == Bare(DigitsValue(od), DigitsValue(td))
  {
    assert text[..|od|] == od && text[|od|] == '/';
    var r := text[|od| + 1..];
    assert r == td + rest;
    LeadingDigitsUpTo(text, |od|);
    LeadingDigitsUpTo(r, |td|);
  }

  /** The candidates list is the admissible cuts of lengths 3, 2, 1, in that order. */
  lemma CandidatesUnfold(open: nat, c: string)
    requires AllDigits(c)
    ensures Candidates(open, c) == OptionToSeq(TrySplit(open, c, 3))
                                   + OptionToSeq(TrySplit(open, c, 2))
                                   + OptionToSeq(TrySplit(open, c, 1))
  {
  }

  /** A cell of the form `open/combined%...` is resolved by the percent branch. */
  lemma ParsePercentForm(o: nat, c: string, rest: string, text: string)
    requires |c| > 0 && AllDigits(c)
    requires text == NatToString(o) + "/" + c + "%" + rest
    ensures Parse(text) == ResolvePercent(o, c)
  {
    var od := NatToString(o);
    NatToStringRoundTrip(o);
    PercentMatch(od, c, rest, text);
  }

  /** Cutting `k` digits is the choice the disambiguator makes: admissible, of
      least score among the admissible cuts, and strictly better than every
      admissible longer percentage (those are tried first and the sort is stable). */
  ghost predicate BestCut(open: nat, c: string, k: nat)
    requires AllDigits(c)
  {
    && 1 <= k <= 3 && ValidSplit(open, c, k)
    && (forall k' :: 1 <= k' <= 3 && ValidSplit(open, c, k') ==> SplitScore(open, c, k) <= SplitScore(open, c, k'))
    && (forall k' :: k < k' <= 3 && ValidSplit(open, c, k') ==> SplitScore(open, c, k) < SplitScore(open, c, k'))
  }

  /** At most one cut is the best one. */
  lemma BestCutUnique(open: nat, c: string, k1: nat, k2: nat)
    requires AllDigits(c)
    requires BestCut(open, c, k1) && BestCut(open, c, k2)
    ensures k1 == k2
  {
  }

  /** In a list ordered by strictly decreasing percentage length, the first
      minimum beats every candidate with a longer percentage. */
  lemma FirstMinimumBeatsLonger(cs: seq<Candidate>, j: nat)
    requires |cs| > 0 && j < |cs|
    requires forall a, b :: 0 <= a < b < |cs| ==> cs[a].pctLen > cs[b].pctLen
    ensures cs[FirstMinimum(cs)].score <= cs[j].score
    ensures cs[FirstMinimum(cs)].pctLen < cs[j].pctLen ==> cs[FirstMinimum(cs)].score < cs[j].score
  {
    var i := FirstMinimum(cs);
    if cs[i].pctLen < cs[j].pctLen {
      assert j < i;
    }
  }

  /** The candidate the disambiguator picks scores no worse than any admissible
      cut, and strictly better than an admissible cut with a longer percentage. */
  lemma {:induction false} PickedBeatsCut(open: nat, c: string, k': nat) returns (k: nat)
    requires AllDigits(c)
    requires 1 <= k' <= 3 && ValidSplit(open, c, k')
    ensures |Candidates(open, c)| > 0
    ensures k == Candidates(open, c)[FirstMinimum(Candidates(open, c))].pctLen
    ensures 1 <= k <= 3 && ValidSplit(open, c, k)
    ensures SplitScore(open, c, k) <= SplitScore(open, c, k')
    ensures k < k' ==> SplitScore(open, c, k) < SplitScore(open, c, k')
  {
    CandidatesComplete(open, c, k');
    var cs := Candidates(open, c);
    var i := FirstMinimum(cs);
    var j :| 0 <= j < |cs| && cs[j].pctLen == k';
    k := cs[i].pctLen;
    FirstMinimumBeatsLonger(cs, j);
    assert cs[j].score == SplitScore(open, c, k');
    assert cs[i].score == SplitScore(open, c, k);
  }

  /** When some cut is admissible, the percent branch returns the open count and
      the total of the best cut, which is positive and at least the open count. */
  lemma {:induction false} ResolvePercentPicksBestCut(open: nat, c: string)
    requires AllDigits(c)
    requires exists k :: 1 <= k <= 3 && ValidSplit(open, c, k)
    ensures exists k :: BestCut(open, c, k) && ResolvePercent(open, c) == Ok(Known(open, SplitTotal(c, k)))
    ensures ResolvePercent(open, c).Ok? && ResolvePercent(open, c).value.Known?
    ensures 0 < ResolvePercent(open, c).value.total && open <= ResolvePercent(open, c).value.total
  {
    var k0 :| 1 <= k0 <= 3 && ValidSplit(open, c, k0);
    var k := PickedBeatsCut(open, c, k0);
    forall k' | 1 <= k' <= 3 && ValidSplit(open, c, k')
      ensures SplitScore(open, c, k) <= SplitScore(open, c, k')
      ensures k < k' ==> SplitScore(open, c, k) < SplitScore(open, c, k')
    {
      var _ := PickedBeatsCut(open, c, k');
    }
    assert BestCut(open, c, k);
  }

  /** With no admissible cut there are no candidates. */
  lemma NoCutNoCandidates(open: nat, c: string)
    requires AllDigits(c)
    requires forall k :: 1 <= k <= 3 ==> !ValidSplit(open, c, k)
    ensures Candidates(open, c) == []
  {
    CandidatesUnfold(open, c);
    assert !ValidSplit(open, c, 3) && !ValidSplit(open, c, 2) && !ValidSplit(open, c, 1);
  }

  /** When `combined` is `X100` and `X` reads as the open count, cutting three
      digits (100% of a positive count) or two (0% of zero) is admissible. */
  lemma HundredCutAdmissible(open: nat, c: string)
    requires AllDigits(c) && |c| > 3 && EndsWith(c, "100")
    requires DigitsValue(c[..|c| - 3]) == open
    ensures ValidSplit(open, c, 3) || ValidSplit(open, c, 2)
  {
    var x := c[..|c| - 3];
    assert c[|c| - 3..] == "100";
    if open > 0 {
      SplitAt(x, NatToString(100), c);
      NatToStringRoundTrip(100);
    } else {
      SplitAt(x + "1", "00", c);
      assert (x + "1")[..|x + "1"| - 1] == x;
    }
  }

  /** With no admissible cut the special `100` case never accepts: either
      `combined` is exactly `100` and `int('')` raises, or the bare reading of the
      same digits is returned, unchecked. */
  lemma {:induction false} ResolvePercentWithoutCut(open: nat, c: string)
    requires AllDigits(c) && |c| > 0
    requires forall k :: 1 <= k <= 3 ==> !ValidSplit(open, c, k)
    ensures c == "100" ==> ResolvePercent(open, c).Err?
    ensures c != "100" ==> ResolvePercent(open, c) == Ok(Known(open, DigitsValue(c)))
  {
    NoCutNoCandidates(open, c);
    if EndsWith(c, "100") && |c| > 3 && DigitsValue(c[..|c| - 3]) == open {
      HundredCutAdmissible(open, c);
    }
  }

  /** The cuts of `100`: `10|0` fits up to ten open, `1|00` up to one, and
      cutting all three digits leaves no total. */
  lemma HundredCuts(open: nat)
    ensures ValidSplit(open, "100", 1) <==> open <= 10
    ensures ValidSplit(open, "100", 2) <==> open <= 1
    ensures !ValidSplit(open, "100", 3)
  {
    SplitAt("10", "0", "100");
    SplitAt("1", "00", "100");
  }

  /** What a cell parses to: no counts exactly when it is empty, `-` or does not
      start with `digits/digits`; an error exactly when it reads `open/100%` with
      more than ten open, where no cut fits and `int('')` raises; otherwise the
      captured open count with some total. */
  lemma {:induction false} ParseOutcome(text: string)
    ensures (Parse(text).Ok? && Parse(text).value.Unknown?)
            <==> (text == "" || text == "-" || MatchShape(text).NoMatch?)
    ensures Parse(text).Err?
            <==> (text != "" && text != "-" && MatchShape(text).Percent?
                  && MatchShape(text).combined == "100" && MatchShape(text).open > 10)
    ensures Parse(text).Ok? && Parse(text).value.Known?
            ==> !MatchShape(text).NoMatch? && Parse(text).value.open == MatchShape(text).open
  {
    if text == "" || text == "-" {
    } else if MatchShape(text).NoMatch? {
      assert Parse(text) == Ok(Unknown);
    } else if MatchShape(text).Bare? {
      assert Parse(text) == Ok(Known(MatchShape(text).open, MatchShape(text).total));
    } else {
      var o, c := MatchShape(text).open, MatchShape(text).combined;
      assert Parse(text) == ResolvePercent(o, c);
      if exists k :: 1 <= k <= 3 && ValidSplit(o, c, k) {
        ResolvePercentPicksBestCut(o, c);
        if c == "100" {
          HundredCuts(o);
          assert o <= 10;
        }
      } else {
        ResolvePercentWithoutCut(o, c);
        if c == "100" {
          HundredCuts(o);
          assert o > 10;
        }
      }
    }
  }

  lemma Example1Cut3()
    ensures TrySplit(9, "1476", 3) == None
  {
    SplitAt(NatToString(1), NatToString(476), "1476");
    NatToStringRoundTrip(1);
    NatToStringRoundTrip(476);
  }

  lemma Example1Cut2()
    ensures TrySplit(9, "1476", 2) == Some(Candidate(14, 76, 2, 12))
  {
    SplitAt(NatToString(14), NatToString(76), "1476");
    NatToStringRoundTrip(14);
    NatToStringRoundTrip(76);
  }

  lemma Example1Cut1()
    ensures TrySplit(9, "1476", 1) == Some(Candidate(147, 6, 1, 0))
  {
    SplitAt(NatToString(147), NatToString(6), "1476");
    NatToStringRoundTrip(147);
    NatToStringRoundTrip(6);
  }

  lemma Example1Cuts()
    ensures TrySplit(9, "1476", 3) == None
    ensures TrySplit(9, "1476", 2) == Some(Candidate(14, 76, 2, 12))
    ensures TrySplit(9, "1476", 1) == Some(Candidate(147, 6, 1, 0))
  {
    Example1Cut3();
    Example1Cut2();
    Example1Cut1();
  }


  lemma Example1Resolve()
    ensures ResolvePercent(9, "1476") == Ok(Known(9, 147))
  {
    Example1Cuts();
    CandidatesUnfold(9, "1476");
    assert Candidates(9, "1476") == [Candidate(14, 76, 2, 12), Candidate(147, 6, 1, 0)];
  }

  /** `"9/1476% Open"`: only the 1-digit cut agrees with 9/147 = 6%. */
  lemma Example1()
    ensures Parse("9/1476% Open") == Ok(Known(9, 147))
  {
    ParsePercentForm(9, "1476", " Open", "9/1476% Open");
    Example1Resolve();
  }

  lemma Example2Cut3()
    ensures TrySplit(45, "16516", 3) == None
  {
    SplitAt(NatToString(16), NatToString(516), "16516");
    NatToStringRoundTrip(16);
    NatToStringRoundTrip(516);
  }

  lemma Example2Cut2()
    ensures TrySplit(45, "16516", 2) == Some(Candidate(165, 16, 2, 11))
  {
    SplitAt(NatToString(165), NatToString(16), "16516");
    NatToStringRoundTrip(165);
    NatToStringRoundTrip(16);
  }

  lemma Example2Cut1()
    ensures TrySplit(45, "16516", 1) == Some(Candidate(1651, 6, 1, 503))
  {
    SplitAt(NatToString(1651), NatToString(6), "16516");
    NatToStringRoundTrip(1651);
    NatToStringRoundTrip(6);
  }

  lemma Example2Cuts()
    ensures TrySplit(45, "16516", 3) == None
    ensures TrySplit(45, "16516", 2) == Some(Candidate(165, 16, 2, 11))
    ensures TrySplit(45, "16516", 1) == Some(Candidate(1651, 6, 1, 503))
  {
    Example2Cut3();
    Example2Cut2();
    Example2Cut1();
  }


  lemma Example2Resolve()
    ensures ResolvePercent(45, "16516") == Ok(Known(45, 165))
  {
    Example2Cuts();
    CandidatesUnfold(45, "16516");
    assert Candidates(45, "16516") == [Candidate(165, 16, 2, 11), Candidate(1651, 6, 1, 503)];
  }

  /** `"45/16516% Open"`: a total of 1651 is penalised, so 165 wins although its
      percentage disagrees more. */
  lemma Example2()
    ensures Parse("45/16516% Open") == Ok(Known(45, 165))
  {
    ParsePercentForm(45, "16516", " Open", "45/16516% Open");
    Example2Resolve();
  }

  lemma Example3Cut3()
    ensures TrySplit(144, "144100", 3) == Some(Candidate(144, 100, 3, 0))
  {
    SplitAt(NatToString(144), NatToString(100), "144100");
    NatToStringRoundTrip(144);
    NatToStringRoundTrip(100);
  }

  lemma Example3Cut2()
    ensures TrySplit(144, "144100", 2) == Some(Candidate(1441, 0, 2, 510))
  {
    SplitAt(NatToString(1441), "00", "144100");
    NatToStringRoundTrip(1441);
  }

  lemma Example3Cut1()
    ensures TrySplit(144, "144100", 1) == Some(Candidate(14410, 0, 1, 501))
  {
    SplitAt(NatToString(14410), NatToString(0), "144100");
    NatToStringRoundTrip(14410);
    NatToStringRoundTrip(0);
  }

  lemma Example3Cuts()
    ensures TrySplit(144, "144100", 3) == Some(Candidate(144, 100, 3, 0))
    ensures TrySplit(144, "144100", 2) == Some(Candidate(1441, 0, 2, 510))
    ensures TrySplit(144, "144100", 1) == Some(Candidate(14410, 0, 1, 501))
  {
    Example3Cut3();
    Example3Cut2();
    Example3Cut1();
  }


  lemma Example3Resolve()
    ensures ResolvePercent(144, "144100") == Ok(Known(144, 144))
  {
    Example3Cuts();
    CandidatesUnfold(144, "144100");
    assert Candidates(144, "144100") == [Candidate(144, 100, 3, 0), Candidate(1441, 0, 2, 510), Candidate(14410, 0, 1, 501)];
  }

  /** `"144/144100% Open"`: the 3-digit cut reads 100% and agrees exactly. */
  lemma Example3()
    ensures Parse("144/144100% Open") == Ok(Known(144, 144))
  {
    ParsePercentForm(144, "144100", " Open", "144/144100% Open");
    Example3Resolve();
  }

  /** `"5/9-"`: no percentage, so the bare form applies. */
  lemma Example4()
    ensures Parse("5/9-") == Ok(Known(5, 9))
  {
    BareMatch("5", "9", "-", "5/9-");
  }

  /** `"200/5%"`: a one-digit `combined` admits no cut, and the bare form returns
      the numbers unchecked, with more open than total. */
  lemma Example5()
    ensures Parse("200/5%") == Ok(Known(200, 5))
  {
    ParsePercentForm(200, "5", "", "200/5%");
    Example5Resolve();
  }

  lemma Example5Resolve()
    ensures ResolvePercent(200, "5") == Ok(Known(200, 5))
  {
    ResolvePercentWithoutCut(200, "5");
  }

  lemma Example6Resolve()
    ensures ResolvePercent(500, "100").Err?
  {
    SplitAt("1", "00", "100");
    SplitAt("10", "0", "100");
    CandidatesUnfold(500, "100");
  }

  /** `"500/100%"`: no cut is admissible and `combined` is exactly `100`, so
      `int('')` raises. */
  lemma Example6()
    ensures Parse("500/100%").Err?
  {
    ParsePercentForm(500, "100", "", "500/100%");
    Example6Resolve();
  }
}

=== FILE: wrappers.dfy ===
/** Failure-compatible wrappers: Python's `None` and raised exceptions are
    modelled as values rather than as control flow. */
module Wrappers {

  /** A value that may be absent; stands for Python's `Optional[T]`. */
  datatype Option<+T> = None | Some(value: T) {

    /** Returns the wrapped value, or `default` when absent (Python's `x or default`
        only when `x` is None). */
    function GetOr(default: T): T {
      match this
      case Some(v) => v
      case None => default
    }
  }

  /** The outcome of a computation that may raise: `Err` carries the exception's name. */
  datatype Result<+T> = Ok(value: T) | Err(error: string) {

    predicate IsFailure() {
      Err?
    }

    function PropagateFailure<U>(): Result<U>
      requires Err?
    {
      Err(error)
    }

    function Extract(): T
      requires Ok?
    {
      value
    }
  }
}
